=== FILE: README.md ===
# events-registration in Dafny

This project models the storefront and admin logic of *events-registration*, a Next.js
site where visitors pick activities of an event, put tickets in a cart (one line per
activity and price tier, member or non-member), check out, and pay by a VietQR
bank-transfer code. Administrators see a dashboard, confirm payments, manage
activities and export statistics.

The model is pure and functional: every entity is an immutable datatype, every page
computation is a function over sequences of records, and every database call is
replaced by the response it returned (`Result`/`Outcome` parameters). The modules
follow the source files:

| module | source |
|---|---|
| `Types` | `src/lib/types.ts`: cart lines, cart, order, order item, attendee, activity |
| `CartReducer` | `src/context/CartContext.tsx`: `initialState`, `cartReducer` and its four actions |
| `Checkout` | `src/app/checkout/page.tsx`: the rows `onSubmit` writes, its step chain, the page's three views |
| `EventsPage` | `src/app/events/page.tsx`: tier and quantity selectors, the add-to-cart payload |
| `CartPage` | `src/app/cart/page.tsx`: line totals, the −/+ steppers, remove, the empty view |
| `Storefront` | the events and cart pages together driving the reducer over a whole visit |
| `Validations` | `src/lib/validations.ts`: the phone pattern and the checkout and activity field rules |
| `Utils` | `src/lib/utils.ts`: `generateOrderCode` and `cn` |
| `QrGenerator` | `src/lib/qr-generator.ts`: `createPaymentQuickLink` |
| `Countdown` | `src/components/ui/countdown.tsx` |
| `Dashboard` | `src/app/admin/dashboard/page.tsx` |
| `AdminOrders` | `src/app/admin/orders/page.tsx` |
| `AdminActivities` | `src/app/admin/activities/page.tsx` |
| `OrdersDetailStats` | `src/app/admin/statistics/orders-detail/page.tsx` |
| `ActivityStats` | `src/app/admin/statistics/activities/page.tsx` |
| `Participants` | `src/app/participants/participants-content.tsx` |
| `Optional`, `Text`, `Lists`, `Csv` | shared: nullable values and responses, decimal text, `includes`, `split`/`join`, whitespace stripping, `filter`/`reduce`/`slice`, array-or-object join results, the CSV layout |

The central result is about the cart. The reducer keeps `totalAmount` and
`totalItems` by deltas instead of recomputing them. `CartReducer.ReducePreservesValid`
proves that every action keeps the stored totals equal to the live sums and keeps at
most one line per (activity, tier), provided a merging ADD_ITEM carries the stored
line's unit price. That proviso is real: a merge adds the payload's price times the
quantity while the line keeps its own price, and `CartReducer.MergeAtOtherPriceDrifts`
exhibits a cart whose stored total is 300 while its lines sum to 200.
`Storefront.SessionsStayGood` closes the gap for the site as built. Starting from the
empty cart and the initial selectors, any sequence of clicks on the events and cart
pages keeps the cart valid, as long as the loaded catalogue's prices do not change
during the visit, because every payload's price is read from the catalogue.

Behaviours of the code worth knowing before reading the contracts:

- ADD_ITEM accepts any quantity, including zero and negative ones (`CartReducer.Add`
  has no such branch). Only UPDATE_QUANTITY ignores quantities below 1.
- The sum invariant (stored totals equal the sums over the lines) holds only under the
  price proviso above.
- The checkout issues five writes in sequence and stops at the first failure. It does
  not undo earlier writes; only the cart is kept (`Checkout.Submit`).
- The admin orders page writes the payment status `completed`. The order record
  declares only `pending`, `paid` and `cancelled` (`AdminOrders.CompletedIsUndeclared`).
  The orders page shows `paid` as awaiting payment. The dashboard badge knows
  `pending`, `completed` and `failed`.

## Model

| member | source | states |
|---|---|---|
| Types.ParsePricingType | src/lib/types.ts:287 | a tier is read back only from `member` or `non_member`, and reading inverts the spelling |
| Types.PricingTypeNames | src/lib/types.ts:287 | exactly two tiers with two distinct spellings, each read back as itself |
| Types.ParsePaymentStatus | src/lib/types.ts:70 | the payment status is one of exactly pending, paid, cancelled, and reading inverts the spelling |
| CartReducer.InitialState | src/context/CartContext.tsx:18-22 | the initial cart has no lines and totals that match its (empty) lines |
| CartReducer.FindIndex | src/context/CartContext.tsx:30-34 | `find` yields the first line with the key, or nothing exactly when no line has it |
| CartReducer.Find | src/context/CartContext.tsx:66-68 | the found line is in the cart and has the key; nothing is found exactly when no line has it |
| CartReducer.Retune | src/context/CartContext.tsx:76-80 | the `map` changes the quantity of every line with the key and leaves every other line, and the length, as they were |
| CartReducer.RemoveWhere | src/context/CartContext.tsx:96-98 | the `filter` never lengthens the list |
| CartReducer.RemoveWhereMembers | src/context/CartContext.tsx:96-98 | the `filter` keeps exactly the lines without the key |
| CartReducer.Add | src/context/CartContext.tsx:26-57 | totals rise by the payload's quantity and price times quantity; a new key is appended at the end; a known key's lines absorb the quantity and nothing else changes |
| CartReducer.Update | src/context/CartContext.tsx:62-84 | a quantity below 1 or an absent key changes nothing, and the number of lines never changes |
| CartReducer.UpdateLines | src/context/CartContext.tsx:72-83 | with a present key and a quantity of at least 1, the key's lines get exactly that quantity and every other line is kept |
| CartReducer.Remove | src/context/CartContext.tsx:86-102 | an absent key changes nothing; otherwise exactly the lines without the key remain and the totals drop by the removed line's contribution |
| CartReducer.Reduce | src/context/CartContext.tsx:24-107 | CLEAR_CART always yields the empty, consistent initial cart; nothing but ADD_ITEM changes an empty cart |
| CartReducer.FindUnique | src/context/CartContext.tsx:30-34 | with unique keys, the line `find` returns is the only line with that key |
| CartReducer.RemoveWhereUnique | src/context/CartContext.tsx:96-98 | filtering keeps keys unique |
| CartReducer.ReducePreservesUnique | src/context/CartContext.tsx:24-107 | every action keeps at most one line per (activity, tier) |
| CartReducer.RetuneSums | src/context/CartContext.tsx:72-83 | with unique keys, changing one line's quantity changes the live sums by exactly that line's difference |
| CartReducer.RemoveSums | src/context/CartContext.tsx:94-101 | with unique keys, filtering removes exactly one position and its contribution to both live sums |
| CartReducer.RemoveShape | src/context/CartContext.tsx:96-98 | when only position p has the key, the filter gives the list without position p |
| CartReducer.MergeSums | src/context/CartContext.tsx:36-48 | with unique keys, merging a quantity into the key's line moves the live count by it and the live amount by the line's price times it |
| CartReducer.SetSums | src/context/CartContext.tsx:72-83 | with unique keys, setting the key's line to a quantity moves both live sums by that line's change |
| CartReducer.SumsAppend | src/context/CartContext.tsx:51-56 | the live sums of an appended cart are the sums of its parts |
| CartReducer.AddKeepsTotals | src/context/CartContext.tsx:26-57 | from a valid cart, ADD_ITEM keeps the stored totals equal to the live sums when a merge carries the line's price |
| CartReducer.UpdateKeepsTotals | src/context/CartContext.tsx:62-84 | from a valid cart, UPDATE_QUANTITY keeps the stored totals equal to the live sums |
| CartReducer.RemoveKeepsTotals | src/context/CartContext.tsx:86-102 | from a valid cart, REMOVE_ITEM keeps the stored totals equal to the live sums |
| CartReducer.ReducePreservesTotals | src/context/CartContext.tsx:24-107 | from a valid cart, each action keeps the stored totals equal to the live sums, if a merging add carries the line's price |
| CartReducer.ReducePreservesValid | src/context/CartContext.tsx:24-107 | validity (unique keys and consistent totals) is kept by every action under the same price proviso |
| CartReducer.MergeAtOtherPriceDrifts | src/context/CartContext.tsx:40-47 | adding a known key at another price makes the stored total (300) differ from the live sum (200) |
| CartReducer.AddMergesIntoTheLine | src/context/CartContext.tsx:36-48 | adding a known key adds no line, adds the quantity to that line, keeps its price and every other line |
| CartReducer.UpdateSetsTheLine | src/context/CartContext.tsx:72-83 | an update with quantity at least 1 sets exactly that line's quantity and no other line |
| CartReducer.RemoveDeletesTheLine | src/context/CartContext.tsx:94-101 | removing a present key deletes exactly that position and keeps the rest in order |
| CartReducer.RemoveIdempotent | src/context/CartContext.tsx:86-92 | a second removal of the same key changes nothing |
| CartReducer.ReducePreservesPositive | src/context/CartContext.tsx:24-107 | positive line quantities stay positive when added quantities are positive |
| CartReducer.ReduceKeepsLinePrices | src/context/CartContext.tsx:24-107 | every line after an action is either the added payload or has the price of a line with its key before |
| CartReducer.RunPreservesValid | src/context/CartContext.tsx:24-107 | any sequence of actions keeps keys unique, and keeps the cart valid when every merge carries the stored price |
| CartReducer.ClearAfterRun | src/context/CartContext.tsx:59-60 | whatever came before, clearing yields the initial cart |
| CartReducer.AddTwiceMerges | src/context/CartContext.tsx:30-56 | two adds of one new key give one new line with both quantities, at the first add's price |
| CartReducer.DistinctTiersNeverMerge | src/context/CartContext.tsx:30-34 | adds of the two tiers of one activity give two lines, in order |
| Checkout.OrderHeader | src/app/checkout/page.tsx:254-259 | the order carries the cart's stored total, status pending, the code and the registration id |
| Checkout.OrderItemRows | src/app/checkout/page.tsx:269-275 | one row per cart line, in order, with the line's activity, quantity, price, and price times quantity as subtotal; no tier |
| Checkout.AttendeeRows | src/app/checkout/page.tsx:287-295 | one row per cart line, all with the registrant's details, the order id and primary set |
| Checkout.SubtotalSumIsAmountSum | src/app/checkout/page.tsx:269-275 | the subtotals add up to the cart's live amount |
| Checkout.SubtotalsMatchOrderTotal | src/app/checkout/page.tsx:257 | with consistent totals, the subtotals add up to the order's total |
| Checkout.Submit | src/app/checkout/page.tsx:225-349 | the first failing step ends the writes, keeps the cart and alerts "Lỗi: " then its error's message, or "Không thể tạo đơn hàng" when that error is not an `Error`; when all succeed, five writes, the cart is cleared and the record holds the total and the lines |
| Checkout.SubmitWrites | src/app/checkout/page.tsx:250-326 | each issued write is the header, the item rows, the attendee rows, and the QR link for the total and the order code |
| Checkout.ConfirmationRecord | src/app/checkout/page.tsx:307-337 | the confirmation record echoes the receiving account and the QR link built for the total and the order code |
| Checkout.CartClearedIffAllStepsSucceed | src/app/checkout/page.tsx:329-345 | the cart ends empty exactly when every step succeeded and is unchanged exactly when one failed |
| Checkout.View | src/app/checkout/page.tsx:77-223 | the form shows only with no confirmation and a non-empty cart; the empty view exactly for an empty cart without confirmation |
| EventsPage.InitialSelectors | src/app/events/page.tsx:45-51 | every loaded activity starts at quantity 1 and the non-member tier, and only loaded activities have entries |
| EventsPage.GetCartQuantityFor | src/app/events/page.tsx:64-73 | the quantity of the line with the key, or 0 when there is none |
| EventsPage.CartQuantityOfLine | src/app/events/page.tsx:64-73 | with unique keys, the lookup returns each line's own quantity |
| EventsPage.UnitPriceFor | src/app/events/page.tsx:80-83 | the member price for the member tier, the non-member price otherwise, a missing price reading as 0 |
| EventsPage.AddToCartPayload | src/app/events/page.tsx:75-91 | the payload is the activity's id and title, the selected tier and quantity, and that tier's price; positive selectors give a positive quantity |
| EventsPage.ChangeQuantity | src/app/events/page.tsx:96-101 | the stored quantity is the input if at least 1 and 1 otherwise; nothing else changes |
| EventsPage.ChangePricing | src/app/events/page.tsx:104-116 | the tier is set; the quantity becomes the in-cart quantity if positive, else 1; nothing else changes |
| CartPage.LineTotalsAddUp | src/app/cart/page.tsx:69 | the displayed line totals add up to the live amount, and to the stored total when it is consistent |
| CartPage.Decrement | src/app/cart/page.tsx:94-99 | the − stepper asks for the same key with max(1, quantity − 1): one less from 2 up, exactly 1 from 2 down |
| CartPage.Increment | src/app/cart/page.tsx:110-115 | the + stepper asks for the same key with one more |
| CartPage.RemoveRequest | src/app/cart/page.tsx:145 | remove names both the activity and the tier |
| CartPage.DecrementKeepsLine | src/app/cart/page.tsx:94-99 | the − stepper never removes a line and never leaves a quantity below 1 |
| CartPage.IncrementRaisesTotals | src/app/cart/page.tsx:110-115 | the + stepper raises the count by one and the amount by the line's price |
| CartPage.RemoveOnlyThatTier | src/app/cart/page.tsx:145 | removing one tier's line keeps the other tier's line |
| CartPage.View | src/app/cart/page.tsx:18-39 | the empty view exactly for an empty cart; otherwise the lines and both totals |
| Storefront.ActionKeepsCataloguePrices | src/app/events/page.tsx:75-91 | actions keep every line's price equal to the catalogue's price for its tier |
| Storefront.Step | src/app/events/page.tsx:75-116 | one click on the events page or the cart page (cart/page.tsx:94-145): selector clicks leave the cart alone, cart clicks leave the selectors alone, a click on an unknown activity or a missing line changes nothing, and a finished checkout leaves a valid empty cart |
| Storefront.CartActionKeepsGood | src/context/CartContext.tsx:24-107 | a cart action whose added line has a positive quantity and the catalogue price keeps the cart valid, quantities positive and prices from the catalogue |
| Storefront.StepKeepsGood | src/app/cart/page.tsx:94-145 | every click on the events or cart page keeps the cart valid, quantities positive and prices from the catalogue |
| Storefront.RunKeepsGood | src/app/events/page.tsx:75-116 | from any good session, any further sequence of clicks keeps it good |
| Storefront.SessionsStayGood | src/context/CartContext.tsx:24-107 | from the initial cart and selectors, any sequence of clicks keeps the cart valid |
| Validations.CheckPhone | src/lib/validations.ts:3-6 | the scan accepts exactly the numbers that, stripped of whitespace, are "0" or "+84" then a digit 1-9 then 8 or 9 digits |
| Validations.IsValidPhoneNumber | src/lib/validations.ts:3-6 | the reference definition of the rule the scan decides; an accepted number has at least 10 characters |
| Validations.WhitespaceNeverMatters | src/lib/validations.ts:5 | inserting whitespace anywhere never changes the verdict |
| Validations.AcceptedLengths | src/lib/validations.ts:4 | an accepted number, stripped, has 10-11 characters after "0" or 12-13 after "+84" |
| Validations.RejectedAfterPrefix | src/lib/validations.ts:4 | a 0 right after the prefix, or any non-digit after it, is rejected |
| Validations.CheckoutErrors | src/lib/validations.ts:8-20 | each field is flagged exactly when its rule fails: name under 2, invalid phone, bad non-empty e-mail, bad unit id, unknown seat request |
| Validations.ActivityErrors | src/lib/validations.ts:27-36 | each field is flagged exactly when its rule fails: title under 3, negative price, status not active or inactive |
| Utils.GenerateOrderCode | src/lib/utils.ts:12-16 | every order code starts with NYC26 |
| Utils.OrderCodeShape | src/lib/utils.ts:12-16 | for a dated timestamp and a draw under 10000, the code has 17 characters: NYC26, the 8 date digits, and 4 digits reading back as the draw |
| Utils.IsoDatePart | src/lib/utils.ts:13 | the date part of a timestamp is its year, month and day digits with the dashes removed |
| Utils.CnOfFalsy | src/lib/utils.ts:18-20 | with no truthy argument the result is empty |
| Utils.FalsyArgumentIgnored | src/lib/utils.ts:18-20 | a falsy argument anywhere in the list changes nothing |
| Utils.CnSplitsBack | src/lib/utils.ts:18-20 | splitting the result on spaces gives back exactly the truthy arguments, in order, when none contains a space |
| Utils.Cn | src/lib/utils.ts:18-20 | the result is empty exactly when no argument is truthy, and a single truthy argument comes back as it is |
| QrGenerator.CreatePaymentQuickLink | src/lib/qr-generator.ts:1-21 | bank code, account number and name echo the inputs; the URL starts with the image base, then bank-account-compact.png and "?" |
| QrGenerator.QueryJoin | src/lib/qr-generator.ts:11-13 | joining the three query fields with '&' gives amount, addInfo with the encoded description, and accountName with the encoded name |
| QrGenerator.QuickLinkQueryRoundTrip | src/lib/qr-generator.ts:11-13 | the query splits into amount, addInfo and accountName in that order, the amount reading back as the number and the other two as the encoder's outputs |
| Countdown.Decompose | src/components/ui/countdown.tsx:21-27 | nothing exactly when the time has passed; otherwise hours under 24, minutes and seconds under 60, recomposing to the whole seconds left |
| Countdown.Format | src/components/ui/countdown.tsx:7-9 | at least two digits, unchanged for numbers of two or more digits |
| Countdown.FormatRoundTrip | src/components/ui/countdown.tsx:7-9 | the padded text reads back as the number |
| Countdown.Banner | src/components/ui/countdown.tsx:21-36 | the banner is shown exactly while time remains, and its text is the clock text of the decomposition |
| Countdown.FieldsReadBack | src/components/ui/countdown.tsx:35 | the time split on ':' is three digit fields that read back as hours, minutes and seconds |
| Countdown.ClockTextWords | src/components/ui/countdown.tsx:35 | split on spaces, the text is the day count, "ngày" and the time |
| Countdown.ClockTextReadsBack | src/components/ui/countdown.tsx:35 | the text reads back as the days, then the hours, minutes and seconds |
| Countdown.BannerReadsBack | src/components/ui/countdown.tsx:21-36 | while time remains, the banner reads back as the days, hours, minutes and seconds of the remaining time |
| Dashboard.SumRevenue | src/app/admin/dashboard/page.tsx:80-84 | the left-to-right reduce gives the sum of the numeric amounts |
| Dashboard.Revenue | src/app/admin/dashboard/page.tsx:80-84 | the revenue is the sum over exactly the orders whose amount is a number; other amounts add nothing |
| Dashboard.RevenueAppend | src/app/admin/dashboard/page.tsx:80-84 | revenue of concatenated lists adds up |
| Dashboard.RevenueNonNegative | src/app/admin/dashboard/page.tsx:80-84 | non-negative amounts give non-negative revenue |
| Dashboard.ComputeMetrics | src/app/admin/dashboard/page.tsx:79-97 | order count, pending count (never above it), activity and attendee counts, and the first min(5, n) orders in order; null lists count as empty |
| Dashboard.FetchMetrics | src/app/admin/dashboard/page.tsx:47-100 | figures exist exactly when all three reads succeed, and are those of the three reads; otherwise the first failing read's message, or "Không thể tải dữ liệu" when its error is not an `Error` |
| Dashboard.StatusLabel | src/app/admin/dashboard/page.tsx:216-238 | fixed labels for pending, completed, failed; any other status shown as it is |
| Dashboard.StatusLabelsDistinct | src/app/admin/dashboard/page.tsx:217-233 | the three known statuses get three different labels |
| Dashboard.Row | src/app/admin/dashboard/page.tsx:172-189 | the code; the registrant's name, or a dash when missing; a falsy amount as zero, a number as itself and a truthy non-number passed to the formatter unchanged; the status badge's label |
| Dashboard.ShownAmount | src/app/admin/dashboard/page.tsx:181 | `total_amount || 0`: falsy becomes 0, anything else passes through |
| Dashboard.RowAgreesWithRevenue | src/app/admin/dashboard/page.tsx:80-84 | the table's figure equals what the revenue counts exactly when the amount is not a truthy non-number |
| AdminOrders.Normalise | src/app/admin/orders/page.tsx:83-97 | the id, code, status, amount and creation time are copied; an array registration becomes its first element or null, an object is kept; items become a list (singleton for an object, empty when missing) |
| AdminOrders.LoadOrders | src/app/admin/orders/page.tsx:60-105 | each row normalised, in the order read; an empty list for null data; or the error's message, "Lỗi tải dữ liệu" when it is not an `Error` |
| AdminOrders.Search | src/app/admin/orders/page.tsx:49-58 | an order is kept exactly when the lower-cased query is in the lower-cased code or registrant name; kept orders come from the list |
| AdminOrders.EmptyQueryShowsAll | src/app/admin/orders/page.tsx:49-58 | an empty query keeps every order, in order |
| AdminOrders.CodeSearchFindsOrder | src/app/admin/orders/page.tsx:52 | an order whose code contains the query, ignoring case, is found |
| AdminOrders.AnonymousFoundByCodeOnly | src/app/admin/orders/page.tsx:53-55 | an order without registrant matches only through its code |
| AdminOrders.ConfirmPayment | src/app/admin/orders/page.tsx:107-124 | on success exactly the orders with that id become completed and the rest and the length are unchanged; on failure the list is unchanged and the error's message shown, or "Lỗi cập nhật trạng thái" when it is not an `Error` |
| AdminOrders.ConfirmSettles | src/app/admin/orders/page.tsx:116-120 | afterwards that order no longer offers the button, a second confirm changes nothing, and codes, amounts and items are kept |
| AdminOrders.StatusLabel | src/app/admin/orders/page.tsx:179-183 | completed and cancelled have their labels, everything else reads as awaiting payment |
| AdminOrders.CompletedIsUndeclared | src/app/admin/orders/page.tsx:111 | the written status is outside the declared payment states, and a paid order is labelled as pending |
| AdminOrders.ItemLineShowsSubtotal | src/app/admin/orders/page.tsx:235 | the item line's price times quantity equals the stored subtotal for rows written at checkout |
| AdminOrders.ItemLineAmount | src/app/admin/orders/page.tsx:235 | the line amount is price times quantity, so it equals the stored subtotal of any item whose subtotal was written that way, and the unit price for a single item |
| AdminOrders.CardAmountsAreSubtotals | src/app/admin/orders/page.tsx:225-237 | when every item was written at checkout, each amount on the card is that item's stored subtotal |
| AdminOrders.CardOf | src/app/admin/orders/page.tsx:189-238 | no registrant: a dash, a lone space and "Không có"; otherwise the name (dash when empty), the unit or "Không có", and the phone and a space, then " / " and the e-mail when there is one; line k is item k's text and amount k its price times quantity |
| AdminOrders.ItemText | src/app/admin/orders/page.tsx:228-233 | the title or "Hoạt động", " × " and the quantity, then the tier in parentheses with no space before it when there is one |
| AdminActivities.TallyAttendees | src/app/admin/activities/page.tsx:74-81 | every listed id and every attendee's id has an entry, and each entry is the number of attendee rows naming it |
| AdminActivities.CountSumSnoc | src/app/admin/activities/page.tsx:79-81 | one more attendee row raises the listed counts' total by one exactly when its activity is listed |
| AdminActivities.CountsAddUp | src/app/admin/activities/page.tsx:79-81 | with distinct ids and every attendee in the list, the counts add up to the number of attendee rows |
| AdminActivities.LoadActivities | src/app/admin/activities/page.tsx:43-94 | an empty list gives no activities whatever the attendee read; otherwise each activity in order with its attendee count, or the first error's message ("Không thể tải danh sách hoạt động" when it is not an `Error`) |
| AdminActivities.ParticipantText | src/app/admin/activities/page.tsx:241-242 | the count, then " / " and the maximum only when there is one |
| AdminActivities.ResetForm | src/app/admin/activities/page.tsx:96-106 | every field empty and nothing edited |
| AdminActivities.OpenCreateForm | src/app/admin/activities/page.tsx:108-111 | the empty form, open, editing nothing |
| AdminActivities.OpenEditForm | src/app/admin/activities/page.tsx:113-124 | the form holds the activity's fields, missing values as empty fields, a present date converted for the date-time input, and edits that activity |
| AdminActivities.Payload | src/app/admin/activities/page.tsx:141-150 | empty texts and blank numbers become null; filled dates are converted; the title is kept |
| AdminActivities.ResetPayload | src/app/admin/activities/page.tsx:96-150 | an untouched new form writes only its title, everything else null |
| AdminActivities.EditRoundTrip | src/app/admin/activities/page.tsx:113-150 | editing and saving untouched writes back the activity's own values when its texts are non-empty and the date conversions undo each other |
| AdminActivities.HandleSubmit | src/app/admin/activities/page.tsx:137-171 | an update of the edited activity, stamped with the time of the save, or an insert of the form's payload; success closes the form and reloads; failure keeps it and shows the message, or "Không thể lưu hoạt động" when the error is not an `Error` |
| AdminActivities.HandleDelete | src/app/admin/activities/page.tsx:173-188 | nothing without confirmation; otherwise deleted, or the error's message, "Không thể xóa hoạt động" when it is not an `Error` |
| Csv.Quote | src/app/admin/statistics/orders-detail/page.tsx:105 | the cell between two double quotes, unchanged |
| Csv.Document | src/app/admin/statistics/orders-detail/page.tsx:104-106 | the text of a non-empty table begins with its first row's line |
| Csv.LinesOfDocument | src/app/admin/statistics/orders-detail/page.tsx:104-106 | with no newline in a cell, the text splits into exactly one line per row, in order |
| Csv.CellsOfLine | src/app/admin/statistics/orders-detail/page.tsx:105 | with no comma in a cell, a line splits into the quoted cells |
| Csv.QuotesNotEscaped | src/app/admin/statistics/orders-detail/page.tsx:105 | quoting adds exactly two double quotes and leaves inner ones unescaped |
| OrdersDetailStats.Search | src/app/admin/statistics/orders-detail/page.tsx:61-66 | a row is kept exactly when the lower-cased term is in the code, the name or the unit name |
| OrdersDetailStats.EmptyTermShowsAll | src/app/admin/statistics/orders-detail/page.tsx:61-66 | an empty term keeps every row |
| OrdersDetailStats.AbsentUnitMatchesOnlyEmpty | src/app/admin/statistics/orders-detail/page.tsx:65 | a null unit name matches only the empty term |
| OrdersDetailStats.EmptyMessage | src/app/admin/statistics/orders-detail/page.tsx:348 | "Không tìm thấy kết quả" exactly for a non-empty search term, "Chưa có dữ liệu thống kê" exactly for none |
| OrdersDetailStats.ActivityCell | src/app/admin/statistics/orders-detail/page.tsx:83-88 | the cell is "-" for a null or empty list, and otherwise the joined entries, at least four characters long (so never the dash) |
| OrdersDetailStats.JoinedDetails | src/app/admin/statistics/orders-detail/page.tsx:83-88 | the joined entries are empty exactly when there are no entries, and at least four characters otherwise |
| OrdersDetailStats.JoinedDetailsIsJoin | src/app/admin/statistics/orders-detail/page.tsx:83-88 | the cell is the entries' `activity (qty)` texts, in order, joined with "; " |
| OrdersDetailStats.JoinedDetailsSplit | src/app/admin/statistics/orders-detail/page.tsx:83-88 | with no ';' in any activity name, splitting the cell on ';' gives one piece per entry, in order: the first entry's text, then each later one after a space |
| OrdersDetailStats.DetailText | src/app/admin/statistics/orders-detail/page.tsx:84 | an entry is longer than its activity name by at least four characters and ends with ")" |
| OrdersDetailStats.DetailTextParts | src/app/admin/statistics/orders-detail/page.tsx:84 | an entry reads back as the activity name, then " (", then text that reads back as the quantity, then ")" |
| OrdersDetailStats.Row | src/app/admin/statistics/orders-detail/page.tsx:90-101 | ten cells, starting with the order code and the registrant's name |
| OrdersDetailStats.RowFallbacks | src/app/admin/statistics/orders-detail/page.tsx:93-100 | a missing or empty unit or title is written "Không có", a present one as it is; the last cell is the formatted date |
| OrdersDetailStats.RowActivityTexts | src/app/admin/statistics/orders-detail/page.tsx:83-101 | a listed activity cell of the export, for members and guests, is the entries' `activity (qty)` texts joined with "; " |
| OrdersDetailStats.RowActivityCells | src/app/admin/statistics/orders-detail/page.tsx:83-88 | each activity cell is "-" exactly when its list is null or empty |
| OrdersDetailStats.RowNumbers | src/app/admin/statistics/orders-detail/page.tsx:96-99 | the three quantity cells read back as the member, guest and total quantities |
| OrdersDetailStats.RowOneLine | src/app/admin/statistics/orders-detail/page.tsx:90-101 | a row whose texts have no line break has none in any cell |
| OrdersDetailStats.HeaderOneLine | src/app/admin/statistics/orders-detail/page.tsx:69-80 | no header cell holds a line break |
| OrdersDetailStats.RowsOneLine | src/app/admin/statistics/orders-detail/page.tsx:82-104 | with single-line texts, no cell of the header or of any row holds a line break |
| OrdersDetailStats.Rows | src/app/admin/statistics/orders-detail/page.tsx:82-104 | the header first, then one row per statistics row, in order |
| OrdersDetailStats.ExportCsv | src/app/admin/statistics/orders-detail/page.tsx:68-106 | whatever the rows hold, the export begins with the header line |
| OrdersDetailStats.ExportShape | src/app/admin/statistics/orders-detail/page.tsx:104-106 | with single-line texts, the export has one line per row plus the header, line k+1 being row k |
| OrdersDetailStats.Summarise | src/app/admin/statistics/orders-detail/page.tsx:115-120 | the order count and the sums of member, guest and total quantities over all rows |
| OrdersDetailStats.SummaryAddsUp | src/app/admin/statistics/orders-detail/page.tsx:115-120 | when each row's total is member plus guest, so is the grand total |
| OrdersDetailStats.SummaryAppend | src/app/admin/statistics/orders-detail/page.tsx:115-120 | the summary of concatenated rows adds up |
| OrdersDetailStats.Toggle | src/app/admin/statistics/orders-detail/page.tsx:194-198 | clicking the expanded card collapses it; clicking another expands that one |
| OrdersDetailStats.ToggleTwice | src/app/admin/statistics/orders-detail/page.tsx:194-198 | two clicks on one card restore a collapsed page |
| OrdersDetailStats.CardTexts | src/app/admin/statistics/orders-detail/page.tsx:228-236 | a missing unit or title shows as a dash |
| Optional.RowsOrEmpty | src/app/admin/statistics/activities/page.tsx:27-46 | both statistics pages' `fetchStatistics` (also orders-detail/page.tsx:40-59): the rows, an empty list for null data, or the read's message, which is re-thrown as an `Error` and so always shown |
| ActivityStats.Row | src/app/admin/statistics/activities/page.tsx:55-60 | four cells: the title, then the three counts as decimal text that reads back as the counts |
| ActivityStats.Rows | src/app/admin/statistics/activities/page.tsx:49-62 | the four-cell header, then one row per activity |
| ActivityStats.ExportCsv | src/app/admin/statistics/activities/page.tsx:48-64 | whatever the rows hold, the export begins with the header line |
| ActivityStats.HeaderOneLine | src/app/admin/statistics/activities/page.tsx:49-54 | no header cell holds a line break |
| ActivityStats.RowOneLine | src/app/admin/statistics/activities/page.tsx:55-60 | a row whose activity title has no line break has none in any cell |
| ActivityStats.RowsOneLine | src/app/admin/statistics/activities/page.tsx:49-62 | with single-line titles, no cell of the header or of any row holds a line break |
| ActivityStats.ExportLineCount | src/app/admin/statistics/activities/page.tsx:62-64 | with single-line titles the export has exactly one line more than there are activities |
| ActivityStats.RowHasFourCells | src/app/admin/statistics/activities/page.tsx:62-64 | with no comma in the title a row splits into four cells |
| ActivityStats.Summarise | src/app/admin/statistics/activities/page.tsx:73-75 | the sums of member, guest and total counts |
| ActivityStats.SummaryAddsUp | src/app/admin/statistics/activities/page.tsx:73-75 | when each total is members plus guests, so is the grand total |
| ActivityStats.Percentage | src/app/admin/statistics/activities/page.tsx:162-165 | "0" for an activity without participants, the rendered share otherwise |
| ActivityStats.TableIndex | src/app/admin/statistics/activities/page.tsx:161-176 | rows are numbered from one, in order |
| Participants.ToParticipant | src/app/participants/participants-content.tsx:99-106 | missing name and phone become "", a missing or empty e-mail null, the unit unknown |
| Participants.FromRegistrations | src/app/participants/participants-content.tsx:98-108 | every registration object with an id gives a participant, and every participant comes from one |
| Participants.NoIdNoParticipant | src/app/participants/participants-content.tsx:99 | registrations without an id give nobody |
| Participants.CollectAppend | src/app/participants/participants-content.tsx:91-109 | participants are listed order by order |
| Participants.Collect | src/app/participants/participants-content.tsx:91-109 | every registration object with an id, of every order, is listed, and every listed participant comes from such an object |
| Participants.SingleRegistration | src/app/participants/participants-content.tsx:92-96 | a single object is wrapped into one participant; a missing one gives nobody |
| Participants.UnitNameOf | src/app/participants/participants-content.tsx:128-135 | the first element's name for an array, the object's name for an object, null otherwise; never an empty name |
| Participants.UnitMap | src/app/participants/participants-content.tsx:126-138 | exactly one entry per registration id read |
| Participants.LastRowWins | src/app/participants/participants-content.tsx:137 | an id's entry comes from the last row with that id |
| Participants.BuildUnitMap | src/app/participants/participants-content.tsx:126-138 | the loop builds that map |
| Participants.UnitFor | src/app/participants/participants-content.tsx:142 | the mapped name, or null when absent or empty |
| Participants.AttachUnits | src/app/participants/participants-content.tsx:141-143 | every participant gets its mapped unit and nothing else changes |
| Participants.Load | src/app/participants/participants-content.tsx:28-158 | nothing without an activity id; the title or its default; no attendees gives an empty list; a failed attendee or order read shows its message, or "Lỗi khi tải dữ liệu" when it is not an `Error`; otherwise exactly the collected participants in order, each with its unit from the map when the unit read succeeds and unchanged when it fails |
| Participants.TableRow | src/app/participants/participants-content.tsx:236-248 | only a null e-mail or unit shows a dash |
| Text.IntToStringRoundTrip | src/app/admin/statistics/activities/page.tsx:57-59 | the decimal text of a number reads back as the number |
| Text.StripIdempotent | src/lib/validations.ts:5 | stripping whitespace twice is stripping once |
| Text.SplitJoin | src/lib/utils.ts:19 | splitting a join on a separator no piece contains gives the pieces back |
| Lists.Filter | src/app/admin/orders/page.tsx:50 | `filter` keeps exactly the elements passing the test, and nothing longer |
| Lists.FilterAppend | src/app/admin/orders/page.tsx:50 | filtering distributes over concatenation, so order is kept |
| Lists.FilterIdempotent | src/app/admin/orders/page.tsx:50 | filtering twice is filtering once |
| Lists.Reduce | src/app/admin/statistics/activities/page.tsx:73-75 | the left-to-right reduce computes the sum |
| Lists.Take | src/app/admin/dashboard/page.tsx:88 | `slice(0, n)` has min(n, length) elements, each the original's |
| Lists.FirstOfAllOf | src/app/admin/orders/page.tsx:89-96 | the first of a join result exists exactly when its list is non-empty, and is its head |

## Left out

- Every database call (Supabase reads, inserts, updates, stored procedures, auth) is
  replaced by the response it returned; query building, ordering by `created_at` and
  the filters a query applies on the server are the database's business.
- The confirmation e-mail route, the login page, the admin layout and navigation, the
  landing pages, the search page and all JSX layout: rendering and navigation only.
- `formatVND`, `formatDate`, `toLocaleString` and every `Intl` use: locale formatting.
  Amounts and dates that are shown formatted are passed through a formatter parameter
  or kept as numbers.
- `Date.now`, `new Date().toISOString()`, `Math.random`, `toLocalInput` and the
  reverse date conversion, `encodeURIComponent`: they are parameters.
- The toast, the countdown's timer and the loading flags: timers and UI state.
- The member share's `toFixed(1)`: floating point; the rendering is a parameter.
- JavaScript numbers are modelled as unbounded integers: no fractional prices, no
  `NaN`, no overflow beyond 2^53.
- Zod's `.email()` and `.uuid()` checks are parameters (`isEmail`, `isUuid`).
- The CSV download (Blob, object URL, link click). The CSV quoting does not escape
  inner double quotes, so no parse-back is claimed (`Csv.QuotesNotEscaped`).
- The stale earlier page variants under `code/`: they call a different cart API.
- The reducer's `default:` branch: actions are a closed datatype, so it cannot be
  reached.
- Whether a database client's error object is an instance of `Error` is not decided
  by the code: every failed response carries that as a flag (`isError`), and each
  `catch` shows the message or its own fallback text accordingly (`Optional.CaughtText`).
- AdminOrders.Search: lower-casing is modelled for ASCII letters only; JavaScript's `toLowerCase` also folds other scripts.
- OrdersDetailStats.Search: lower-casing is modelled for ASCII letters only, as above.
- Validations.CheckoutErrors: string length is counted in UTF-16 code units as JavaScript does; the optional title, special request and note have no rule and are not checked.
- Countdown.Decompose: the remaining milliseconds are an integer; the target date and the clock are outside the model.

=== FILE: activity_stats.dfy ===
/** The per-activity statistics page: the CSV export, the summary figures
    and the member-share column. The rows come from a stored database
    procedure; the one-decimal percentage rendering is a parameter. */
module ActivityStats {
  import opened Optional
  import opened Text
  import opened Lists
  import Csv

  datatype ActivityStat = ActivityStat(
    activityId: string,
    activityTitle: string,
    memberCount: int,
    nonMemberCount: int,
    totalParticipants: int)

  function FetchStatistics(resp: Result<Option<seq<ActivityStat>>>): Loaded<seq<ActivityStat>> {
    RowsOrEmpty(resp)
  }

  const Header: seq<string> := ["Hoạt động", "Thành viên", "Khách mời", "Tổng cộng"]

  /** The four cells of one activity: title and the three counts. */
  function Row(item: ActivityStat): (r: seq<string>)
    ensures |r| == |Header|
    ensures r[0] == item.activityTitle
    ensures AllDigits(r[1]) <==> item.memberCount >= 0
    ensures item.memberCount >= 0 ==> ParseNat(r[1]) == item.memberCount
    ensures item.nonMemberCount >= 0 ==> AllDigits(r[2]) && ParseNat(r[2]) == item.nonMemberCount
    ensures item.totalParticipants >= 0 ==> AllDigits(r[3]) && ParseNat(r[3]) == item.totalParticipants
  {
    NatToStringRoundTrip(if item.memberCount >= 0 then item.memberCount else 0);
    NatToStringRoundTrip(if item.nonMemberCount >= 0 then item.nonMemberCount else 0);
    NatToStringRoundTrip(if item.totalParticipants >= 0 then item.totalParticipants else 0);
    [item.activityTitle, IntToString(item.memberCount), IntToString(item.nonMemberCount),
     IntToString(item.totalParticipants)]
  }

  /** One row per activity, in order. */
  function Body(stats: seq<ActivityStat>): (b: seq<seq<string>>)
    ensures |b| == |stats|
    ensures forall k :: 0 <= k < |stats| ==> b[k] == Row(stats[k])
  {
    seq(|stats|, k requires 0 <= k < |stats| => Row(stats[k]))
  }

  function Rows(stats: seq<ActivityStat>): (r: seq<seq<string>>)
    ensures |r| == |stats| + 1 && r[0] == Header
    ensures forall k :: 0 <= k < |stats| ==> r[k + 1] == Row(stats[k])
  {
    ConsParts(Header, Body(stats));
    [Header] + Body(stats)
  }

  /** `exportToCSV`: the header then one row per activity. Whatever the
      rows hold, the text begins with the header line. */
  function ExportCsv(stats: seq<ActivityStat>): (r: string)
    ensures IsPrefix(Csv.Line(Header), r)
  {
    Csv.Document(Rows(stats))
  }

  /** No header cell holds a line break. */
  lemma HeaderOneLine()
    ensures forall c :: 0 <= c < |Header| ==> '\n' !in Header[c]
  {
    var h := Header;
    forall c | 0 <= c < |h| ensures '\n' !in h[c] {
      assert c == 0 || c == 1 || c == 2 || c == 3;
    }
  }

  /** An activity's row holds no line break when its title holds none. */
  lemma RowOneLine(item: ActivityStat)
    requires '\n' !in item.activityTitle
    ensures forall c :: 0 <= c < |Row(item)| ==> '\n' !in Row(item)[c]
  {
    var r := Row(item);
    assert '\n' !in r[1] && '\n' !in r[2] && '\n' !in r[3];
    forall c | 0 <= c < |r| ensures '\n' !in r[c] {
      assert c == 0 || c == 1 || c == 2 || c == 3;
    }
  }

  /** Line r of the export holds no line break in any cell. */
  lemma RowOfRowsOneLine(stats: seq<ActivityStat>, r: nat)
    requires forall k :: 0 <= k < |stats| ==> '\n' !in stats[k].activityTitle
    requires r < |stats| + 1
    ensures forall c :: 0 <= c < |Rows(stats)[r]| ==> '\n' !in Rows(stats)[r][c]
  {
    if r == 0 {
      HeaderOneLine();
    } else {
      var k := r - 1;
      assert Rows(stats)[k + 1] == Row(stats[k]);
      RowOneLine(stats[k]);
    }
  }

  /** No cell of the export holds a line break when no title does. */
  lemma RowsOneLine(stats: seq<ActivityStat>)
    requires forall k :: 0 <= k < |stats| ==> '\n' !in stats[k].activityTitle
    ensures Csv.NoCharInCells('\n', Rows(stats))
  {
    forall r | 0 <= r < |Rows(stats)|
      ensures forall c :: 0 <= c < |Rows(stats)[r]| ==> '\n' !in Rows(stats)[r][c]
    {
      RowOfRowsOneLine(stats, r);
    }
  }

  /** With no line break in any title, the export has exactly one line
      more than there are activities, line k + 1 being activity k's. */
  lemma ExportLineCount(stats: seq<ActivityStat>)
    requires forall k :: 0 <= k < |stats| ==> '\n' !in stats[k].activityTitle
    ensures |Split(ExportCsv(stats), '\n')| == |stats| + 1
    ensures forall k :: 0 <= k < |stats| ==> Split(ExportCsv(stats), '\n')[k + 1] == Csv.Line(Row(stats[k]))
  {
    RowsOneLine(stats);
    Csv.LinesOfDocument(Rows(stats));
  }

  /** With no comma in a title, every exported row splits into four
      quoted cells. */
  lemma RowHasFourCells(item: ActivityStat)
    requires ',' !in item.activityTitle
    ensures |Split(Csv.Line(Row(item)), ',')| == 4
  {
    Csv.CellsOfLine(Row(item));
  }

  function Members(s: ActivityStat): int { s.memberCount }
  function Guests(s: ActivityStat): int { s.nonMemberCount }
  function Everyone(s: ActivityStat): int { s.totalParticipants }

  datatype Summary = Summary(activities: nat, members: int, nonMembers: int, all: int)

  function Summarise(stats: seq<ActivityStat>): (r: Summary)
    ensures r.activities == |stats|
    ensures stats == [] ==> r == Summary(0, 0, 0, 0)
    ensures r.members == SumOf(stats, Members) && r.nonMembers == SumOf(stats, Guests)
    ensures r.all == SumOf(stats, Everyone)
  {
    Summary(|stats|, SumOf(stats, Members), SumOf(stats, Guests), SumOf(stats, Everyone))
  }

  /** When every activity's total is its members plus its guests, so is
      the grand total. */
  lemma SummaryAddsUp(stats: seq<ActivityStat>)
    requires forall k :: 0 <= k < |stats| ==> stats[k].totalParticipants == stats[k].memberCount + stats[k].nonMemberCount
    ensures Summarise(stats).all == Summarise(stats).members + Summarise(stats).nonMembers
  {
    SumOfPointwise(stats, Members, Guests, Everyone);
  }

  /** The member-share column: the rendered share when the activity has
      participants, "0" otherwise. */
  function Percentage(item: ActivityStat, share: (int, int) -> string): (r: string)
    ensures item.totalParticipants <= 0 ==> r == "0"
    ensures item.totalParticipants > 0 ==> r == share(item.memberCount, item.totalParticipants)
  {
    if item.totalParticipants > 0 then share(item.memberCount, item.totalParticipants) else "0"
  }

  /** The table rows, numbered from one. */
  function TableIndex(stats: seq<ActivityStat>): (r: seq<(nat, string)>)
    ensures |r| == |stats|
    ensures forall k :: 0 <= k < |r| ==> r[k] == (k + 1, stats[k].activityTitle)
  {
    seq(|stats|, k requires 0 <= k < |stats| => (k + 1, stats[k].activityTitle))
  }
}

=== FILE: admin_activities.dfy ===
/** The admin activities page: how many primary attendees each activity
    has, and the create/edit form with the payload it writes. The database
    reads and writes, and the conversions between stored timestamps and the
    form's local date-time text, are parameters. */
module AdminActivities {
  import opened Optional
  import opened Text
  import opened Types

  // ---------------------------------------------------------------------
  // Attendee counts
  // ---------------------------------------------------------------------

  /** How many of the attendee rows name `id`. */
  function Occurrences(attendeeIds: seq<string>, id: string): nat {
    multiset(attendeeIds)[id]
  }

  /** The tally the page builds: every listed id starts at 0, then each
      attendee row adds one to its activity's entry (creating the entry
      if the id was not listed). */
  method TallyAttendees(ids: seq<string>, attendeeIds: seq<string>) returns (stats: map<string, int>)
    ensures stats.Keys == (set k | 0 <= k < |ids| :: ids[k]) + (set k | 0 <= k < |attendeeIds| :: attendeeIds[k])
    ensures forall id :: id in stats ==> stats[id] == Occurrences(attendeeIds, id)
  {
    stats := map[];
    var i := 0;
    while i < |ids|
      invariant 0 <= i <= |ids|
      invariant stats.Keys == set k | 0 <= k < i :: ids[k]
      invariant forall id :: id in stats ==> stats[id] == 0
    {
      stats := stats[ids[i] := 0];
      i := i + 1;
    }
    var j := 0;
    while j < |attendeeIds|
      invariant 0 <= j <= |attendeeIds|
      invariant stats.Keys == (set k | 0 <= k < |ids| :: ids[k]) + (set k | 0 <= k < j :: attendeeIds[k])
      invariant forall id :: id in stats ==> stats[id] == Occurrences(attendeeIds[..j], id)
    {
      var at := attendeeIds[j];
      var before := if at in stats then stats[at] else 0;
      assert attendeeIds[..j + 1] == attendeeIds[..j] + [at];
      assert at !in stats ==> Occurrences(attendeeIds[..j], at) == 0;
      stats := stats[at := before + 1];
      j := j + 1;
    }
    assert attendeeIds[..j] == attendeeIds;
  }

  predicate Distinct(ids: seq<string>) {
    forall a, b :: 0 <= a < b < |ids| ==> ids[a] != ids[b]
  }

  /** The counts of the listed ids, added up. */
  function CountSum(ids: seq<string>, attendeeIds: seq<string>): int
    decreases |ids|
  {
    if |ids| == 0 then 0
    else Occurrences(attendeeIds, ids[0]) + CountSum(ids[1..], attendeeIds)
  }

  lemma {:induction false} CountSumSnoc(ids: seq<string>, attendeeIds: seq<string>, a: string)
    requires Distinct(ids)
    ensures CountSum(ids, attendeeIds + [a]) == CountSum(ids, attendeeIds) + (if a in ids then 1 else 0)
    decreases |ids|
  {
    if |ids| > 0 {
      assert Distinct(ids[1..]) by {
        forall x, y | 0 <= x < y < |ids[1..]|
          ensures ids[1..][x] != ids[1..][y]
        {
          assert ids[1..][x] == ids[x + 1] && ids[1..][y] == ids[y + 1];
        }
      }
      CountSumSnoc(ids[1..], attendeeIds, a);
      if ids[0] == a {
        assert a !in ids[1..] by {
          forall x | 0 <= x < |ids[1..]|
            ensures ids[1..][x] != a
          {
            assert ids[1..][x] == ids[x + 1];
          }
        }
      } else {
        assert (a in ids) == (a in ids[1..]) by {
          assert ids == [ids[0]] + ids[1..];
        }
      }
    }
  }

  /** When the listed ids are distinct and every attendee row belongs to a
      listed activity (which is what the query asks the database for), the
      counts add up to the number of attendee rows. */
  lemma {:induction false} CountsAddUp(ids: seq<string>, attendeeIds: seq<string>)
    requires Distinct(ids)
    requires forall k :: 0 <= k < |attendeeIds| ==> attendeeIds[k] in ids
    ensures CountSum(ids, attendeeIds) == |attendeeIds|
    decreases |attendeeIds|
  {
    if |attendeeIds| == 0 {
      CountSumEmpty(ids);
    } else {
      var init := attendeeIds[..|attendeeIds| - 1];
      var last := attendeeIds[|attendeeIds| - 1];
      assert attendeeIds == init + [last];
      CountsAddUp(ids, init);
      CountSumSnoc(ids, init, last);
    }
  }

  lemma {:induction false} CountSumEmpty(ids: seq<string>)
    ensures CountSum(ids, []) == 0
    decreases |ids|
  {
    if |ids| > 0 {
      CountSumEmpty(ids[1..]);
    }
  }

  /** An activity with its count of primary attendees. */
  datatype ActivityWithTotal = ActivityWithTotal(activity: Activity, totalCount: int)

  /** The banners shown when loading, saving or deleting fails with a value
      that is not an `Error`. */
  const LoadFailed: string := "Không thể tải danh sách hoạt động"
  const SaveFailed: string := "Không thể lưu hoạt động"
  const DeleteFailedText: string := "Không thể xóa hoạt động"

  /** `loadActivities`: the activity list, newest first as read; with no
      activity the attendee read is not made and the list is empty;
      otherwise each activity carries the number of attendee rows naming
      it. */
  method LoadActivities(
    activities: Result<Option<seq<Activity>>>,
    attendees: Result<Option<seq<string>>>) returns (r: Loaded<seq<ActivityWithTotal>>)
    ensures activities.Err? ==> r == Banner(CaughtText(activities.message, activities.isError, LoadFailed))
    ensures activities.Ok? && |activities.value.GetOr([])| == 0 ==> r == Ready([])
    ensures activities.Ok? && |activities.value.GetOr([])| > 0 && attendees.Err? ==>
      r == Banner(CaughtText(attendees.message, attendees.isError, LoadFailed))
    ensures activities.Ok? && |activities.value.GetOr([])| > 0 && attendees.Ok? ==>
      var list := activities.value.GetOr([]);
      && r.Ready? && |r.data| == |list|
      && forall k :: 0 <= k < |list| ==>
           r.data[k] == ActivityWithTotal(list[k], Occurrences(attendees.value.GetOr([]), list[k].id))
  {
    if activities.Err? {
      return Banner(CaughtText(activities.message, activities.isError, LoadFailed));
    }
    var list := activities.value.GetOr([]);
    if |list| == 0 {
      return Ready([]);
    }
    var ids := seq(|list|, k requires 0 <= k < |list| => list[k].id);
    if attendees.Err? {
      return Banner(CaughtText(attendees.message, attendees.isError, LoadFailed));
    }
    var stats := TallyAttendees(ids, attendees.value.GetOr([]));
    var withTotal := seq(|list|, k requires 0 <= k < |list| =>
      ActivityWithTotal(list[k], if list[k].id in stats then stats[list[k].id] else 0));
    forall k | 0 <= k < |list|
      ensures list[k].id in stats
    {
      assert list[k].id == ids[k];
    }
    return Ready(withTotal);
  }

  /** The participant figure on a card: the count, then " / " and the
      maximum when there is one. */
  function ParticipantText(a: ActivityWithTotal): (r: string)
    ensures a.activity.maxParticipants.None? ==> r == IntToString(a.totalCount)
    ensures a.activity.maxParticipants.Some? ==>
      r == IntToString(a.totalCount) + " / " + IntToString(a.activity.maxParticipants.value)
  {
    var count := IntToString(a.totalCount);
    match a.activity.maxParticipants
    case None => count
    case Some(m) => count + " / " + IntToString(m)
  }

  // ---------------------------------------------------------------------
  // The form
  // ---------------------------------------------------------------------

  /** A numeric input: empty, or holding a number. */
  datatype NumField = Blank | Entered(n: int)

  datatype ActivityForm = ActivityForm(
    title: string,
    description: string,
    priceMember: NumField,
    priceNonMember: NumField,
    maxParticipants: NumField,
    location: string,
    startDate: string,
    endDate: string)

  /** The form state together with the activity being edited, if any. */
  datatype FormState = FormState(editing: Option<string>, form: ActivityForm, open: bool)

  /** `resetForm`: every field empty and nothing being edited. */
  function ResetForm(open: bool): (r: FormState)
    ensures r.editing.None? && r.open == open
    ensures r.form.title == "" && r.form.description == "" && r.form.location == ""
    ensures r.form.priceMember.Blank? && r.form.priceNonMember.Blank? && r.form.maxParticipants.Blank?
    ensures r.form.startDate == "" && r.form.endDate == ""
  {
    FormState(None, ActivityForm("", "", Blank, Blank, Blank, "", "", ""), open)
  }

  /** `openCreateForm`: the empty form, shown. */
  function OpenCreateForm(): (r: FormState)
    ensures r.open && r.editing.None?
    ensures r.form == ResetForm(false).form
  {
    ResetForm(true)
  }

  function NumOf(v: Option<int>): NumField {
    if v.Some? then Entered(v.value) else Blank
  }

  /** A timestamp column shown in a date-time input: converted when
      present and non-empty, empty otherwise. */
  function DateInput(v: Option<string>, toLocal: string -> string): string {
    if v.Some? && v.value != "" then toLocal(v.value) else ""
  }

  /** `openEditForm`: the activity's fields, a missing value becoming an
      empty field. */
  function OpenEditForm(a: Activity, toLocal: string -> string): (r: FormState)
    ensures r.open && r.editing == Some(a.id)
    ensures r.form.title == a.title
    ensures r.form.description == a.description.GetOr("")
    ensures r.form.location == a.location.GetOr("")
    ensures r.form.priceMember.Blank? <==> a.priceMember.None?
    ensures r.form.priceMember.Entered? ==> r.form.priceMember.n == a.priceMember.value
    ensures r.form.priceNonMember.Blank? <==> a.priceNonMember.None?
    ensures r.form.priceNonMember.Entered? ==> r.form.priceNonMember.n == a.priceNonMember.value
    ensures r.form.maxParticipants.Blank? <==> a.maxParticipants.None?
    ensures r.form.maxParticipants.Entered? ==> r.form.maxParticipants.n == a.maxParticipants.value
    ensures a.startDate.None? || a.startDate == Some("") ==> r.form.startDate == ""
    ensures a.startDate.Some? && a.startDate.value != "" ==> r.form.startDate == toLocal(a.startDate.value)
    ensures a.endDate.None? || a.endDate == Some("") ==> r.form.endDate == ""
    ensures a.endDate.Some? && a.endDate.value != "" ==> r.form.endDate == toLocal(a.endDate.value)
  {
    FormState(Some(a.id), ActivityForm(
      a.title,
      a.description.GetOr(""),
      NumOf(a.priceMember),
      NumOf(a.priceNonMember),
      NumOf(a.maxParticipants),
      a.location.GetOr(""),
      DateInput(a.startDate, toLocal),
      DateInput(a.endDate, toLocal)), true)
  }

  /** The row written by the form. */
  datatype ActivityPayload = ActivityPayload(
    title: string,
    description: Option<string>,
    priceMember: Option<int>,
    priceNonMember: Option<int>,
    maxParticipants: Option<int>,
    location: Option<string>,
    startDate: Option<string>,
    endDate: Option<string>)

  /** A text input as a nullable column: empty becomes null. */
  function NullIfEmpty(s: string): (r: Option<string>)
    ensures r.None? <==> s == ""
    ensures r.Some? ==> r.value == s
  {
    if s == "" then None else Some(s)
  }

  /** A numeric input as a nullable column: blank becomes null. */
  function NumColumn(f: NumField): (r: Option<int>)
    ensures r.None? <==> f.Blank?
    ensures f.Entered? ==> r == Some(f.n)
  {
    if f.Blank? then None else Some(f.n)
  }

  /** The payload of `handleSubmit`: empty texts and blank numbers become
      null, and a filled date-time is converted back to a timestamp. */
  function Payload(f: ActivityForm, toIso: string -> string): (p: ActivityPayload)
    ensures p.title == f.title
    ensures p.description == NullIfEmpty(f.description) && p.location == NullIfEmpty(f.location)
    ensures p.priceMember == NumColumn(f.priceMember)
    ensures p.priceNonMember == NumColumn(f.priceNonMember)
    ensures p.maxParticipants == NumColumn(f.maxParticipants)
    ensures p.startDate.None? <==> f.startDate == ""
    ensures p.startDate.Some? ==> p.startDate.value == toIso(f.startDate)
    ensures p.endDate.None? <==> f.endDate == ""
    ensures p.endDate.Some? ==> p.endDate.value == toIso(f.endDate)
  {
    ActivityPayload(
      f.title,
      NullIfEmpty(f.description),
      NumColumn(f.priceMember),
      NumColumn(f.priceNonMember),
      NumColumn(f.maxParticipants),
      NullIfEmpty(f.location),
      if f.startDate != "" then Some(toIso(f.startDate)) else None,
      if f.endDate != "" then Some(toIso(f.endDate)) else None)
  }

  /** The payload of an untouched reset form is all null but the title. */
  lemma ResetPayload(toIso: string -> string)
    ensures Payload(ResetForm(false).form, toIso) == ActivityPayload("", None, None, None, None, None, None, None)
  {
  }

  /** A text column survives being edited and saved unchanged, except
      that an empty string comes back as null. */
  predicate NoEmptyText(v: Option<string>) {
    v.None? || v.value != ""
  }

  /** Opening an activity for editing and saving it untouched writes back
      the same values, provided its texts are not empty strings and the
      two date conversions undo each other on non-empty text. */
  lemma EditRoundTrip(a: Activity, toLocal: string -> string, toIso: string -> string)
    requires NoEmptyText(a.description) && NoEmptyText(a.location)
    requires NoEmptyText(a.startDate) && NoEmptyText(a.endDate)
    requires forall s :: s != "" ==> toLocal(s) != "" && toIso(toLocal(s)) == s
    ensures var p := Payload(OpenEditForm(a, toLocal).form, toIso);
      && p.title == a.title && p.description == a.description && p.location == a.location
      && p.priceMember == a.priceMember && p.priceNonMember == a.priceNonMember
      && p.maxParticipants == a.maxParticipants
      && p.startDate == a.startDate && p.endDate == a.endDate
  {
  }

  /** The write a save makes: an update of the edited activity, stamped
      with the time of the save, or an insert. */
  datatype ActivityWrite =
    | UpdateActivity(id: string, payload: ActivityPayload, updatedAt: string)
    | InsertActivity(payload: ActivityPayload)

  /** What a save leaves behind: the form shown or hidden, the error
      message, and whether the list is read again. */
  datatype SaveResult = SaveResult(write: ActivityWrite, open: bool, error: string, reload: bool)

  /** `handleSubmit`: on success the form closes and the list is read
      again; on failure the form stays and the error's message, or the
      fallback for a value that is not an `Error`, is shown. `now` is
      `new Date().toISOString()` at the time of the save. */
  function HandleSubmit(st: FormState, toIso: string -> string, now: string, outcome: Outcome): (r: SaveResult)
    ensures r.write.UpdateActivity? <==> st.editing.Some?
    ensures st.editing.Some? ==> r.write.id == st.editing.value && r.write.updatedAt == now
    ensures r.write.payload == Payload(st.form, toIso)
    ensures outcome.Pass? ==> !r.open && r.reload && r.error == ""
    ensures outcome.Fail? ==> r.open == st.open && !r.reload
    ensures outcome.Fail? && outcome.isError ==> r.error == outcome.message
    ensures outcome.Fail? && !outcome.isError ==> r.error == SaveFailed
  {
    var p := Payload(st.form, toIso);
    var w := if st.editing.Some? then UpdateActivity(st.editing.value, p, now) else InsertActivity(p);
    match outcome
    case Pass => SaveResult(w, false, "", true)
    case Fail(m, e) => SaveResult(w, st.open, CaughtText(m, e, SaveFailed), false)
  }

  /** `handleDelete`: nothing happens unless the admin confirms; then the
      list is read again on success, or the error's message (the fallback
      for a value that is not an `Error`) is shown. */
  datatype DeleteResult = Declined | Deleted | DeleteFailed(message: string)

  function HandleDelete(confirmed: bool, outcome: Outcome): (r: DeleteResult)
    ensures !confirmed <==> r.Declined?
    ensures confirmed && outcome.Pass? ==> r.Deleted?
    ensures confirmed && outcome.Fail? && outcome.isError ==> r == DeleteFailed(outcome.message)
    ensures confirmed && outcome.Fail? && !outcome.isError ==> r == DeleteFailed(DeleteFailedText)
  {
    if !confirmed then Declined
    else match outcome
      case Pass => Deleted
      case Fail(m, e) => DeleteFailed(CaughtText(m, e, DeleteFailedText))
  }
}

=== FILE: admin_orders.dfy ===
/** The admin orders page: normalising the loaded rows, the search box,
    and confirming a payment. The database read and write are parameters. */
module AdminOrders {
  import opened Optional
  import opened Text
  import opened Lists
  import opened Types

  datatype Registrant = Registrant(
    id: string,
    fullName: string,
    phoneNumber: string,
    email: Option<string>,
    unitName: Option<string>)

  datatype AdminItem = AdminItem(
    id: string,
    quantity: int,
    pricePerUnit: int,
    subtotal: int,
    pricingType: Option<string>,
    activityTitle: Option<string>)

  /** A row as the query returns it, embedded relations in any shape. */
  datatype RawOrder = RawOrder(
    id: string,
    orderCode: string,
    paymentStatus: string,
    totalAmount: int,
    createdAt: string,
    registration: Joined<Registrant>,
    orderItems: Joined<AdminItem>)

  /** A row as the page keeps it. */
  datatype AdminOrder = AdminOrder(
    id: string,
    orderCode: string,
    paymentStatus: string,
    totalAmount: int,
    createdAt: string,
    registration: Option<Registrant>,
    orderItems: seq<AdminItem>)

  /** The status the confirm button writes. */
  const Completed: string := "completed"

  /** One loaded row: the registration becomes its first element or
      nothing, the items always a list. */
  function Normalise(o: RawOrder): (r: AdminOrder)
    ensures r.id == o.id && r.orderCode == o.orderCode
    ensures r.paymentStatus == o.paymentStatus && r.totalAmount == o.totalAmount
    ensures r.createdAt == o.createdAt
    ensures r.registration.Some? <==> |AllOf(o.registration)| > 0
    ensures r.registration.Some? ==> r.registration.value == AllOf(o.registration)[0]
    ensures r.orderItems == AllOf(o.orderItems)
  {
    FirstOfAllOf(o.registration);
    AdminOrder(o.id, o.orderCode, o.paymentStatus, o.totalAmount, o.createdAt,
      FirstOf(o.registration), AllOf(o.orderItems))
  }

  function NormaliseAll(rows: seq<RawOrder>): (r: seq<AdminOrder>)
    ensures |r| == |rows|
    ensures forall k :: 0 <= k < |r| ==> r[k] == Normalise(rows[k])
  {
    seq(|rows|, k requires 0 <= k < |rows| => Normalise(rows[k]))
  }

  /** The banner when loading fails with a value that is not an `Error`. */
  const LoadFailed: string := "Lỗi tải dữ liệu"

  /** The banner when confirming fails with a value that is not an `Error`. */
  const ConfirmFailed: string := "Lỗi cập nhật trạng thái"

  /** `loadOrders`: the rows in the order read, an empty list for `null`,
      or the error's banner. */
  function LoadOrders(resp: Result<Option<seq<RawOrder>>>): (r: Loaded<seq<AdminOrder>>)
    ensures r.Banner? <==> resp.Err?
    ensures resp.Err? ==> r.text == (if resp.isError then resp.message else LoadFailed)
    ensures resp == Ok(None) ==> r == Ready([])
    ensures resp.Ok? ==> |r.data| == |resp.value.GetOr([])|
    ensures resp.Ok? ==> forall k :: 0 <= k < |r.data| ==> r.data[k] == Normalise(resp.value.GetOr([])[k])
  {
    match resp
    case Err(m, e) => Banner(CaughtText(m, e, LoadFailed))
    case Ok(data) => Ready(NormaliseAll(data.GetOr([])))
  }

  /** The search test: the query, lower-cased, occurs in the lower-cased
      order code or in the lower-cased name of the registrant. */
  predicate MatchesQuery(o: AdminOrder, query: string) {
    || Contains(Lower(o.orderCode), Lower(query))
    || (o.registration.Some? && Contains(Lower(o.registration.value.fullName), Lower(query)))
  }

  /** The orders on screen for a query. */
  function Search(orders: seq<AdminOrder>, query: string): (r: seq<AdminOrder>)
    ensures |r| <= |orders|
    ensures forall k :: 0 <= k < |r| ==> r[k] in orders && MatchesQuery(r[k], query)
    ensures forall k :: 0 <= k < |orders| && MatchesQuery(orders[k], query) ==> orders[k] in r
  {
    Filter(orders, o => MatchesQuery(o, query))
  }

  /** An empty search box shows every order. */
  lemma EmptyQueryShowsAll(orders: seq<AdminOrder>)
    ensures Search(orders, "") == orders
  {
    forall k | 0 <= k < |orders|
      ensures MatchesQuery(orders[k], "")
    {
      ContainsEmpty(Lower(orders[k].orderCode));
    }
    FilterKeepsAll(orders, o => MatchesQuery(o, ""));
  }

  /** An order whose code contains the query is found however either is
      capitalised. */
  lemma CodeSearchFindsOrder(orders: seq<AdminOrder>, k: int, query: string, at: nat)
    requires 0 <= k < |orders|
    requires at + |query| <= |orders[k].orderCode|
    requires Lower(orders[k].orderCode)[at..at + |query|] == Lower(query)
    ensures orders[k] in Search(orders, query)
  {
    ContainsAt(Lower(orders[k].orderCode), Lower(query), at);
  }

  /** An order without a registrant is found only through its code. */
  lemma AnonymousFoundByCodeOnly(o: AdminOrder, query: string)
    requires o.registration.None?
    ensures MatchesQuery(o, query) <==> Contains(Lower(o.orderCode), Lower(query))
  {
  }

  /** The page's state after a confirm: the list and the error banner. */
  datatype Confirmed = Confirmed(orders: seq<AdminOrder>, error: string)

  /** `confirmPayment`: when the write succeeds, every order with that id
      is marked completed and every other order is untouched; when it
      fails, the list is unchanged and the error's message, or the
      fallback for a value that is not an `Error`, is shown. */
  function ConfirmPayment(orders: seq<AdminOrder>, orderId: string, write: Outcome, error: string): (r: Confirmed)
    ensures write.Fail? && write.isError ==> r == Confirmed(orders, write.message)
    ensures write.Fail? && !write.isError ==> r == Confirmed(orders, ConfirmFailed)
    ensures write.Pass? ==> r.error == error && |r.orders| == |orders|
    ensures write.Pass? ==> forall k :: 0 <= k < |orders| ==>
      r.orders[k] == (if orders[k].id == orderId then orders[k].(paymentStatus := Completed) else orders[k])
  {
    match write
    case Fail(m, e) => Confirmed(orders, CaughtText(m, e, ConfirmFailed))
    case Pass =>
      Confirmed(seq(|orders|, k requires 0 <= k < |orders| =>
        if orders[k].id == orderId then orders[k].(paymentStatus := Completed) else orders[k]), error)
  }

  /** The confirm button is offered only for pending orders. */
  predicate OffersConfirm(o: AdminOrder) {
    o.paymentStatus == "pending"
  }

  /** After a successful confirm no order with that id offers the button
      any more, confirming again changes nothing, and the ids, codes and
      amounts of every order stay as they were. */
  lemma ConfirmSettles(orders: seq<AdminOrder>, orderId: string, error: string)
    ensures var r := ConfirmPayment(orders, orderId, Pass, error).orders;
      && (forall k :: 0 <= k < |r| && r[k].id == orderId ==> !OffersConfirm(r[k]))
      && ConfirmPayment(r, orderId, Pass, error).orders == r
      && (forall k :: 0 <= k < |r| ==>
            r[k].id == orders[k].id && r[k].orderCode == orders[k].orderCode
            && r[k].totalAmount == orders[k].totalAmount && r[k].orderItems == orders[k].orderItems)
  {
  }

  /** The badge of the orders page: completed, cancelled, and everything
      else as awaiting payment. */
  function StatusLabel(status: string): (shown: string)
    ensures status == Completed ==> shown == "Hoàn thành"
    ensures status == "cancelled" ==> shown == "Hủy"
    ensures status != Completed && status != "cancelled" ==> shown == "Chờ thanh toán"
  {
    if status == Completed then "Hoàn thành"
    else if status == "cancelled" then "Hủy"
    else "Chờ thanh toán"
  }

  /** The status the page writes is not among the payment states the
      order record declares, and a `paid` order is shown as awaiting
      payment. */
  lemma CompletedIsUndeclared()
    ensures ParsePaymentStatus(Completed).None?
    ensures StatusLabel("paid") == StatusLabel("pending")
  {
  }

  /** The amount shown on an item line: price times quantity, computed
      afresh rather than read from the stored subtotal. */
  function ItemLineAmount(item: AdminItem): (r: int)
    ensures item.subtotal == item.pricePerUnit * item.quantity ==> r == item.subtotal
    ensures item.quantity == 1 ==> r == item.pricePerUnit
  {
    item.pricePerUnit * item.quantity
  }

  /** For an item written at checkout, whose subtotal is price times
      quantity, the line shows the stored subtotal. */
  lemma ItemLineShowsSubtotal(item: AdminItem)
    requires item.subtotal == item.pricePerUnit * item.quantity
    ensures ItemLineAmount(item) == item.subtotal
  {
  }

  /** The texts of one order card, and the amount beside each item line. */
  datatype Card = Card(customer: string, contact: string, unit: string, lines: seq<string>, amounts: seq<int>)

  /** The text of one item line, before the amount: the title (or
      "Hoạt động"), " × " and the quantity, then the tier in parentheses
      right after the quantity when there is one. JSX drops the line break
      between the two, so no space separates them. */
  function ItemText(item: AdminItem): (r: string)
    ensures var base := OrElse(item.activityTitle, "Hoạt động") + " × " + IntToString(item.quantity);
      && (item.pricingType.Some? && item.pricingType.value != "" ==> r == base + "(" + item.pricingType.value + ")")
      && (item.pricingType.None? || item.pricingType.value == "" ==> r == base)
  {
    var base := OrElse(item.activityTitle, "Hoạt động") + " × " + IntToString(item.quantity);
    if item.pricingType.Some? && item.pricingType.value != "" then base + "(" + item.pricingType.value + ")"
    else base
  }

  /** The card of an order: name, phone and a space, then the e-mail
      after a slash when there is one, unit, and one text and one amount
      per item. */
  function CardOf(o: AdminOrder): (c: Card)
    ensures o.registration.None? ==> c.customer == "—" && c.contact == " " && c.unit == "Không có"
    ensures o.registration.Some? ==>
      var reg := o.registration.value;
      && c.customer == OrElse(Some(reg.fullName), "—")
      && c.unit == OrElse(reg.unitName, "Không có")
      && (reg.email.Some? && reg.email.value != "" ==> c.contact == reg.phoneNumber + " " + " / " + reg.email.value)
      && (reg.email.None? || reg.email.value == "" ==> c.contact == reg.phoneNumber + " ")
    ensures |c.lines| == |o.orderItems|
    ensures forall k :: 0 <= k < |o.orderItems| ==> c.lines[k] == ItemText(o.orderItems[k])
    ensures |c.amounts| == |o.orderItems|
    ensures forall k :: 0 <= k < |o.orderItems| ==> c.amounts[k] == ItemLineAmount(o.orderItems[k])
  {
    var reg := o.registration;
    Card(
      OrElse(if reg.Some? then Some(reg.value.fullName) else None, "—"),
      if reg.None? then " "
      else if reg.value.email.Some? && reg.value.email.value != "" then reg.value.phoneNumber + " " + " / " + reg.value.email.value
      else reg.value.phoneNumber + " ",
      OrElse(if reg.Some? then reg.value.unitName else None, "Không có"),
      seq(|o.orderItems|, k requires 0 <= k < |o.orderItems| => ItemText(o.orderItems[k])),
      seq(|o.orderItems|, k requires 0 <= k < |o.orderItems| => ItemLineAmount(o.orderItems[k])))
  }

  /** When every item was written at checkout, with its subtotal as price
      times quantity, the card's amounts are the stored subtotals. */
  lemma CardAmountsAreSubtotals(o: AdminOrder)
    requires forall k :: 0 <= k < |o.orderItems| ==>
      o.orderItems[k].subtotal == o.orderItems[k].pricePerUnit * o.orderItems[k].quantity
    ensures forall k :: 0 <= k < |o.orderItems| ==> CardOf(o).amounts[k] == o.orderItems[k].subtotal
  {
  }
}

=== FILE: cart_page.dfy ===
/** The cart page: the empty view, the line totals, and the three requests
    each line's controls send to the cart. */
module CartPage {
  import opened Types
  import CartReducer

  /** The displayed total of one line. */
  function LineTotal(item: CartItem): int {
    item.quantity * item.unitPrice
  }

  function LineTotalSum(items: seq<CartItem>): int
    decreases |items|
  {
    if |items| == 0 then 0 else LineTotal(items[0]) + LineTotalSum(items[1..])
  }

  /** The displayed line totals add up to the live amount of the cart, and
      so to the stored total when the cart is consistent. */
  lemma {:induction false} LineTotalsAddUp(s: CartState)
    ensures LineTotalSum(s.items) == CartReducer.AmountSum(s.items)
    ensures CartReducer.TotalsConsistent(s) ==> LineTotalSum(s.items) == s.totalAmount
  {
    LineTotalsAddUpItems(s.items);
  }

  lemma {:induction false} LineTotalsAddUpItems(items: seq<CartItem>)
    ensures LineTotalSum(items) == CartReducer.AmountSum(items)
    decreases |items|
  {
    if |items| > 0 {
      LineTotalsAddUpItems(items[1..]);
    }
  }

  /** The "−" button: asks for max(1, quantity − 1) of the same key. */
  function Decrement(item: CartItem): (a: CartReducer.CartAction)
    ensures a.UpdateQuantity? && a.activityId == item.activityId && a.pricingType == item.pricingType
    ensures a.quantity >= 1
    ensures item.quantity >= 2 ==> a.quantity == item.quantity - 1
    ensures item.quantity <= 2 ==> a.quantity == 1
  {
    CartReducer.UpdateQuantity(item.activityId, item.pricingType,
      if item.quantity - 1 > 1 then item.quantity - 1 else 1)
  }

  /** The "+" button: asks for quantity + 1 of the same key. */
  function Increment(item: CartItem): (a: CartReducer.CartAction)
    ensures a.UpdateQuantity? && a.activityId == item.activityId && a.pricingType == item.pricingType
    ensures a.quantity == item.quantity + 1
  {
    CartReducer.UpdateQuantity(item.activityId, item.pricingType, item.quantity + 1)
  }

  /** The remove button: names both the activity and the tier. */
  function RemoveRequest(item: CartItem): (a: CartReducer.CartAction)
    ensures a.RemoveItem? && a.activityId == item.activityId && a.pricingType == item.pricingType
  {
    CartReducer.RemoveItem(item.activityId, item.pricingType)
  }

  /** "−" never removes a line: the cart keeps its lines, and the line ends
      at max(1, quantity − 1), or where it was when that is below 1. */
  lemma DecrementKeepsLine(s: CartState, p: int)
    requires CartReducer.UniqueKeys(s.items)
    requires 0 <= p < |s.items|
    ensures var r := CartReducer.Reduce(s, Decrement(s.items[p]));
      && |r.items| == |s.items|
      && r.items[p].activityId == s.items[p].activityId
      && r.items[p].pricingType == s.items[p].pricingType
      && r.items[p].quantity == (if s.items[p].quantity - 1 > 1 then s.items[p].quantity - 1 else 1)
  {
    var a := Decrement(s.items[p]);
    CartReducer.UpdateSetsTheLine(s, a.activityId, a.pricingType, a.quantity, p);
  }

  /** "+" raises the line by one, the item count by one and the amount by the
      line's unit price. */
  lemma IncrementRaisesTotals(s: CartState, p: int)
    requires CartReducer.UniqueKeys(s.items)
    requires 0 <= p < |s.items|
    requires s.items[p].quantity >= 0
    ensures var r := CartReducer.Reduce(s, Increment(s.items[p]));
      && r.items[p].quantity == s.items[p].quantity + 1
      && r.totalItems == s.totalItems + 1
      && r.totalAmount == s.totalAmount + s.items[p].unitPrice
  {
    var a := Increment(s.items[p]);
    CartReducer.UpdateSetsTheLine(s, a.activityId, a.pricingType, a.quantity, p);
  }

  /** Removing one tier's line keeps the other tier's line of the same
      activity. */
  lemma RemoveOnlyThatTier(s: CartState, p: int, q: int)
    requires CartReducer.UniqueKeys(s.items)
    requires 0 <= p < |s.items| && 0 <= q < |s.items|
    requires s.items[q].pricingType != s.items[p].pricingType
    ensures s.items[q] in CartReducer.Reduce(s, RemoveRequest(s.items[p])).items
    ensures s.items[p] !in CartReducer.Reduce(s, RemoveRequest(s.items[p])).items
  {
  }

  datatype CartView = EmptyView | LinesView(lines: seq<CartItem>, totalItems: int, totalAmount: int)

  /** An empty cart shows the empty view, which has no checkout button;
      otherwise the lines and the stored totals are shown. */
  function View(s: CartState): (v: CartView)
    ensures v.EmptyView? <==> |s.items| == 0
    ensures v.LinesView? ==> v.lines == s.items && v.totalItems == s.totalItems && v.totalAmount == s.totalAmount
  {
    if |s.items| == 0 then EmptyView else LinesView(s.items, s.totalItems, s.totalAmount)
  }
}

=== FILE: cart_reducer.dfy ===
/** The cart reducer: a pure transition function over the cart state,
    driven by four tagged actions. Lines are keyed by the pair
    (activityId, pricingType); the two stored totals are maintained by
    deltas rather than recomputed. */
module CartReducer {
  import opened Optional
  import opened Types

  datatype CartAction =
    | AddItem(item: CartItem)
    | ClearCart
    | UpdateQuantity(activityId: string, pricingType: PricingType, quantity: int)
    | RemoveItem(activityId: string, pricingType: PricingType)

  // ---------------------------------------------------------------------
  // Keys and the live sums
  // ---------------------------------------------------------------------

  predicate Matches(i: CartItem, activityId: string, pricingType: PricingType) {
    i.activityId == activityId && i.pricingType == pricingType
  }

  predicate SameKey(a: CartItem, b: CartItem) {
    Matches(a, b.activityId, b.pricingType)
  }

  /** At most one line per (activityId, pricingType). */
  predicate UniqueKeys(items: seq<CartItem>) {
    forall i, j :: 0 <= i < j < |items| ==> !SameKey(items[i], items[j])
  }

  /** Sum of unitPrice * quantity over the lines. */
  function AmountSum(items: seq<CartItem>): int
    decreases |items|
  {
    if |items| == 0 then 0
    else items[0].unitPrice * items[0].quantity + AmountSum(items[1..])
  }

  /** Sum of quantity over the lines. */
  function CountSum(items: seq<CartItem>): int
    decreases |items|
  {
    if |items| == 0 then 0 else items[0].quantity + CountSum(items[1..])
  }

  /** The stored totals equal the live sums. */
  predicate TotalsConsistent(s: CartState) {
    s.totalAmount == AmountSum(s.items) && s.totalItems == CountSum(s.items)
  }

  predicate Valid(s: CartState) {
    UniqueKeys(s.items) && TotalsConsistent(s)
  }

  lemma {:induction false} SumsAppend(a: seq<CartItem>, b: seq<CartItem>)
    ensures AmountSum(a + b) == AmountSum(a) + AmountSum(b)
    ensures CountSum(a + b) == CountSum(a) + CountSum(b)
    decreases |a|
  {
    if |a| == 0 {
      assert a + b == b;
    } else {
      assert (a + b)[1..] == a[1..] + b;
      SumsAppend(a[1..], b);
    }
  }

  // ---------------------------------------------------------------------
  // find, map and filter over the lines
  // ---------------------------------------------------------------------

  /** Index of the first line with the given key, or -1 (`Array.find`). */
  function FindIndex(items: seq<CartItem>, activityId: string, pricingType: PricingType): (r: int)
    ensures -1 <= r < |items|
    ensures r == -1 <==> forall j :: 0 <= j < |items| ==> !Matches(items[j], activityId, pricingType)
    ensures r >= 0 ==> Matches(items[r], activityId, pricingType)
    ensures r >= 0 ==> forall j :: 0 <= j < r ==> !Matches(items[j], activityId, pricingType)
    decreases |items|
  {
    if |items| == 0 then -1
    else if Matches(items[0], activityId, pricingType) then 0
    else
      var k := FindIndex(items[1..], activityId, pricingType);
      if k < 0 then -1 else k + 1
  }

  /** The first line with the given key, if any. */
  function Find(items: seq<CartItem>, activityId: string, pricingType: PricingType): (r: Option<CartItem>)
    ensures r.None? <==> forall j :: 0 <= j < |items| ==> !Matches(items[j], activityId, pricingType)
    ensures r.Some? ==> r.value in items && Matches(r.value, activityId, pricingType)
  {
    var k := FindIndex(items, activityId, pricingType);
    if k < 0 then None else Some(items[k])
  }

  /** In a cart with unique keys, the line found is the only matching one. */
  lemma {:induction false} FindUnique(items: seq<CartItem>, activityId: string, pricingType: PricingType, p: int)
    requires UniqueKeys(items)
    requires 0 <= p < |items| && Matches(items[p], activityId, pricingType)
    ensures FindIndex(items, activityId, pricingType) == p
    ensures Find(items, activityId, pricingType) == Some(items[p])
  {
    var k := FindIndex(items, activityId, pricingType);
    if k != p {
      assert k < p;
      assert SameKey(items[k], items[p]);
    }
  }

  /** The two quantity rewrites the reducer maps over its lines: ADD_ITEM
      adds the payload's quantity, UPDATE_QUANTITY sets a new one. */
  datatype Tune = AddQty(diff: int) | SetQty(quantity: int)

  function Tuned(t: Tune, q: int): int {
    match t
    case AddQty(diff) => q + diff
    case SetQty(quantity) => quantity
  }

  /** `items.map(i => matches ? {...i, quantity: ...} : i)`. */
  function Retune(items: seq<CartItem>, activityId: string, pricingType: PricingType, t: Tune): (r: seq<CartItem>)
    ensures |r| == |items|
    ensures forall j :: 0 <= j < |items| ==>
      r[j] == if Matches(items[j], activityId, pricingType)
              then items[j].(quantity := Tuned(t, items[j].quantity)) else items[j]
    decreases |items|
  {
    if |items| == 0 then []
    else
      var head := if Matches(items[0], activityId, pricingType)
                  then items[0].(quantity := Tuned(t, items[0].quantity)) else items[0];
      [head] + Retune(items[1..], activityId, pricingType, t)
  }

  /** `items.filter(i => !matches)`. */
  function RemoveWhere(items: seq<CartItem>, activityId: string, pricingType: PricingType): (r: seq<CartItem>)
    ensures |r| <= |items|
    decreases |items|
  {
    if |items| == 0 then []
    else if Matches(items[0], activityId, pricingType) then RemoveWhere(items[1..], activityId, pricingType)
    else [items[0]] + RemoveWhere(items[1..], activityId, pricingType)
  }

  /** The filter keeps exactly the lines without the key. */
  lemma {:induction false} RemoveWhereMembers(items: seq<CartItem>, activityId: string, pricingType: PricingType)
    ensures forall x :: x in RemoveWhere(items, activityId, pricingType) <==> x in items && !Matches(x, activityId, pricingType)
    decreases |items|
  {
    if |items| > 0 {
      RemoveWhereMembers(items[1..], activityId, pricingType);
      assert items == [items[0]] + items[1..];
    }
  }

  // ---------------------------------------------------------------------
  // The reducer
  // ---------------------------------------------------------------------

  /** The state a session starts with, and the one CLEAR_CART returns. */
  function InitialState(): (r: CartState)
    ensures Valid(r)
    ensures |r.items| == 0
  {
    CartState([], 0, 0)
  }

  /** ADD_ITEM. No check on the quantity. A line with the same key absorbs
      the payload's quantity and keeps its own unit price, while the total
      amount grows by the payload's unit price. */
  function Add(s: CartState, item: CartItem): (r: CartState)
    ensures r.totalItems == s.totalItems + item.quantity
    ensures r.totalAmount == s.totalAmount + item.unitPrice * item.quantity
    ensures Find(s.items, item.activityId, item.pricingType).None? ==>
      r.items == s.items + [item]
    ensures Find(s.items, item.activityId, item.pricingType).Some? ==>
      |r.items| == |s.items| &&
      forall j :: 0 <= j < |s.items| ==>
        r.items[j] == if SameKey(s.items[j], item)
                      then s.items[j].(quantity := s.items[j].quantity + item.quantity)
                      else s.items[j]
  {
    var existing := Find(s.items, item.activityId, item.pricingType);
    if existing.Some? then
      var diff := item.quantity;
      CartState(
        Retune(s.items, item.activityId, item.pricingType, AddQty(diff)),
        s.totalAmount + item.unitPrice * diff,
        s.totalItems + diff)
    else
      CartState(
        s.items + [item],
        s.totalAmount + item.unitPrice * item.quantity,
        s.totalItems + item.quantity)
  }

  /** UPDATE_QUANTITY. A quantity below 1 or an absent key leaves the state
      as it was; otherwise the matching line gets exactly `quantity` and the
      totals shift by the difference against the first matching line. */
  function Update(s: CartState, activityId: string, pricingType: PricingType, quantity: int): (r: CartState)
    ensures quantity < 1 ==> r == s
    ensures Find(s.items, activityId, pricingType).None? ==> r == s
    ensures |r.items| == |s.items|
  {
    if quantity < 1 then s
    else
      var existing := Find(s.items, activityId, pricingType);
      if existing.None? then s
      else
        var diff := quantity - existing.value.quantity;
        CartState(
          Retune(s.items, activityId, pricingType, SetQty(quantity)),
          s.totalAmount + existing.value.unitPrice * diff,
          s.totalItems + diff)
  }

  /** UPDATE_QUANTITY with a present key and a quantity of at least 1 gives
      every line with the key exactly that quantity and keeps the others. */
  lemma {:induction false} UpdateLines(s: CartState, activityId: string, pricingType: PricingType, quantity: int)
    requires quantity >= 1 && Find(s.items, activityId, pricingType).Some?
    ensures var r := Update(s, activityId, pricingType, quantity);
      forall j :: 0 <= j < |s.items| ==>
        r.items[j] == if Matches(s.items[j], activityId, pricingType)
                      then s.items[j].(quantity := quantity) else s.items[j]
  {
    assert Update(s, activityId, pricingType, quantity).items
        == Retune(s.items, activityId, pricingType, SetQty(quantity));
  }

  /** REMOVE_ITEM. An absent key leaves the state as it was; otherwise every
      line with that key goes and the totals drop by the first one's
      contribution. */
  function Remove(s: CartState, activityId: string, pricingType: PricingType): (r: CartState)
    ensures Find(s.items, activityId, pricingType).None? ==> r == s
    ensures Find(s.items, activityId, pricingType).Some? ==>
      var gone := Find(s.items, activityId, pricingType).value;
      && (forall x :: x in r.items <==> x in s.items && !Matches(x, activityId, pricingType))
      && r.totalAmount == s.totalAmount - gone.unitPrice * gone.quantity
      && r.totalItems == s.totalItems - gone.quantity
  {
    var item := Find(s.items, activityId, pricingType);
    if item.None? then s
    else
      RemoveWhereMembers(s.items, activityId, pricingType);
      CartState(
        RemoveWhere(s.items, activityId, pricingType),
        s.totalAmount - item.value.unitPrice * item.value.quantity,
        s.totalItems - item.value.quantity)
  }

  /** `cartReducer`. */
  function Reduce(s: CartState, a: CartAction): (r: CartState)
    ensures a.ClearCart? ==> Valid(r) && |r.items| == 0
    ensures !a.ClearCart? && |s.items| == 0 && !a.AddItem? ==> r == s
  {
    match a
    case AddItem(item) => Add(s, item)
    case ClearCart => InitialState()
    case UpdateQuantity(id, pt, q) => Update(s, id, pt, q)
    case RemoveItem(id, pt) => Remove(s, id, pt)
  }

  // ---------------------------------------------------------------------
  // Key uniqueness
  // ---------------------------------------------------------------------

  lemma {:induction false} RemoveWhereUnique(items: seq<CartItem>, activityId: string, pricingType: PricingType)
    requires UniqueKeys(items)
    ensures UniqueKeys(RemoveWhere(items, activityId, pricingType))
    decreases |items|
  {
    if |items| > 0 {
      var tail := items[1..];
      assert UniqueKeys(tail) by {
        forall i, j | 0 <= i < j < |tail| ensures !SameKey(tail[i], tail[j]) {
          assert tail[i] == items[i + 1] && tail[j] == items[j + 1];
        }
      }
      RemoveWhereUnique(tail, activityId, pricingType);
      if !Matches(items[0], activityId, pricingType) {
        var rest := RemoveWhere(tail, activityId, pricingType);
        var r := [items[0]] + rest;
        forall i, j | 0 <= i < j < |r| ensures !SameKey(r[i], r[j]) {
          if i == 0 {
            assert r[j] == rest[j - 1];
            RemoveWhereMembers(tail, activityId, pricingType);
            assert rest[j - 1] in tail;
            var k :| 0 <= k < |tail| && tail[k] == rest[j - 1];
            assert items[k + 1] == tail[k];
          } else {
            assert r[i] == rest[i - 1] && r[j] == rest[j - 1];
          }
        }
      }
    }
  }

  /** Every action keeps "at most one line per key". */
  lemma {:induction false} ReducePreservesUnique(s: CartState, a: CartAction)
    requires UniqueKeys(s.items)
    ensures UniqueKeys(Reduce(s, a).items)
  {
    var r := Reduce(s, a);
    match a
    case AddItem(item) =>
      if Find(s.items, item.activityId, item.pricingType).None? {
        forall i, j | 0 <= i < j < |r.items| ensures !SameKey(r.items[i], r.items[j]) {
          if j == |s.items| {
            assert r.items[j] == item;
            assert r.items[i] == s.items[i];
          } else {
            assert r.items[i] == s.items[i] && r.items[j] == s.items[j];
          }
        }
      } else {
        forall i, j | 0 <= i < j < |r.items| ensures !SameKey(r.items[i], r.items[j]) {
          assert SameKey(r.items[i], s.items[j]) == SameKey(s.items[i], s.items[j]);
        }
      }
    case ClearCart =>
    case UpdateQuantity(id, pt, q) =>
      if r != s {
        forall i, j | 0 <= i < j < |r.items| ensures !SameKey(r.items[i], r.items[j]) {
          assert SameKey(r.items[i], s.items[j]) == SameKey(s.items[i], s.items[j]);
        }
      }
    case RemoveItem(id, pt) =>
      RemoveWhereUnique(s.items, id, pt);
  }

  // ---------------------------------------------------------------------
  // Totals
  // ---------------------------------------------------------------------

  lemma {:induction false} UniqueTail(items: seq<CartItem>)
    requires |items| > 0 && UniqueKeys(items)
    ensures UniqueKeys(items[1..])
  {
    var tail := items[1..];
    forall i, j | 0 <= i < j < |tail| ensures !SameKey(tail[i], tail[j]) {
      assert tail[i] == items[i + 1] && tail[j] == items[j + 1];
    }
  }

  lemma {:induction false} RetuneNoMatch(items: seq<CartItem>, activityId: string, pricingType: PricingType, t: Tune)
    requires forall j :: 0 <= j < |items| ==> !Matches(items[j], activityId, pricingType)
    ensures Retune(items, activityId, pricingType, t) == items
  {
  }

  lemma {:induction false} RemoveWhereNoMatch(items: seq<CartItem>, activityId: string, pricingType: PricingType)
    requires forall j :: 0 <= j < |items| ==> !Matches(items[j], activityId, pricingType)
    ensures RemoveWhere(items, activityId, pricingType) == items
    decreases |items|
  {
    if |items| > 0 {
      RemoveWhereNoMatch(items[1..], activityId, pricingType);
      assert items == [items[0]] + items[1..];
    }
  }

  /** Retuning the single matching line at p shifts the sums by that line's
      change. */
  lemma {:induction false} RetuneSums(items: seq<CartItem>, activityId: string, pricingType: PricingType, t: Tune, p: int)
    requires UniqueKeys(items)
    requires 0 <= p < |items| && Matches(items[p], activityId, pricingType)
    ensures AmountSum(Retune(items, activityId, pricingType, t))
         == AmountSum(items) + items[p].unitPrice * (Tuned(t, items[p].quantity) - items[p].quantity)
    ensures CountSum(Retune(items, activityId, pricingType, t))
         == CountSum(items) + (Tuned(t, items[p].quantity) - items[p].quantity)
    decreases |items|
  {
    var r := Retune(items, activityId, pricingType, t);
    UniqueTail(items);
    assert r[1..] == Retune(items[1..], activityId, pricingType, t);
    if p == 0 {
      forall j | 0 <= j < |items[1..]| ensures !Matches(items[1..][j], activityId, pricingType) {
        assert !SameKey(items[0], items[j + 1]);
      }
      RetuneNoMatch(items[1..], activityId, pricingType, t);
      var q := items[0].quantity;
      var u := items[0].unitPrice;
      assert u * Tuned(t, q) == u * q + u * (Tuned(t, q) - q);
    } else {
      assert !SameKey(items[0], items[p]);
      assert items[1..][p - 1] == items[p];
      RetuneSums(items[1..], activityId, pricingType, t, p - 1);
    }
  }

  /** The line at p is the only one with the key. */
  predicate OnlyMatchAt(items: seq<CartItem>, activityId: string, pricingType: PricingType, p: int) {
    && 0 <= p < |items|
    && forall j :: 0 <= j < |items| ==> (Matches(items[j], activityId, pricingType) <==> j == p)
  }

  /** When only the line at p has the key, the filter removes exactly it. */
  lemma {:induction false} RemoveShape(items: seq<CartItem>, activityId: string, pricingType: PricingType, p: int)
    requires OnlyMatchAt(items, activityId, pricingType, p)
    ensures RemoveWhere(items, activityId, pricingType) == items[..p] + items[p + 1..]
    decreases |items|
  {
    var tail := items[1..];
    if p == 0 {
      assert forall j :: 0 <= j < |tail| ==> !Matches(tail[j], activityId, pricingType) by {
        forall j | 0 <= j < |tail| ensures !Matches(tail[j], activityId, pricingType) {
          assert tail[j] == items[j + 1];
        }
      }
      RemoveWhereNoMatch(tail, activityId, pricingType);
      assert RemoveWhere(items, activityId, pricingType) == tail;
      assert items[..0] + items[1..] == tail;
    } else {
      assert OnlyMatchAt(tail, activityId, pricingType, p - 1) by {
        forall j | 0 <= j < |tail|
          ensures Matches(tail[j], activityId, pricingType) <==> j == p - 1
        {
          assert tail[j] == items[j + 1];
        }
      }
      RemoveShape(tail, activityId, pricingType, p - 1);
      assert !Matches(items[0], activityId, pricingType);
      assert RemoveWhere(items, activityId, pricingType)
          == [items[0]] + (tail[..p - 1] + tail[p..]);
      assert [items[0]] + (tail[..p - 1] + tail[p..]) == items[..p] + items[p + 1..] by {
        assert tail[..p - 1] == items[1..p];
        assert tail[p..] == items[p + 1..];
        assert [items[0]] + items[1..p] == items[..p];
      }
    }
  }

  /** Removing the single matching line at p drops its contribution. */
  lemma {:induction false} RemoveSums(items: seq<CartItem>, activityId: string, pricingType: PricingType, p: int)
    requires UniqueKeys(items)
    requires 0 <= p < |items| && Matches(items[p], activityId, pricingType)
    ensures RemoveWhere(items, activityId, pricingType) == items[..p] + items[p + 1..]
    ensures AmountSum(RemoveWhere(items, activityId, pricingType))
         == AmountSum(items) - items[p].unitPrice * items[p].quantity
    ensures CountSum(RemoveWhere(items, activityId, pricingType))
         == CountSum(items) - items[p].quantity
  {
    assert OnlyMatchAt(items, activityId, pricingType, p) by {
      forall j | 0 <= j < |items| && j != p ensures !Matches(items[j], activityId, pricingType) {
        if j < p { assert !SameKey(items[j], items[p]); } else { assert !SameKey(items[p], items[j]); }
      }
    }
    RemoveShape(items, activityId, pricingType, p);
    var before, line, after := items[..p], [items[p]], items[p + 1..];
    assert items == before + (line + after);
    SumsAppend(before, after);
    SumsAppend(line, after);
    SumsAppend(before, line + after);
    assert AmountSum(line) == items[p].unitPrice * items[p].quantity;
    assert CountSum(line) == items[p].quantity;
  }

  /** The side condition under which a merge keeps the amount honest: a
      merging ADD_ITEM carries the unit price already stored on the line. */
  predicate PriceConsistent(s: CartState, a: CartAction) {
    a.AddItem? ==>
      var existing := Find(s.items, a.item.activityId, a.item.pricingType);
      existing.Some? ==> existing.value.unitPrice == a.item.unitPrice
  }

  /** Merging `diff` into the single matching line at p moves both live
      sums by that line's share of it. */
  lemma {:induction false} MergeSums(items: seq<CartItem>, activityId: string, pricingType: PricingType, diff: int, p: int)
    requires UniqueKeys(items)
    requires 0 <= p < |items| && Matches(items[p], activityId, pricingType)
    ensures AmountSum(Retune(items, activityId, pricingType, AddQty(diff)))
         == AmountSum(items) + items[p].unitPrice * diff
    ensures CountSum(Retune(items, activityId, pricingType, AddQty(diff))) == CountSum(items) + diff
  {
    var line := items[p];
    assert Tuned(AddQty(diff), line.quantity) - line.quantity == diff;
    RetuneSums(items, activityId, pricingType, AddQty(diff), p);
  }

  lemma {:induction false} AddKeepsTotals(s: CartState, item: CartItem)
    requires Valid(s)
    requires PriceConsistent(s, AddItem(item))
    ensures TotalsConsistent(Add(s, item))
  {
    var p := FindIndex(s.items, item.activityId, item.pricingType);
    if p < 0 {
      SumsAppend(s.items, [item]);
    } else {
      assert Find(s.items, item.activityId, item.pricingType) == Some(s.items[p]);
      MergeSums(s.items, item.activityId, item.pricingType, item.quantity, p);
    }
  }

  /** Setting the single matching line at p to `quantity` moves both live
      sums by that line's change. */
  lemma {:induction false} SetSums(items: seq<CartItem>, activityId: string, pricingType: PricingType, quantity: int, p: int)
    requires UniqueKeys(items)
    requires 0 <= p < |items| && Matches(items[p], activityId, pricingType)
    ensures AmountSum(Retune(items, activityId, pricingType, SetQty(quantity)))
         == AmountSum(items) + items[p].unitPrice * (quantity - items[p].quantity)
    ensures CountSum(Retune(items, activityId, pricingType, SetQty(quantity)))
         == CountSum(items) + (quantity - items[p].quantity)
  {
    var line := items[p];
    assert Tuned(SetQty(quantity), line.quantity) - line.quantity == quantity - line.quantity;
    RetuneSums(items, activityId, pricingType, SetQty(quantity), p);
  }

  lemma {:induction false} UpdatePresentKeepsTotals(s: CartState, activityId: string, pricingType: PricingType, quantity: int, p: int)
    requires Valid(s)
    requires quantity >= 1 && p == FindIndex(s.items, activityId, pricingType) && p >= 0
    ensures TotalsConsistent(Update(s, activityId, pricingType, quantity))
  {
    var line := s.items[p];
    var diff := quantity - line.quantity;
    var r := Retune(s.items, activityId, pricingType, SetQty(quantity));
    assert Update(s, activityId, pricingType, quantity)
        == CartState(r, s.totalAmount + line.unitPrice * diff, s.totalItems + diff) by {
      assert Find(s.items, activityId, pricingType) == Some(line);
    }
    assert AmountSum(r) == AmountSum(s.items) + line.unitPrice * diff
        && CountSum(r) == CountSum(s.items) + diff by {
      SetSums(s.items, activityId, pricingType, quantity, p);
    }
  }

  lemma {:induction false} UpdateKeepsTotals(s: CartState, activityId: string, pricingType: PricingType, quantity: int)
    requires Valid(s)
    ensures TotalsConsistent(Update(s, activityId, pricingType, quantity))
  {
    var p := FindIndex(s.items, activityId, pricingType);
    if quantity >= 1 && p >= 0 {
      UpdatePresentKeepsTotals(s, activityId, pricingType, quantity, p);
    } else {
      assert Update(s, activityId, pricingType, quantity) == s;
    }
  }

  lemma {:induction false} RemoveKeepsTotals(s: CartState, activityId: string, pricingType: PricingType)
    requires Valid(s)
    ensures TotalsConsistent(Remove(s, activityId, pricingType))
  {
    var p := FindIndex(s.items, activityId, pricingType);
    if p >= 0 {
      var line := s.items[p];
      assert Find(s.items, activityId, pricingType) == Some(line);
      assert Remove(s, activityId, pricingType)
          == CartState(RemoveWhere(s.items, activityId, pricingType),
                       s.totalAmount - line.unitPrice * line.quantity,
                       s.totalItems - line.quantity);
      RemoveSums(s.items, activityId, pricingType, p);
    }
  }

  /** Every action keeps the stored totals equal to the live sums, provided
      a merging add carries the stored line's unit price. */
  lemma {:induction false} ReducePreservesTotals(s: CartState, a: CartAction)
    requires Valid(s)
    requires PriceConsistent(s, a)
    ensures TotalsConsistent(Reduce(s, a))
  {
    match a
    case AddItem(item) => AddKeepsTotals(s, item);
    case ClearCart =>
    case UpdateQuantity(id, pt, q) => UpdateKeepsTotals(s, id, pt, q);
    case RemoveItem(id, pt) => RemoveKeepsTotals(s, id, pt);
  }

  lemma {:induction false} ReducePreservesValid(s: CartState, a: CartAction)
    requires Valid(s)
    requires PriceConsistent(s, a)
    ensures Valid(Reduce(s, a))
  {
    ReducePreservesUnique(s, a);
    ReducePreservesTotals(s, a);
  }

  /** The side condition is needed: merging at a different price leaves the
      stored amount away from the live sum. */
  lemma {:induction false} MergeAtOtherPriceDrifts()
    ensures var s := Reduce(InitialState(), AddItem(CartItem("a", "A", 1, 100, Member)));
            var t := Reduce(s, AddItem(CartItem("a", "A", 1, 200, Member)));
            Valid(s) && t.totalAmount == 300 && AmountSum(t.items) == 200
  {
    var x, y := CartItem("a", "A", 1, 100, Member), CartItem("a", "A", 1, 200, Member);
    var s := Reduce(InitialState(), AddItem(x));
    assert s == CartState([x], 100, 1) by {
      assert Find([], "a", Member).None?;
    }
    assert Find(s.items, "a", Member) == Some(x) by {
      assert FindIndex([x], "a", Member) == 0;
    }
    var t := Reduce(s, AddItem(y));
    assert t.totalAmount == 300;
    assert t.items == [x.(quantity := 2)] by {
      assert t.items[0] == x.(quantity := 2);
    }
    assert AmountSum(t.items) == 200 by {
      assert t.items[1..] == [];
    }
  }

  // ---------------------------------------------------------------------
  // Single-action properties
  // ---------------------------------------------------------------------

  /** ADD_ITEM with a known key adds no line and changes only that line. */
  lemma {:induction false} AddMergesIntoTheLine(s: CartState, item: CartItem, p: int)
    requires UniqueKeys(s.items)
    requires 0 <= p < |s.items| && SameKey(s.items[p], item)
    ensures var r := Reduce(s, AddItem(item));
      && |r.items| == |s.items|
      && r.items[p] == s.items[p].(quantity := s.items[p].quantity + item.quantity)
      && r.items[p].unitPrice == s.items[p].unitPrice
      && forall j :: 0 <= j < |s.items| && j != p ==> r.items[j] == s.items[j]
  {
    FindUnique(s.items, item.activityId, item.pricingType, p);
    forall j | 0 <= j < |s.items| && j != p ensures !SameKey(s.items[j], item) {
      if j < p { assert !SameKey(s.items[j], s.items[p]); }
      else { assert !SameKey(s.items[p], s.items[j]); }
    }
  }

  /** UPDATE_QUANTITY on a present key with quantity >= 1 sets exactly that
      line and leaves every other line as it was. */
  lemma {:induction false} UpdateSetsTheLine(s: CartState, activityId: string, pricingType: PricingType, quantity: int, p: int)
    requires UniqueKeys(s.items)
    requires quantity >= 1
    requires 0 <= p < |s.items| && Matches(s.items[p], activityId, pricingType)
    ensures var r := Reduce(s, UpdateQuantity(activityId, pricingType, quantity));
      && |r.items| == |s.items|
      && r.items[p].quantity == quantity
      && r.items[p] == s.items[p].(quantity := quantity)
      && (forall j :: 0 <= j < |s.items| && j != p ==> r.items[j] == s.items[j])
      && r.totalItems == s.totalItems + (quantity - s.items[p].quantity)
      && r.totalAmount == s.totalAmount + s.items[p].unitPrice * (quantity - s.items[p].quantity)
  {
    assert OnlyMatchAt(s.items, activityId, pricingType, p) by {
      forall j | 0 <= j < |s.items| && j != p ensures !Matches(s.items[j], activityId, pricingType) {
        if j < p { assert !SameKey(s.items[j], s.items[p]); }
        else { assert !SameKey(s.items[p], s.items[j]); }
      }
    }
    assert Find(s.items, activityId, pricingType) == Some(s.items[p]) by {
      FindUnique(s.items, activityId, pricingType, p);
    }
  }

  /** REMOVE_ITEM on a present key deletes exactly that line. */
  lemma {:induction false} RemoveDeletesTheLine(s: CartState, activityId: string, pricingType: PricingType, p: int)
    requires UniqueKeys(s.items)
    requires 0 <= p < |s.items| && Matches(s.items[p], activityId, pricingType)
    ensures var r := Reduce(s, RemoveItem(activityId, pricingType));
      && r.items == s.items[..p] + s.items[p + 1..]
      && r.totalAmount == s.totalAmount - s.items[p].unitPrice * s.items[p].quantity
      && r.totalItems == s.totalItems - s.items[p].quantity
  {
    FindUnique(s.items, activityId, pricingType, p);
    RemoveSums(s.items, activityId, pricingType, p);
  }

  /** A second removal of the same key changes nothing. */
  lemma {:induction false} RemoveIdempotent(s: CartState, activityId: string, pricingType: PricingType)
    ensures var once := Reduce(s, RemoveItem(activityId, pricingType));
            Reduce(once, RemoveItem(activityId, pricingType)) == once
  {
    var once := Reduce(s, RemoveItem(activityId, pricingType));
    if Find(once.items, activityId, pricingType).Some? {
      var x := Find(once.items, activityId, pricingType).value;
      assert x in once.items;
    }
  }

  /** Every line holds at least one ticket. */
  predicate QuantitiesPositive(items: seq<CartItem>) {
    forall j :: 0 <= j < |items| ==> items[j].quantity >= 1
  }

  /** As long as adds carry a quantity of at least 1, no action leaves a
      line below 1: updates below 1 are ignored and removal deletes. */
  lemma {:induction false} ReducePreservesPositive(s: CartState, a: CartAction)
    requires QuantitiesPositive(s.items)
    requires a.AddItem? ==> a.item.quantity >= 1
    ensures QuantitiesPositive(Reduce(s, a).items)
  {
    var r := Reduce(s, a);
    if a.RemoveItem? {
      forall j | 0 <= j < |r.items| ensures r.items[j].quantity >= 1 {
        assert r.items[j] in s.items;
      }
    }
  }

  /** Lines keep their key and unit price through every action; a line of
      the result is either an old line (possibly with a new quantity) or the
      added item. */
  lemma {:induction false} ReduceKeepsLinePrices(s: CartState, a: CartAction, j: int)
    requires 0 <= j < |Reduce(s, a).items|
    ensures var x := Reduce(s, a).items[j];
      (exists k :: 0 <= k < |s.items| && SameKey(s.items[k], x) && s.items[k].unitPrice == x.unitPrice)
      || (a.AddItem? && x == a.item)
  {
    var r := Reduce(s, a);
    var x := r.items[j];
    match a
    case AddItem(item) =>
      if j < |s.items| {
        assert SameKey(s.items[j], x) && s.items[j].unitPrice == x.unitPrice;
      }
    case ClearCart =>
    case UpdateQuantity(_, _, _) =>
      assert SameKey(s.items[j], x) && s.items[j].unitPrice == x.unitPrice;
    case RemoveItem(_, _) =>
      assert x in s.items;
      var k :| 0 <= k < |s.items| && s.items[k] == x;
      assert SameKey(s.items[k], x);
  }

  // ---------------------------------------------------------------------
  // Sequences of actions
  // ---------------------------------------------------------------------

  /** The state after dispatching `actions` in order. */
  function Run(s: CartState, actions: seq<CartAction>): CartState
    decreases |actions|
  {
    if |actions| == 0 then s else Run(Reduce(s, actions[0]), actions[1..])
  }

  /** Every merging add in the run carries the stored line's price. */
  predicate PricesAgree(s: CartState, actions: seq<CartAction>)
    decreases |actions|
  {
    |actions| == 0 ||
    (PriceConsistent(s, actions[0]) && PricesAgree(Reduce(s, actions[0]), actions[1..]))
  }

  /** From the initial state, any run keeps keys unique; and the totals
      equal the live sums as long as merging adds carry the stored price. */
  lemma {:induction false} RunPreservesValid(s: CartState, actions: seq<CartAction>)
    requires UniqueKeys(s.items)
    ensures UniqueKeys(Run(s, actions).items)
    ensures Valid(s) && PricesAgree(s, actions) ==> Valid(Run(s, actions))
    decreases |actions|
  {
    if |actions| > 0 {
      ReducePreservesUnique(s, actions[0]);
      if Valid(s) && PricesAgree(s, actions) {
        ReducePreservesValid(s, actions[0]);
      }
      RunPreservesValid(Reduce(s, actions[0]), actions[1..]);
    }
  }

  /** Clearing at the end of any run yields the empty cart. */
  lemma {:induction false} ClearAfterRun(s: CartState, actions: seq<CartAction>)
    ensures Run(s, actions + [ClearCart]) == InitialState()
    decreases |actions|
  {
    if |actions| == 0 {
      assert actions + [ClearCart] == [ClearCart];
    } else {
      assert (actions + [ClearCart])[1..] == actions[1..] + [ClearCart];
      ClearAfterRun(Reduce(s, actions[0]), actions[1..]);
    }
  }

  // ---------------------------------------------------------------------
  // Two adds in a row
  // ---------------------------------------------------------------------

  /** Two adds with the same key, the first one new to the cart, end as a
      single new line holding both quantities at the first add's price. */
  lemma {:induction false} AddTwiceMerges(s: CartState, a: CartItem, b: CartItem)
    requires SameKey(b, a)
    requires Find(s.items, a.activityId, a.pricingType).None?
    ensures var r := Reduce(Reduce(s, AddItem(a)), AddItem(b));
      && r.items == s.items + [a.(quantity := a.quantity + b.quantity)]
      && r.totalItems == s.totalItems + a.quantity + b.quantity
      && r.totalAmount == s.totalAmount + a.unitPrice * a.quantity + b.unitPrice * b.quantity
  {
    var t := Reduce(s, AddItem(a));
    assert t.items == s.items + [a];
    assert Find(t.items, b.activityId, b.pricingType).Some? by {
      assert t.items[|s.items|] == a;
    }
    var r := Reduce(t, AddItem(b));
    var merged := a.(quantity := a.quantity + b.quantity);
    assert |r.items| == |s.items| + 1;
    assert forall j :: 0 <= j < |r.items| ==> r.items[j] == (s.items + [merged])[j] by {
      forall j | 0 <= j < |r.items|
        ensures r.items[j] == (s.items + [merged])[j]
      {
        if j < |s.items| {
          assert t.items[j] == s.items[j];
          assert !SameKey(t.items[j], b);
        }
      }
    }
  }

  /** Adds of the two tiers of one activity, neither yet in the cart,
      give two separate lines in the order added. */
  lemma {:induction false} DistinctTiersNeverMerge(s: CartState, a: CartItem, b: CartItem)
    requires a.activityId == b.activityId && a.pricingType != b.pricingType
    requires Find(s.items, a.activityId, a.pricingType).None?
    requires Find(s.items, b.activityId, b.pricingType).None?
    ensures Reduce(Reduce(s, AddItem(a)), AddItem(b)).items == s.items + [a, b]
  {
    var t := Reduce(s, AddItem(a));
    assert t.items == s.items + [a];
    assert Find(t.items, b.activityId, b.pricingType).None? by {
      forall j | 0 <= j < |t.items|
        ensures !Matches(t.items[j], b.activityId, b.pricingType)
      {
        if j < |s.items| { assert t.items[j] == s.items[j]; }
      }
    }
    assert s.items + [a] + [b] == s.items + [a, b];
  }
}

=== FILE: checkout.dfy ===
/** The checkout submission: the rows written to the database, built from a
    snapshot of the cart and the form, and the order in which the writes are
    issued. Every database call is replaced by the response it returned, so
    the submission is a pure function of the snapshot, the form and the
    responses. The cart is cleared only when every step succeeded. */
module Checkout {
  import opened Optional
  import opened Types
  import CartReducer
  import QrGenerator

  datatype SeatReq = Protocol | ChapterTable

  /** The validated checkout form. */
  datatype CheckoutForm = CheckoutForm(
    fullName: string,
    phoneNumber: string,
    email: Option<string>,
    unitId: string,
    title: Option<string>,
    seatReq: Option<SeatReq>,
    specReq: Option<string>,
    note: Option<string>)

  /** The receiving account the QR code pays into. */
  datatype BankAccount = BankAccount(
    bankCode: string,
    accountNumber: string,
    beneficiaryName: string)

  /** The write requests issued, in order. */
  datatype Write =
    | InsertRegistration(form: CheckoutForm)
    | InsertOrder(order: Order)
    | InsertOrderItems(orderItems: seq<OrderItem>)
    | InsertAttendees(attendees: seq<Attendee>)
    | UpdateOrderQr(orderId: string, qrUrl: string)

  /** What each step's database call answered: the new registration id, the
      new order id, and the outcome of the three remaining writes. */
  datatype Responses = Responses(
    registration: Result<string>,
    order: Result<string>,
    orderItems: Outcome,
    attendees: Outcome,
    qrUpdate: Outcome)

  /** The confirmation record kept for the confirmation view. */
  datatype OrderCreated = OrderCreated(
    orderCode: string,
    qrUrl: string,
    bankCode: string,
    accountNumber: string,
    accountName: string,
    amount: int,
    items: seq<CartItem>)

  /** The effect of one submission. */
  datatype SubmitOutcome = SubmitOutcome(
    writes: seq<Write>,
    cart: CartState,
    created: Option<OrderCreated>,
    alert: Option<string>)

  // ---------------------------------------------------------------------
  // Row construction
  // ---------------------------------------------------------------------

  /** The order header: the cart's stored total, status pending. */
  function OrderHeader(s: CartState, orderCode: string, registrationId: string): (r: Order)
    ensures r.totalAmount == s.totalAmount
    ensures r.paymentStatus == Pending
    ensures r.orderCode == orderCode && r.registrationId == registrationId
  {
    Order(orderCode, registrationId, s.totalAmount, Pending)
  }

  /** One order-item row per cart line, in cart order. */
  function OrderItemRows(items: seq<CartItem>, orderId: string): (r: seq<OrderItem>)
    ensures |r| == |items|
    ensures forall j :: 0 <= j < |items| ==>
      && r[j].orderId == orderId
      && r[j].activityId == items[j].activityId
      && r[j].quantity == items[j].quantity
      && r[j].pricePerUnit == items[j].unitPrice
      && r[j].subtotal == items[j].unitPrice * items[j].quantity
    decreases |items|
  {
    if |items| == 0 then []
    else
      [OrderItem(orderId, items[0].activityId, items[0].quantity, items[0].unitPrice,
                 items[0].unitPrice * items[0].quantity)]
      + OrderItemRows(items[1..], orderId)
  }

  /** One attendee row per cart line, in cart order, all for the registrant
      and all primary. */
  function AttendeeRows(items: seq<CartItem>, orderId: string, form: CheckoutForm): (r: seq<Attendee>)
    ensures |r| == |items|
    ensures forall j :: 0 <= j < |items| ==>
      r[j] == Attendee(orderId, items[j].activityId, form.fullName, form.phoneNumber,
                       form.email, form.unitId, true)
    decreases |items|
  {
    if |items| == 0 then []
    else
      [Attendee(orderId, items[0].activityId, form.fullName, form.phoneNumber,
                form.email, form.unitId, true)]
      + AttendeeRows(items[1..], orderId, form)
  }

  function SubtotalSum(rows: seq<OrderItem>): int
    decreases |rows|
  {
    if |rows| == 0 then 0 else rows[0].subtotal + SubtotalSum(rows[1..])
  }

  lemma {:induction false} SubtotalSumIsAmountSum(items: seq<CartItem>, orderId: string)
    ensures SubtotalSum(OrderItemRows(items, orderId)) == CartReducer.AmountSum(items)
    decreases |items|
  {
    if |items| > 0 {
      SubtotalSumIsAmountSum(items[1..], orderId);
      assert OrderItemRows(items, orderId)[1..] == OrderItemRows(items[1..], orderId);
    }
  }

  /** When the cart's totals are consistent, the subtotals of the order-item
      rows add up to the order header's total. */
  lemma SubtotalsMatchOrderTotal(s: CartState, orderCode: string, registrationId: string, orderId: string)
    requires CartReducer.TotalsConsistent(s)
    ensures SubtotalSum(OrderItemRows(s.items, orderId)) == OrderHeader(s, orderCode, registrationId).totalAmount
  {
    SubtotalSumIsAmountSum(s.items, orderId);
  }

  // ---------------------------------------------------------------------
  // The step sequence
  // ---------------------------------------------------------------------

  /** The step (0 to 4) whose response is the first error, if any. */
  function FirstFailure(resp: Responses): Option<nat> {
    if resp.registration.Err? then Some(0)
    else if resp.order.Err? then Some(1)
    else if resp.orderItems.Fail? then Some(2)
    else if resp.attendees.Fail? then Some(3)
    else if resp.qrUpdate.Fail? then Some(4)
    else None
  }

  /** The alert text when the thrown value is not an `Error`. */
  const SubmitFailed: string := "Không thể tạo đơn hàng"

  /** What the alert shows for the failing step: its error's message, or
      the fallback when that error is not an `Error` instance. */
  function FailureMessage(resp: Responses): string
    requires FirstFailure(resp).Some?
  {
    if resp.registration.Err? then CaughtText(resp.registration.message, resp.registration.isError, SubmitFailed)
    else if resp.order.Err? then CaughtText(resp.order.message, resp.order.isError, SubmitFailed)
    else if resp.orderItems.Fail? then CaughtText(resp.orderItems.message, resp.orderItems.isError, SubmitFailed)
    else if resp.attendees.Fail? then CaughtText(resp.attendees.message, resp.attendees.isError, SubmitFailed)
    else CaughtText(resp.qrUpdate.message, resp.qrUpdate.isError, SubmitFailed)
  }

  function Abort(writes: seq<Write>, s: CartState, message: string, isError: bool): SubmitOutcome {
    SubmitOutcome(writes, s, None, Some("Lỗi: " + CaughtText(message, isError, SubmitFailed)))
  }

  /** `onSubmit`. `orderCode` is the generated code, `encode` stands for
      `encodeURIComponent`. */
  function Submit(
    s: CartState, form: CheckoutForm, orderCode: string, account: BankAccount,
    encode: string -> string, resp: Responses): (r: SubmitOutcome)
    ensures 1 <= |r.writes| <= 5
    ensures r.writes[0] == InsertRegistration(form)
    ensures FirstFailure(resp).Some? ==>
      && |r.writes| == FirstFailure(resp).value + 1
      && r.cart == s
      && r.created.None?
      && r.alert == Some("Lỗi: " + FailureMessage(resp))
    ensures FirstFailure(resp).None? ==>
      && |r.writes| == 5
      && r.cart == CartReducer.InitialState()
      && r.alert.None?
      && r.created.Some?
      && r.created.value.orderCode == orderCode
      && r.created.value.amount == s.totalAmount
      && r.created.value.items == s.items
  {
    var w1 := [InsertRegistration(form)];
    if resp.registration.Err? then Abort(w1, s, resp.registration.message, resp.registration.isError)
    else
      var w2 := w1 + [InsertOrder(OrderHeader(s, orderCode, resp.registration.value))];
      if resp.order.Err? then Abort(w2, s, resp.order.message, resp.order.isError)
      else
        var orderId := resp.order.value;
        var w3 := w2 + [InsertOrderItems(OrderItemRows(s.items, orderId))];
        if resp.orderItems.Fail? then Abort(w3, s, resp.orderItems.message, resp.orderItems.isError)
        else
          var w4 := w3 + [InsertAttendees(AttendeeRows(s.items, orderId, form))];
          if resp.attendees.Fail? then Abort(w4, s, resp.attendees.message, resp.attendees.isError)
          else
            var qr := QrGenerator.CreatePaymentQuickLink(
              account.bankCode, account.accountNumber, s.totalAmount, orderCode,
              account.beneficiaryName, encode);
            var w5 := w4 + [UpdateOrderQr(orderId, qr.qrUrl)];
            if resp.qrUpdate.Fail? then Abort(w5, s, resp.qrUpdate.message, resp.qrUpdate.isError)
            else
              var created := OrderCreated(orderCode, qr.qrUrl, qr.bankCode, qr.accountNumber,
                                          qr.accountName, s.totalAmount, s.items);
              SubmitOutcome(w5, CartReducer.Reduce(s, CartReducer.ClearCart), Some(created), None)
  }

  /** Each write issued carries the rows built from the same cart snapshot:
      the header with the stored total, the order-item and attendee rows
      from the lines, and a QR link for the stored total and the order
      code. */
  lemma SubmitWrites(
    s: CartState, form: CheckoutForm, orderCode: string, account: BankAccount,
    encode: string -> string, resp: Responses)
    ensures var r := Submit(s, form, orderCode, account, encode, resp);
      && (|r.writes| >= 2 ==>
            r.writes[1] == InsertOrder(OrderHeader(s, orderCode, resp.registration.value)))
      && (|r.writes| >= 3 ==>
            r.writes[2] == InsertOrderItems(OrderItemRows(s.items, resp.order.value)))
      && (|r.writes| >= 4 ==>
            r.writes[3] == InsertAttendees(AttendeeRows(s.items, resp.order.value, form)))
      && (|r.writes| == 5 ==>
            r.writes[4] == UpdateOrderQr(resp.order.value,
              QrGenerator.CreatePaymentQuickLink(account.bankCode, account.accountNumber,
                s.totalAmount, orderCode, account.beneficiaryName, encode).qrUrl))
  {
  }

  /** The confirmation record echoes the account and the link of the QR
      code built for the stored total and the order code. */
  lemma ConfirmationRecord(
    s: CartState, form: CheckoutForm, orderCode: string, account: BankAccount,
    encode: string -> string, resp: Responses)
    requires FirstFailure(resp).None?
    ensures var c := Submit(s, form, orderCode, account, encode, resp).created.value;
      && c.bankCode == account.bankCode
      && c.accountNumber == account.accountNumber
      && c.accountName == account.beneficiaryName
      && c.qrUrl == QrGenerator.CreatePaymentQuickLink(account.bankCode, account.accountNumber,
                      s.totalAmount, orderCode, account.beneficiaryName, encode).qrUrl
  {
  }

  /** The cart is emptied exactly when every step succeeded; on any error it
      is left as it was, so the visitor can retry. */
  lemma CartClearedIffAllStepsSucceed(
    s: CartState, form: CheckoutForm, orderCode: string, account: BankAccount,
    encode: string -> string, resp: Responses)
    requires |s.items| > 0
    ensures var r := Submit(s, form, orderCode, account, encode, resp);
      (|r.cart.items| == 0 <==> FirstFailure(resp).None?)
      && (r.cart == s <==> FirstFailure(resp).Some?)
  {
  }

  // ---------------------------------------------------------------------
  // The page's three views
  // ---------------------------------------------------------------------

  datatype CheckoutView = Confirmation(record: OrderCreated) | EmptyCart | Form

  /** The confirmation wins; otherwise an empty cart shows the empty view
      and no form, so a submission always starts from a non-empty cart. */
  function View(created: Option<OrderCreated>, s: CartState): (v: CheckoutView)
    ensures v.Form? <==> created.None? && |s.items| > 0
    ensures v.EmptyCart? <==> created.None? && |s.items| == 0
  {
    if created.Some? then Confirmation(created.value)
    else if |s.items| == 0 then EmptyCart
    else Form
  }
}

=== FILE: countdown.dfy ===
/** The countdown banner: the remaining milliseconds decomposed into days,
    hours, minutes and seconds, each of the last three shown on two
    digits. The remaining time (target minus the clock) is a parameter. */
module Countdown {
  import opened Optional
  import opened Text

  datatype Clock = Clock(days: nat, hours: nat, minutes: nat, seconds: nat)

  /** The decomposition, or nothing when the target has passed. */
  function Decompose(diff: int): (r: Option<Clock>)
    ensures r.None? <==> diff <= 0
    ensures r.Some? ==>
      var c := r.value;
      && c.hours < 24 && c.minutes < 60 && c.seconds < 60
      && c.days * 86400 + c.hours * 3600 + c.minutes * 60 + c.seconds == diff / 1000
  {
    if diff <= 0 then None
    else
      var totalSec := diff / 1000;
      var days := totalSec / (60 * 60 * 24);
      var hours := (totalSec % (60 * 60 * 24)) / 3600;
      var minutes := (totalSec % 3600) / 60;
      var seconds := totalSec % 60;
      RecomposeSeconds(totalSec);
      Some(Clock(days, hours, minutes, seconds))
  }

  lemma RecomposeSeconds(t: nat)
    ensures (t % 86400) / 3600 < 24
    ensures (t / 86400) * 86400 + ((t % 86400) / 3600) * 3600 + ((t % 3600) / 60) * 60 + t % 60 == t
  {
    var d, r := t / 86400, t % 86400;
    var h, r2 := r / 3600, r % 3600;
    var m, s := r2 / 60, r2 % 60;
    assert t == (d * 24 + h) * 3600 + r2;
    DivMod(t, d * 24 + h, 3600, r2);
    assert t == ((d * 24 + h) * 60 + m) * 60 + s;
    DivMod(t, (d * 24 + h) * 60 + m, 60, s);
  }

  /** The quotient and remainder are the only such pair. */
  lemma DivMod(t: int, q: int, m: int, r: int)
    requires m > 0 && 0 <= r < m && t == q * m + r
    ensures t / m == q && t % m == r
  {
    var q0, r0 := t / m, t % m;
    assert (q - q0) * m == r0 - r;
    if q - q0 >= 1 {
      MulAtLeast(q - q0, m);
    } else if q0 - q >= 1 {
      MulAtLeast(q0 - q, m);
    }
  }

  lemma MulAtLeast(k: int, m: int)
    requires k >= 1 && m > 0
    ensures k * m >= m
  {
    assert k * m == (k - 1) * m + m;
  }

  /** `format`: the number left-padded with '0' to two characters. */
  function Format(n: nat): (r: string)
    ensures |r| >= 2
    ensures n >= 10 ==> r == NatToString(n)
    ensures AllDigits(r)
  {
    var s := NatToString(n);
    PadStart(s, 2, '0')
  }

  /** A two-digit field reads back as the number shown. */
  lemma FormatRoundTrip(n: nat)
    ensures ParseNat(Format(n)) == n
  {
    var s := NatToString(n);
    var k := if |s| >= 2 then 0 else 2 - |s|;
    assert Format(n) == Zeros(k) + s;
    ParseNatLeadingZeros(k, s);
    NatToStringRoundTrip(n);
  }

  /** The word between the day count and the time. */
  const DayWord: string := "ngày"

  /** Hours, minutes and seconds on two digits, separated by ':'. */
  function TimeText(c: Clock): string {
    Format(c.hours) + ":" + Format(c.minutes) + ":" + Format(c.seconds)
  }

  /** The text of a clock: the days, " ngày ", then the time. */
  function ClockText(c: Clock): string {
    NatToString(c.days) + " " + DayWord + " " + TimeText(c)
  }

  /** The banner text, or nothing once the target has passed. */
  function Banner(diff: int): (r: Option<string>)
    ensures r.None? <==> diff <= 0
    ensures r.Some? ==> r.value == ClockText(Decompose(diff).value)
  {
    match Decompose(diff)
    case None => None
    case Some(c) => Some(ClockText(c))
  }

  /** A text of digits holds no character that is not a digit. */
  lemma DigitsLack(s: string, c: char)
    requires AllDigits(s) && !IsDigit(c)
    ensures c !in s
  {
  }

  /** The clock fields read back: split on ':' they are three fields of
      digits that read back as the hours, minutes and seconds. */
  lemma FieldsReadBack(h: nat, m: nat, s: nat)
    ensures var fields := Split(Format(h) + ":" + Format(m) + ":" + Format(s), ':');
      && |fields| == 3 && AllDigits(fields[0]) && AllDigits(fields[1]) && AllDigits(fields[2])
      && ParseNat(fields[0]) == h && ParseNat(fields[1]) == m && ParseNat(fields[2]) == s
  {
    DigitsLack(Format(h), ':');
    DigitsLack(Format(m), ':');
    DigitsLack(Format(s), ':');
    SplitThree(Format(h), Format(m), Format(s), ':');
    FormatRoundTrip(h);
    FormatRoundTrip(m);
    FormatRoundTrip(s);
  }

  /** Split on spaces, a clock's text is the day count, the word and the
      time. */
  lemma ClockTextWords(c: Clock)
    ensures Split(ClockText(c), ' ') == [NatToString(c.days), DayWord, TimeText(c)]
  {
    DigitsLack(NatToString(c.days), ' ');
    assert ' ' !in TimeText(c) by {
      DigitsLack(Format(c.hours), ' ');
      DigitsLack(Format(c.minutes), ' ');
      DigitsLack(Format(c.seconds), ' ');
    }
    assert ' ' !in DayWord;
    SplitThree(NatToString(c.days), DayWord, TimeText(c), ' ');
  }

  /** A clock's text reads back: split on spaces it is the day count,
      "ngày" and the time; the time split on ':' gives back the hours,
      minutes and seconds. */
  lemma ClockTextReadsBack(c: Clock)
    ensures var words := Split(ClockText(c), ' ');
      && |words| == 3 && words[1] == "ngày"
      && AllDigits(words[0]) && ParseNat(words[0]) == c.days
      && var fields := Split(words[2], ':');
      && |fields| == 3 && AllDigits(fields[0]) && AllDigits(fields[1]) && AllDigits(fields[2])
      && ParseNat(fields[0]) == c.hours && ParseNat(fields[1]) == c.minutes && ParseNat(fields[2]) == c.seconds
  {
    ClockTextWords(c);
    NatToStringRoundTrip(c.days);
    FieldsReadBack(c.hours, c.minutes, c.seconds);
  }

  /** While time remains, the banner reads back as the decomposition of
      the remaining time: days, then hours, minutes and seconds. */
  lemma BannerReadsBack(diff: int)
    requires diff > 0
    ensures var t, c := Banner(diff).value, Decompose(diff).value;
      var words := Split(t, ' ');
      && |words| == 3 && words[1] == "ngày"
      && AllDigits(words[0]) && ParseNat(words[0]) == c.days
      && var fields := Split(words[2], ':');
      && |fields| == 3 && AllDigits(fields[0]) && AllDigits(fields[1]) && AllDigits(fields[2])
      && ParseNat(fields[0]) == c.hours && ParseNat(fields[1]) == c.minutes && ParseNat(fields[2]) == c.seconds
  {
    ClockTextReadsBack(Decompose(diff).value);
  }
}

=== FILE: csv.dfy ===
/** The CSV text the statistics pages export: every cell wrapped in double
    quotes, cells joined by commas, rows joined by newlines. A double quote
    inside a cell is not escaped. */
module Csv {
  import opened Text

  /** `"${cell}"`. */
  function Quote(cell: string): (r: string)
    ensures |r| == |cell| + 2
    ensures r[0] == '"' && r[|r| - 1] == '"' && r[1..|r| - 1] == cell
  {
    "\"" + cell + "\""
  }

  function QuoteAll(cells: seq<string>): (r: seq<string>)
    ensures |r| == |cells|
    ensures forall k :: 0 <= k < |r| ==> r[k] == Quote(cells[k])
  {
    seq(|cells|, k requires 0 <= k < |cells| => Quote(cells[k]))
  }

  /** One row: its quoted cells joined by commas. */
  function Line(cells: seq<string>): string {
    Join(QuoteAll(cells), ",")
  }

  function Lines(rows: seq<seq<string>>): (r: seq<string>)
    ensures |r| == |rows|
    ensures forall k :: 0 <= k < |r| ==> r[k] == Line(rows[k])
  {
    seq(|rows|, k requires 0 <= k < |rows| => Line(rows[k]))
  }

  /** The whole text: the rows' lines joined by newlines. */
  function Document(rows: seq<seq<string>>): (r: string)
    ensures |rows| > 0 ==> IsPrefix(Line(rows[0]), r)
  {
    Join(Lines(rows), "\n")
  }

  /** A character that is in no piece and not in the separator is not in
      the join. */
  lemma {:induction false} JoinAvoids(xs: seq<string>, sep: string, c: char)
    requires forall k :: 0 <= k < |xs| ==> c !in xs[k]
    requires c !in sep
    ensures c !in Join(xs, sep)
    decreases |xs|
  {
    if |xs| > 1 {
      JoinAvoids(xs[1..], sep, c);
    }
  }

  predicate NoCharInCells(c: char, rows: seq<seq<string>>) {
    forall r, k :: 0 <= r < |rows| && 0 <= k < |rows[r]| ==> c !in rows[r][k]
  }

  /** A line holds no newline when none of its cells does. */
  lemma LineHasNoNewline(cells: seq<string>)
    requires forall k :: 0 <= k < |cells| ==> '\n' !in cells[k]
    ensures '\n' !in Line(cells)
  {
    var q := QuoteAll(cells);
    forall k | 0 <= k < |q|
      ensures '\n' !in q[k]
    {
      assert q[k] == "\"" + cells[k] + "\"";
    }
    JoinAvoids(q, ",", '\n');
  }

  /** When no cell contains a newline, the text has exactly one line per
      row, and line k is row k's line. */
  lemma LinesOfDocument(rows: seq<seq<string>>)
    requires |rows| >= 1
    requires NoCharInCells('\n', rows)
    ensures Split(Document(rows), '\n') == Lines(rows)
    ensures |Split(Document(rows), '\n')| == |rows|
  {
    var ls := Lines(rows);
    forall k | 0 <= k < |ls|
      ensures '\n' !in ls[k]
    {
      LineHasNoNewline(rows[k]);
    }
    SplitJoin(ls, '\n');
  }

  /** When no cell contains a comma, splitting a line on commas gives back
      the quoted cells, one per cell. */
  lemma CellsOfLine(cells: seq<string>)
    requires |cells| >= 1
    requires forall k :: 0 <= k < |cells| ==> ',' !in cells[k]
    ensures Split(Line(cells), ',') == QuoteAll(cells)
  {
    var q := QuoteAll(cells);
    forall k | 0 <= k < |q|
      ensures ',' !in q[k]
    {
      assert q[k] == "\"" + cells[k] + "\"";
    }
    SplitJoin(q, ',');
  }

  /** Quoting adds exactly two double quotes and leaves the cell's own
      double quotes as they are. */
  lemma QuotesNotEscaped(cell: string)
    ensures CountChar('"', Quote(cell)) == CountChar('"', cell) + 2
  {
    CountCharAppend('"', "\"" + cell, "\"");
    CountCharAppend('"', "\"", cell);
  }
}

=== FILE: dashboard.dfy ===
/** The admin dashboard: five figures computed from three reads, and the
    five most recent orders with a status badge. The three reads are
    parameters; the orders are assumed to come back newest first, as
    requested. */
module Dashboard {
  import opened Optional
  import opened Lists

  /** `total_amount` as it comes back: a number; a falsy value that is not
      a number (null, undefined, the empty string); or a truthy value that
      is not a number, written as its text. The revenue counts numbers
      only; the table shows a truthy non-number as it is. */
  datatype Amount = JsNumber(n: int) | Falsy | Truthy(raw: string)

  datatype DashboardOrder = DashboardOrder(
    id: string,
    orderCode: string,
    totalAmount: Amount,
    paymentStatus: string,
    createdAt: string,
    registrantName: Option<string>)

  datatype Metrics = Metrics(
    totalOrders: nat,
    totalRevenue: int,
    pendingPayments: nat,
    totalActivities: nat,
    totalAttendees: nat,
    recentOrders: seq<DashboardOrder>)

  /** How many orders are listed as recent. */
  const RecentCount: nat := 5

  /** The banner when a read fails with a value that is not an `Error`. */
  const LoadFailed: string := "Không thể tải dữ liệu"

  /** The amount the sum counts for one order. */
  function Counted(a: Amount): int {
    if a.JsNumber? then a.n else 0
  }

  /** Whether the sum counts an order's amount. */
  predicate Numeric(o: DashboardOrder) {
    o.totalAmount.JsNumber?
  }

  /** The amount an order adds to the revenue. */
  function Contribution(o: DashboardOrder): int {
    Counted(o.totalAmount)
  }

  /** The revenue: the numeric amounts added up, that is, the sum over the
      orders whose amount is a number. */
  function Revenue(orders: seq<DashboardOrder>): (r: int)
    ensures r == SumOf(Filter(orders, Numeric), Contribution)
    decreases |orders|
  {
    if |orders| == 0 then 0
    else
      var rest := Filter(orders[1..], Numeric);
      assert ([orders[0]] + rest)[1..] == rest;
      Counted(orders[0].totalAmount) + Revenue(orders[1..])
  }

  lemma {:induction false} RevenueAppend(a: seq<DashboardOrder>, b: seq<DashboardOrder>)
    ensures Revenue(a + b) == Revenue(a) + Revenue(b)
    decreases |a|
  {
    if |a| == 0 {
      assert a + b == b;
    } else {
      assert (a + b)[1..] == a[1..] + b;
      RevenueAppend(a[1..], b);
    }
  }

  /** `reduce` from the left, as the page does it, gives the same total. */
  method SumRevenue(orders: seq<DashboardOrder>) returns (total: int)
    ensures total == Revenue(orders)
  {
    total := 0;
    var i := 0;
    while i < |orders|
      invariant 0 <= i <= |orders|
      invariant total == Revenue(orders[..i])
    {
      RevenueAppend(orders[..i], [orders[i]]);
      assert orders[..i + 1] == orders[..i] + [orders[i]];
      total := total + Counted(orders[i].totalAmount);
      i := i + 1;
    }
    assert orders[..i] == orders;
  }

  /** Orders without a non-negative amount cannot make revenue negative. */
  lemma {:induction false} RevenueNonNegative(orders: seq<DashboardOrder>)
    requires forall k :: 0 <= k < |orders| ==> Counted(orders[k].totalAmount) >= 0
    ensures Revenue(orders) >= 0
    decreases |orders|
  {
    if |orders| > 0 {
      RevenueNonNegative(orders[1..]);
    }
  }

  predicate IsPending(o: DashboardOrder) {
    o.paymentStatus == "pending"
  }

  /** The figures from successful reads; a `null` list counts as empty. */
  function ComputeMetrics(
    orders: Option<seq<DashboardOrder>>,
    activities: Option<seq<string>>,
    attendees: Option<seq<string>>): (m: Metrics)
    ensures m.totalOrders == |orders.GetOr([])|
    ensures m.pendingPayments <= m.totalOrders
    ensures m.pendingPayments == |Filter(orders.GetOr([]), IsPending)|
    ensures m.totalActivities == |activities.GetOr([])|
    ensures m.totalAttendees == |attendees.GetOr([])|
    ensures |m.recentOrders| == (if m.totalOrders < RecentCount then m.totalOrders else RecentCount)
    ensures forall k :: 0 <= k < |m.recentOrders| ==> m.recentOrders[k] == orders.GetOr([])[k]
  {
    var os := orders.GetOr([]);
    Metrics(
      |os|,
      Revenue(os),
      |Filter(os, IsPending)|,
      |activities.GetOr([])|,
      |attendees.GetOr([])|,
      Take(os, RecentCount))
  }

  /** `fetchMetrics`: the reads happen in order and the first failure is
      the page's error; the figures exist only when all three succeed. */
  function FetchMetrics(
    orders: Result<Option<seq<DashboardOrder>>>,
    activities: Result<Option<seq<string>>>,
    attendees: Result<Option<seq<string>>>): (r: Loaded<Metrics>)
    ensures r.Ready? <==> orders.Ok? && activities.Ok? && attendees.Ok?
    ensures orders.Err? ==> r == Banner(CaughtText(orders.message, orders.isError, LoadFailed))
    ensures orders.Ok? && activities.Err? ==> r == Banner(CaughtText(activities.message, activities.isError, LoadFailed))
    ensures orders.Ok? && activities.Ok? && attendees.Err? ==>
      r == Banner(CaughtText(attendees.message, attendees.isError, LoadFailed))
    ensures r.Ready? ==> r.data == ComputeMetrics(orders.value, activities.value, attendees.value)
    ensures r.Ready? ==> r.data.totalRevenue == Revenue(orders.value.GetOr([]))
  {
    if orders.Err? then Banner(CaughtText(orders.message, orders.isError, LoadFailed))
    else if activities.Err? then Banner(CaughtText(activities.message, activities.isError, LoadFailed))
    else if attendees.Err? then Banner(CaughtText(attendees.message, attendees.isError, LoadFailed))
    else Ready(ComputeMetrics(orders.value, activities.value, attendees.value))
  }

  /** The badge text of a payment status: the three known statuses have
      their own label, any other status is shown as it is. */
  function StatusLabel(status: string): (shown: string)
    ensures status == "pending" ==> shown == "Chờ thanh toán"
    ensures status == "completed" ==> shown == "Hoàn tất"
    ensures status == "failed" ==> shown == "Thất bại"
    ensures status !in {"pending", "completed", "failed"} ==> shown == status
  {
    var known := map["pending" := "Chờ thanh toán", "completed" := "Hoàn tất", "failed" := "Thất bại"];
    if status in known then known[status] else status
  }

  /** The badge tells the known statuses apart, and never shows a known
      label for a status outside them unless that label is the status. */
  lemma StatusLabelsDistinct(a: string, b: string)
    requires a in {"pending", "completed", "failed"}
    requires b in {"pending", "completed", "failed"}
    ensures StatusLabel(a) == StatusLabel(b) <==> a == b
  {
  }

  /** What the amount cell hands to the currency formatter: a number, or
      a truthy non-number passed through as it is. */
  datatype Shown = Figure(n: int) | Verbatim(raw: string)

  /** One row of the recent-orders table, before formatting. */
  datatype RecentRow = RecentRow(code: string, customer: string, amount: Shown, badge: string)

  /** `total_amount || 0`: a falsy amount becomes 0, anything else is
      passed on unchanged. */
  function ShownAmount(a: Amount): (r: Shown)
    ensures a.JsNumber? ==> r == Figure(a.n)
    ensures a.Falsy? ==> r == Figure(0)
    ensures a.Truthy? ==> r == Verbatim(a.raw)
  {
    match a
    case JsNumber(n) => Figure(n)
    case Falsy => Figure(0)
    case Truthy(raw) => Verbatim(raw)
  }

  /** The row of one order: a missing registrant shows as a dash, a falsy
      amount as zero, a truthy non-numeric amount as it is. */
  function Row(o: DashboardOrder): (r: RecentRow)
    ensures r.code == o.orderCode
    ensures o.registrantName.None? ==> r.customer == "—"
    ensures o.registrantName.Some? ==> r.customer == o.registrantName.value
    ensures r.badge == StatusLabel(o.paymentStatus)
    ensures o.totalAmount.JsNumber? ==> r.amount == Figure(o.totalAmount.n)
    ensures o.totalAmount.Falsy? ==> r.amount == Figure(0)
    ensures o.totalAmount.Truthy? ==> r.amount == Verbatim(o.totalAmount.raw)
  {
    RecentRow(
      o.orderCode,
      o.registrantName.GetOr("—"),
      ShownAmount(o.totalAmount),
      StatusLabel(o.paymentStatus))
  }

  /** The table and the revenue agree on an order exactly when its amount
      is not a truthy non-number: only such an amount is shown but not
      counted. */
  lemma RowAgreesWithRevenue(o: DashboardOrder)
    ensures Row(o).amount == Figure(Contribution(o)) <==> !o.totalAmount.Truthy?
  {
  }
}

=== FILE: events_page.dfy ===
/** The events page: per-activity selectors for quantity and tier, the
    lookup of what the cart already holds, and the payload sent to the cart
    on "add to cart". */
module EventsPage {
  import opened Optional
  import opened Types
  import CartReducer

  /** The page's two per-activity maps, keyed by activity id. */
  datatype Selectors = Selectors(quantities: map<string, int>, pricing: map<string, PricingType>)

  /** Every stored selector quantity is at least 1. */
  predicate SelectorsPositive(sel: Selectors) {
    forall id :: id in sel.quantities ==> sel.quantities[id] >= 1
  }

  /** After loading, every activity starts at quantity 1 and tier
      non_member. */
  function InitialSelectors(activities: seq<Activity>): (r: Selectors)
    ensures SelectorsPositive(r)
    ensures forall j :: 0 <= j < |activities| ==>
      var id := activities[j].id;
      id in r.quantities && r.quantities[id] == 1 && id in r.pricing && r.pricing[id] == NonMember
    ensures forall id :: id in r.quantities || id in r.pricing ==>
      exists j :: 0 <= j < |activities| && activities[j].id == id
  {
    var ids := set j | 0 <= j < |activities| :: activities[j].id;
    Selectors(map id | id in ids :: 1, map id | id in ids :: NonMember)
  }

  /** The tier selected for an activity, non_member when unset. */
  function SelectedTier(sel: Selectors, id: string): PricingType {
    if id in sel.pricing then sel.pricing[id] else NonMember
  }

  /** The quantity selected for an activity, 1 when unset. */
  function SelectedQuantity(sel: Selectors, id: string): int {
    if id in sel.quantities then sel.quantities[id] else 1
  }

  /** `getCartQuantityFor`: the quantity of the line with this key, or 0
      when the cart has no such line. */
  function GetCartQuantityFor(s: CartState, activityId: string, pricingType: PricingType): (q: int)
    ensures CartReducer.Find(s.items, activityId, pricingType).None? ==> q == 0
    ensures CartReducer.Find(s.items, activityId, pricingType).Some? ==>
      q == CartReducer.Find(s.items, activityId, pricingType).value.quantity
  {
    var item := CartReducer.Find(s.items, activityId, pricingType);
    if item.Some? then item.value.quantity else 0
  }

  /** With unique keys, the quantity read is that of the one line with the
      key. */
  lemma CartQuantityOfLine(s: CartState, p: int)
    requires CartReducer.UniqueKeys(s.items)
    requires 0 <= p < |s.items|
    ensures GetCartQuantityFor(s, s.items[p].activityId, s.items[p].pricingType) == s.items[p].quantity
  {
    CartReducer.FindUnique(s.items, s.items[p].activityId, s.items[p].pricingType, p);
  }

  /** The unit price of a tier: the member price for member, the non-member
      price otherwise, a missing price counting as 0. */
  function UnitPriceFor(a: Activity, pricingType: PricingType): (p: int)
    ensures pricingType == Member ==> p == a.priceMember.GetOr(0)
    ensures pricingType == NonMember ==> p == a.priceNonMember.GetOr(0)
  {
    match pricingType
    case Member => a.priceMember.GetOr(0)
    case NonMember => a.priceNonMember.GetOr(0)
  }

  /** The payload `handleAddToCart` dispatches. */
  function AddToCartPayload(sel: Selectors, a: Activity): (item: CartItem)
    ensures item.activityId == a.id && item.title == a.title
    ensures item.pricingType == SelectedTier(sel, a.id)
    ensures item.quantity == SelectedQuantity(sel, a.id)
    ensures item.unitPrice == UnitPriceFor(a, item.pricingType)
    ensures SelectorsPositive(sel) ==> item.quantity >= 1
  {
    var pricingType := SelectedTier(sel, a.id);
    CartItem(a.id, a.title, SelectedQuantity(sel, a.id), UnitPriceFor(a, pricingType), pricingType)
  }

  /** `handleChangeQuantity`: stores max(1, q) for the activity. */
  function ChangeQuantity(sel: Selectors, id: string, q: int): (r: Selectors)
    ensures SelectorsPositive(sel) ==> SelectorsPositive(r)
    ensures id in r.quantities && r.quantities[id] >= 1
    ensures q >= 1 ==> r.quantities[id] == q
    ensures q < 1 ==> r.quantities[id] == 1
    ensures r.pricing == sel.pricing
    ensures forall other :: other != id ==>
      (other in r.quantities <==> other in sel.quantities) &&
      (other in sel.quantities ==> r.quantities[other] == sel.quantities[other])
  {
    sel.(quantities := sel.quantities[id := if q > 1 then q else 1])
  }

  /** `handleChangePricing`: stores the tier, and resets the quantity to the
      cart's quantity for that key if positive, to 1 otherwise. */
  function ChangePricing(sel: Selectors, s: CartState, id: string, pricingType: PricingType): (r: Selectors)
    ensures SelectorsPositive(sel) ==> SelectorsPositive(r)
    ensures SelectedTier(r, id) == pricingType
    ensures GetCartQuantityFor(s, id, pricingType) > 0 ==>
      SelectedQuantity(r, id) == GetCartQuantityFor(s, id, pricingType)
    ensures GetCartQuantityFor(s, id, pricingType) <= 0 ==> SelectedQuantity(r, id) == 1
    ensures forall other :: other != id ==>
      SelectedTier(r, other) == SelectedTier(sel, other) &&
      SelectedQuantity(r, other) == SelectedQuantity(sel, other)
  {
    var inCart := GetCartQuantityFor(s, id, pricingType);
    Selectors(sel.quantities[id := if inCart > 0 then inCart else 1],
              sel.pricing[id := pricingType])
  }
}

=== FILE: lists.dfy ===
/** `Array.prototype.filter` and `Array.prototype.slice(0, n)`, and the
    array-or-object-or-null shape in which the database returns an
    embedded relation. */
module Lists {
  import opened Optional

  /** The elements of `xs` that satisfy `p`, in their original order. */
  function Filter<T>(xs: seq<T>, p: T -> bool): (r: seq<T>)
    ensures |r| <= |xs|
    ensures forall k :: 0 <= k < |r| ==> r[k] in xs && p(r[k])
    ensures forall k :: 0 <= k < |xs| && p(xs[k]) ==> xs[k] in r
    decreases |xs|
  {
    if |xs| == 0 then []
    else if p(xs[0]) then [xs[0]] + Filter(xs[1..], p)
    else Filter(xs[1..], p)
  }

  /** Filtering distributes over concatenation, so the kept elements keep
      their relative order. */
  lemma {:induction false} FilterAppend<T>(a: seq<T>, b: seq<T>, p: T -> bool)
    ensures Filter(a + b, p) == Filter(a, p) + Filter(b, p)
    decreases |a|
  {
    if |a| == 0 {
      assert a + b == b;
    } else {
      assert (a + b)[1..] == a[1..] + b;
      FilterAppend(a[1..], b, p);
    }
  }

  /** A filter that every element passes keeps the whole list. */
  lemma {:induction false} FilterKeepsAll<T>(xs: seq<T>, p: T -> bool)
    requires forall k :: 0 <= k < |xs| ==> p(xs[k])
    ensures Filter(xs, p) == xs
    decreases |xs|
  {
    if |xs| > 0 {
      FilterKeepsAll(xs[1..], p);
    }
  }

  /** Filtering a second time with the same test changes nothing. */
  lemma FilterIdempotent<T>(xs: seq<T>, p: T -> bool)
    ensures Filter(Filter(xs, p), p) == Filter(xs, p)
  {
    var r := Filter(xs, p);
    FilterKeepsAll(r, p);
  }

  /** `xs.reduce((sum, x) => sum + f(x), 0)`. */
  function SumOf<T>(xs: seq<T>, f: T -> int): int
    decreases |xs|
  {
    if |xs| == 0 then 0 else f(xs[0]) + SumOf(xs[1..], f)
  }

  lemma {:induction false} SumOfAppend<T>(a: seq<T>, b: seq<T>, f: T -> int)
    ensures SumOf(a + b, f) == SumOf(a, f) + SumOf(b, f)
    decreases |a|
  {
    if |a| == 0 {
      assert a + b == b;
    } else {
      assert (a + b)[1..] == a[1..] + b;
      SumOfAppend(a[1..], b, f);
    }
  }

  /** Summing a pointwise sum is adding the two sums. */
  lemma {:induction false} SumOfPointwise<T>(xs: seq<T>, f: T -> int, g: T -> int, h: T -> int)
    requires forall k :: 0 <= k < |xs| ==> h(xs[k]) == f(xs[k]) + g(xs[k])
    ensures SumOf(xs, h) == SumOf(xs, f) + SumOf(xs, g)
    decreases |xs|
  {
    if |xs| > 0 {
      SumOfPointwise(xs[1..], f, g, h);
    }
  }

  /** The left-to-right loop that `reduce` performs computes the sum. */
  method Reduce<T>(xs: seq<T>, f: T -> int) returns (total: int)
    ensures total == SumOf(xs, f)
  {
    total := 0;
    var i := 0;
    while i < |xs|
      invariant 0 <= i <= |xs|
      invariant total == SumOf(xs[..i], f)
    {
      SumOfAppend(xs[..i], [xs[i]], f);
      assert xs[..i + 1] == xs[..i] + [xs[i]];
      total := total + f(xs[i]);
      i := i + 1;
    }
    assert xs[..i] == xs;
  }

  /** A list with one element put in front: that element first, then the
      rest shifted by one place. */
  lemma ConsParts<T>(h: T, b: seq<T>)
    ensures |[h] + b| == |b| + 1 && ([h] + b)[0] == h
    ensures forall k :: 0 <= k < |b| ==> ([h] + b)[k + 1] == b[k]
  {
  }

  /** `xs.slice(0, n)`. */
  function Take<T>(xs: seq<T>, n: nat): (r: seq<T>)
    ensures |r| == if n < |xs| then n else |xs|
    ensures forall k :: 0 <= k < |r| ==> r[k] == xs[k]
  {
    if n < |xs| then xs[..n] else xs
  }

  /** An embedded relation as the database client returns it: absent
      (`null` or `undefined`), a single object, or an array of them. */
  datatype Joined<T> = Missing | One(item: T) | Many(items: seq<T>)

  /** `Array.isArray(x) ? x[0] ?? null : x`. */
  function FirstOf<T>(j: Joined<T>): (r: Option<T>)
    ensures r.None? <==> j.Missing? || (j.Many? && |j.items| == 0)
    ensures j.One? ==> r == Some(j.item)
    ensures j.Many? && |j.items| > 0 ==> r == Some(j.items[0])
  {
    match j
    case Missing => None
    case One(x) => Some(x)
    case Many(xs) => if |xs| == 0 then None else Some(xs[0])
  }

  /** `Array.isArray(x) ? x : x ? [x] : []`. */
  function AllOf<T>(j: Joined<T>): (r: seq<T>)
    ensures j.Missing? ==> r == []
    ensures j.One? ==> r == [j.item]
    ensures j.Many? ==> r == j.items
  {
    match j
    case Missing => []
    case One(x) => [x]
    case Many(xs) => xs
  }

  /** The first element, whichever way it is taken, is the same one. */
  lemma FirstOfAllOf<T>(j: Joined<T>)
    ensures FirstOf(j).Some? <==> |AllOf(j)| > 0
    ensures FirstOf(j).Some? ==> FirstOf(j).value == AllOf(j)[0]
  {
  }
}

=== FILE: optional.dfy ===
/** Nullable values and fallible results.

    `Option` stands for TypeScript's `T | null | undefined` fields, and
    `Result` for a Supabase response that carries either data or an error
    message. */
module Optional {

  /** A value that may be absent (`null` or `undefined` in TypeScript). */
  datatype Option<+T> = None | Some(value: T) {

    /** The value, or `default` when absent: TypeScript's `x ?? default`. */
    function GetOr(default: T): T {
      match this
      case Some(v) => v
      case None => default
    }
  }

  /** The `{ data, error }` pair of a database call: `Ok(data)` when `error`
      is null, `Err(message, isError)` otherwise. `isError` says whether
      the error value is an instance of `Error`; a `catch` block that
      receives it shows its message only then. */
  datatype Result<+T> = Ok(value: T) | Err(message: string, isError: bool)

  /** The `{ error }` of a database write that returns no data. */
  datatype Outcome = Pass | Fail(message: string, isError: bool)

  /** The text a `catch` block shows for a thrown value:
      `e instanceof Error ? e.message : fallback`. */
  function CaughtText(message: string, isError: bool, fallback: string): (r: string)
    ensures isError ==> r == message
    ensures !isError ==> r == fallback
  {
    if isError then message else fallback
  }

  /** What a loading page ends with: its data, or the text of its error
      banner. */
  datatype Loaded<+T> = Ready(data: T) | Banner(text: string)

  /** A statistics read: the rows, an empty list when the data is `null`,
      or a banner with the read's message. The read's error is re-thrown
      as `new Error(message)`, so the message is shown whatever kind of
      value the error was, and the page's fallback text never is. */
  function RowsOrEmpty<T>(resp: Result<Option<seq<T>>>): (r: Loaded<seq<T>>)
    ensures r.Banner? <==> resp.Err?
    ensures resp.Err? ==> r.text == resp.message
    ensures resp.Ok? ==> r.data == resp.value.GetOr([])
  {
    match resp
    case Err(m, _) => Banner(m)
    case Ok(data) => Ready(data.GetOr([]))
  }

  /** A nullable text shown with `v || fallback`: the fallback replaces a
      missing or empty value. */
  function OrElse(v: Option<string>, fallback: string): (r: string)
    ensures v.Some? && v.value != "" ==> r == v.value
    ensures v.None? || v.value == "" ==> r == fallback
  {
    if v.Some? && v.value != "" then v.value else fallback
  }
}

=== FILE: orders_detail_stats.dfy ===
/** The per-order statistics page: the search box, the CSV export, the
    summary figures and the expandable cards. The statistics rows come
    from a stored database procedure and are a parameter, as is the
    date formatter. */
module OrdersDetailStats {
  import opened Optional
  import opened Text
  import opened Lists
  import Csv

  datatype ActivityDetail = ActivityDetail(activity: string, qty: int)

  datatype OrderDetailStats = OrderDetailStats(
    orderId: string,
    orderCode: string,
    fullName: string,
    unitName: Option<string>,
    title: Option<string>,
    memberActivities: Option<seq<ActivityDetail>>,
    nonMemberActivities: Option<seq<ActivityDetail>>,
    totalMemberQty: int,
    totalNonMemberQty: int,
    totalQty: int,
    createdAt: string)

  /** `fetchStatistics`: the rows, an empty list for `null`, or the
      error. */
  function FetchStatistics(resp: Result<Option<seq<OrderDetailStats>>>): Loaded<seq<OrderDetailStats>> {
    RowsOrEmpty(resp)
  }

  // ---------------------------------------------------------------------
  // Search
  // ---------------------------------------------------------------------

  /** The search test: the lower-cased term occurs in the order code, the
      registrant's name or the unit name (an absent unit reads as ""). */
  predicate MatchesTerm(item: OrderDetailStats, term: string) {
    || Contains(Lower(item.orderCode), Lower(term))
    || Contains(Lower(item.fullName), Lower(term))
    || Contains(Lower(item.unitName.GetOr("")), Lower(term))
  }

  function Search(stats: seq<OrderDetailStats>, term: string): (r: seq<OrderDetailStats>)
    ensures |r| <= |stats|
    ensures forall k :: 0 <= k < |r| ==> r[k] in stats && MatchesTerm(r[k], term)
    ensures forall k :: 0 <= k < |stats| && MatchesTerm(stats[k], term) ==> stats[k] in r
  {
    Filter(stats, item => MatchesTerm(item, term))
  }

  lemma EmptyTermShowsAll(stats: seq<OrderDetailStats>)
    ensures Search(stats, "") == stats
  {
    forall k | 0 <= k < |stats|
      ensures MatchesTerm(stats[k], "")
    {
      ContainsEmpty(Lower(stats[k].orderCode));
    }
    FilterKeepsAll(stats, item => MatchesTerm(item, ""));
  }

  /** An absent unit name is searched as the empty text: it matches only
      the empty term. */
  lemma AbsentUnitMatchesOnlyEmpty(item: OrderDetailStats, term: string)
    requires item.unitName.None?
    ensures Contains(Lower(item.unitName.GetOr("")), Lower(term)) <==> term == ""
  {
    if term == "" {
      ContainsEmpty("");
    }
  }

  /** The message shown when nothing is listed: different for a search
      that found nothing and for an empty table. */
  function EmptyMessage(term: string): (r: string)
    ensures r == "Không tìm thấy kết quả" <==> term != ""
    ensures r == "Chưa có dữ liệu thống kê" <==> term == ""
  {
    if term != "" then "Không tìm thấy kết quả" else "Chưa có dữ liệu thống kê"
  }

  // ---------------------------------------------------------------------
  // CSV
  // ---------------------------------------------------------------------

  const Header: seq<string> := [
    "Mã đơn", "Người đăng ký", "Chapter", "Chức vụ",
    "Hoạt động (Thành viên)", "Số lượng (Thành viên)",
    "Hoạt động (Khách mời)", "Số lượng (Khách mời)",
    "Tổng tham gia", "Ngày đăng ký"]

  /** One activity entry: `activity (qty)`. */
  function DetailText(d: ActivityDetail): (r: string)
    ensures |r| >= |d.activity| + 4 && r[|r| - 1] == ')'
  {
    d.activity + " (" + IntToString(d.qty) + ")"
  }

  /** An entry reads back: the activity name first, then the quantity
      between " (" and the closing parenthesis. */
  lemma DetailTextParts(d: ActivityDetail)
    ensures var r := DetailText(d);
      && r[..|d.activity|] == d.activity
      && r[|d.activity|..|d.activity| + 2] == " ("
      && ParseInt(r[|d.activity| + 2..|r| - 1]) == d.qty
  {
    var r, n := DetailText(d), |d.activity|;
    var q := IntToString(d.qty);
    assert r == d.activity + " (" + q + ")";
    assert r[..n] == d.activity;
    assert r[n..n + 2] == " (";
    assert r[n + 2..|r| - 1] == q;
    IntToStringRoundTrip(d.qty);
  }

  /** `ds.map(DetailText)`: each entry's text, in order. */
  function DetailTexts(ds: seq<ActivityDetail>): (t: seq<string>)
    ensures |t| == |ds|
    ensures forall k :: 0 <= k < |ds| ==> t[k] == DetailText(ds[k])
  {
    seq(|ds|, k requires 0 <= k < |ds| => DetailText(ds[k]))
  }

  /** `ds.map(DetailText).join("; ")`: the entries' texts separated by
      "; ", empty for no entries. */
  function JoinedDetails(ds: seq<ActivityDetail>): (r: string)
    ensures |r| == 0 <==> |ds| == 0
    ensures |ds| > 0 ==> |r| >= 4
    decreases |ds|
  {
    if |ds| == 0 then ""
    else if |ds| == 1 then DetailText(ds[0])
    else DetailText(ds[0]) + "; " + JoinedDetails(ds[1..])
  }

  /** The cell is the entries' texts, in order, joined with "; ". */
  lemma {:induction false} JoinedDetailsIsJoin(ds: seq<ActivityDetail>)
    ensures JoinedDetails(ds) == Join(DetailTexts(ds), "; ")
    decreases |ds|
  {
    if |ds| > 1 {
      assert DetailTexts(ds)[1..] == DetailTexts(ds[1..]);
      JoinedDetailsIsJoin(ds[1..]);
    }
  }

  /** The pieces a joined cell falls into when split on ';': the first
      entry's text, then every later entry's text after the space that
      follows each ';'. */
  function SplitPieces(ds: seq<ActivityDetail>): (p: seq<string>)
    requires |ds| >= 1
    ensures |p| == |ds| && p[0] == DetailText(ds[0])
    ensures forall k :: 1 <= k < |ds| ==> p[k] == " " + DetailText(ds[k])
  {
    seq(|ds|, k requires 0 <= k < |ds| => if k == 0 then DetailText(ds[0]) else " " + DetailText(ds[k]))
  }

  /** Putting text in front of the first piece of a join puts it in front
      of the join. */
  lemma JoinPrefixFirst(pre: string, xs: seq<string>, sep: string)
    requires |xs| >= 1
    ensures Join([pre + xs[0]] + xs[1..], sep) == pre + Join(xs, sep)
  {
    var ys := [pre + xs[0]] + xs[1..];
    assert ys[0] == pre + xs[0];
    if |xs| > 1 {
      assert ys[1..] == xs[1..];
    }
  }

  /** Past the first, the pieces of a cell are the pieces of the cell
      without its first entry, the first of those gaining the space. */
  lemma SplitPiecesTail(ds: seq<ActivityDetail>)
    requires |ds| > 1
    ensures SplitPieces(ds)[1..] == [" " + SplitPieces(ds[1..])[0]] + SplitPieces(ds[1..])[1..]
  {
    var p, q := SplitPieces(ds), SplitPieces(ds[1..]);
    var t := [" " + q[0]] + q[1..];
    assert |p[1..]| == |t|;
    forall k | 0 <= k < |t| ensures p[1..][k] == t[k] {
      if k > 0 {
        assert t[k] == q[k] == " " + DetailText(ds[1..][k]);
      }
    }
  }

  /** A cell with several entries is the join of its split pieces on ';'. */
  lemma {:induction false} JoinedDetailsAsPieces(ds: seq<ActivityDetail>)
    requires |ds| >= 1
    ensures JoinedDetails(ds) == Join(SplitPieces(ds), ";")
    decreases |ds|
  {
    if |ds| > 1 {
      var p, q := SplitPieces(ds), SplitPieces(ds[1..]);
      var head, rest := DetailText(ds[0]), JoinedDetails(ds[1..]);
      assert Join(p[1..], ";") == " " + rest by {
        JoinedDetailsAsPieces(ds[1..]);
        SplitPiecesTail(ds);
        JoinPrefixFirst(" ", q, ";");
      }
      assert Join(p, ";") == head + ";" + Join(p[1..], ";") by {
        assert p[0] == head;
      }
      assert JoinedDetails(ds) == head + "; " + rest;
    }
  }

  /** An entry's text holds no ';' when its activity name holds none. */
  lemma NoSemicolonInDetail(d: ActivityDetail)
    requires ';' !in d.activity
    ensures ';' !in DetailText(d)
  {
    var q := IntToString(d.qty);
    assert ';' !in q by {
      forall k | 0 <= k < |q| ensures q[k] != ';' {
        assert q[k] == '-' || IsDigit(q[k]);
      }
    }
    assert DetailText(d) == d.activity + " (" + q + ")";
  }

  /** With no ';' in any activity name, splitting a cell on ';' reads the
      entries back in order: the first as is, each later one after the
      space of its "; " separator. */
  lemma JoinedDetailsSplit(ds: seq<ActivityDetail>)
    requires |ds| >= 1
    requires forall k :: 0 <= k < |ds| ==> ';' !in ds[k].activity
    ensures var pieces := Split(JoinedDetails(ds), ';');
      && |pieces| == |ds|
      && pieces[0] == DetailText(ds[0])
      && forall k :: 1 <= k < |ds| ==> pieces[k] == " " + DetailText(ds[k])
  {
    var p := SplitPieces(ds);
    forall k | 0 <= k < |p| ensures ';' !in p[k] {
      NoSemicolonInDetail(ds[k]);
    }
    JoinedDetailsAsPieces(ds);
    SplitJoin(p, ';');
  }

  /** An activity cell, `joined || '-'`: the joined entries, or "-" when
      the join is empty, which happens exactly when there are no entries.
      A listed entry makes the cell at least four characters long, so it
      is never the dash. */
  function ActivityCell(list: Option<seq<ActivityDetail>>): (r: string)
    ensures list.None? || |list.value| == 0 ==> r == "-"
    ensures list.Some? && |list.value| > 0 ==> |r| >= 4 && r == JoinedDetails(list.value)
  {
    if list.None? || |list.value| == 0 then "-" else JoinedDetails(list.value)
  }

  /** The ten cells of one order; the date rendering is a parameter. */
  function Row(item: OrderDetailStats, formatDate: string -> string): (r: seq<string>)
    ensures |r| == 10
    ensures r[0] == item.orderCode && r[1] == item.fullName
  {
    [ item.orderCode,
      item.fullName,
      OrElse(item.unitName, "Không có"),
      OrElse(item.title, "Không có"),
      ActivityCell(item.memberActivities),
      IntToString(item.totalMemberQty),
      ActivityCell(item.nonMemberActivities),
      IntToString(item.totalNonMemberQty),
      IntToString(item.totalQty),
      formatDate(item.createdAt) ]
  }

  /** A missing or empty unit or title is written as "Không có"; the date
      cell is the formatted creation time. */
  lemma RowFallbacks(item: OrderDetailStats, formatDate: string -> string)
    ensures var r := Row(item, formatDate);
      && (item.unitName.None? || item.unitName.value == "" ==> r[2] == "Không có")
      && (item.unitName.Some? && item.unitName.value != "" ==> r[2] == item.unitName.value)
      && (item.title.None? || item.title.value == "" ==> r[3] == "Không có")
      && (item.title.Some? && item.title.value != "" ==> r[3] == item.title.value)
      && r[9] == formatDate(item.createdAt)
  {
    var r := Row(item, formatDate);
    assert r[2] == OrElse(item.unitName, "Không có");
    assert r[3] == OrElse(item.title, "Không có");
  }

  /** The activity cells are "-" exactly when their list is null or empty. */
  lemma RowActivityCells(item: OrderDetailStats, formatDate: string -> string)
    ensures var r := Row(item, formatDate);
      && (r[4] == "-" <==> item.memberActivities.None? || |item.memberActivities.value| == 0)
      && (r[6] == "-" <==> item.nonMemberActivities.None? || |item.nonMemberActivities.value| == 0)
  {
    var r := Row(item, formatDate);
    var m, g := item.memberActivities, item.nonMemberActivities;
    assert r[4] == "-" <==> m.None? || |m.value| == 0 by {
      assert r[4] == ActivityCell(m);
    }
    assert r[6] == "-" <==> g.None? || |g.value| == 0 by {
      assert r[6] == ActivityCell(g);
    }
  }

  /** A listed activity cell is its entries' `activity (qty)` texts joined
      with "; ", for members (column 5) and guests (column 7) alike. */
  lemma RowActivityTexts(item: OrderDetailStats, formatDate: string -> string)
    ensures var r := Row(item, formatDate);
      && (item.memberActivities.Some? && |item.memberActivities.value| > 0 ==>
            r[4] == Join(DetailTexts(item.memberActivities.value), "; "))
      && (item.nonMemberActivities.Some? && |item.nonMemberActivities.value| > 0 ==>
            r[6] == Join(DetailTexts(item.nonMemberActivities.value), "; "))
  {
    var r := Row(item, formatDate);
    var m, g := item.memberActivities, item.nonMemberActivities;
    if m.Some? && |m.value| > 0 {
      assert r[4] == JoinedDetails(m.value) by {
        assert r[4] == ActivityCell(m);
      }
      JoinedDetailsIsJoin(m.value);
    }
    if g.Some? && |g.value| > 0 {
      assert r[6] == JoinedDetails(g.value) by {
        assert r[6] == ActivityCell(g);
      }
      JoinedDetailsIsJoin(g.value);
    }
  }

  /** The three quantity cells read back as the quantities. */
  lemma RowNumbers(item: OrderDetailStats, formatDate: string -> string)
    ensures var r := Row(item, formatDate);
      && ParseInt(r[5]) == item.totalMemberQty
      && ParseInt(r[7]) == item.totalNonMemberQty
      && ParseInt(r[8]) == item.totalQty
  {
    IntToStringRoundTrip(item.totalMemberQty);
    IntToStringRoundTrip(item.totalNonMemberQty);
    IntToStringRoundTrip(item.totalQty);
  }

  /** A row whose texts hold no line break holds none in any cell. */
  lemma RowOneLine(item: OrderDetailStats, formatDate: string -> string)
    requires RowTextsOneLine(item, formatDate)
    ensures forall c :: 0 <= c < |Row(item, formatDate)| ==> OneLine(Row(item, formatDate)[c])
  {
    var r := Row(item, formatDate);
    NumberOneLine(item.totalMemberQty);
    NumberOneLine(item.totalNonMemberQty);
    NumberOneLine(item.totalQty);
    assert OneLine(r[0]) && OneLine(r[1]) && OneLine(r[2]) && OneLine(r[3]) && OneLine(r[4]);
    assert OneLine(r[5]) && OneLine(r[6]) && OneLine(r[7]) && OneLine(r[8]) && OneLine(r[9]);
    forall c | 0 <= c < |r| ensures OneLine(r[c]) {
      if c < 5 {
        assert c == 0 || c == 1 || c == 2 || c == 3 || c == 4;
      } else {
        assert c == 5 || c == 6 || c == 7 || c == 8 || c == 9;
      }
    }
  }

  /** One row per statistics row, in order. */
  function Body(stats: seq<OrderDetailStats>, formatDate: string -> string): (b: seq<seq<string>>)
    ensures |b| == |stats|
    ensures forall k :: 0 <= k < |stats| ==> b[k] == Row(stats[k], formatDate)
  {
    seq(|stats|, k requires 0 <= k < |stats| => Row(stats[k], formatDate))
  }

  function Rows(stats: seq<OrderDetailStats>, formatDate: string -> string): (r: seq<seq<string>>)
    ensures |r| == |stats| + 1 && r[0] == Header
    ensures forall k :: 0 <= k < |stats| ==> r[k + 1] == Row(stats[k], formatDate)
  {
    ConsParts(Header, Body(stats, formatDate));
    [Header] + Body(stats, formatDate)
  }

  /** `exportToCSV`: the header then one row per statistics row. The
      search term is not an input: the export covers every row. */
  function ExportCsv(stats: seq<OrderDetailStats>, formatDate: string -> string): (r: string)
    ensures IsPrefix(Csv.Line(Header), r)
  {
    Csv.Document(Rows(stats, formatDate))
  }

  /** Whether a text is free of line breaks. */
  predicate OneLine(s: string) {
    '\n' !in s
  }

  /** Line breaks can only come from the texts of the row, not from the
      numbers or the fixed words. */
  predicate RowTextsOneLine(item: OrderDetailStats, formatDate: string -> string) {
    && OneLine(item.orderCode) && OneLine(item.fullName)
    && OneLine(OrElse(item.unitName, "Không có")) && OneLine(OrElse(item.title, "Không có"))
    && OneLine(ActivityCell(item.memberActivities)) && OneLine(ActivityCell(item.nonMemberActivities))
    && OneLine(formatDate(item.createdAt))
  }

  lemma NumberOneLine(i: int)
    ensures OneLine(IntToString(i))
  {
  }

  /** The header holds no line break. */
  lemma HeaderOneLine()
    ensures forall c :: 0 <= c < |Header| ==> OneLine(Header[c])
  {
    var h := Header;
    forall c | 0 <= c < |h| ensures OneLine(h[c]) {
      if c < 5 {
        assert c == 0 || c == 1 || c == 2 || c == 3 || c == 4;
      } else {
        assert c == 5 || c == 6 || c == 7 || c == 8 || c == 9;
      }
    }
  }

  /** Line r of the export holds no line break in any cell. */
  lemma RowOfRowsOneLine(stats: seq<OrderDetailStats>, formatDate: string -> string, r: nat)
    requires forall k :: 0 <= k < |stats| ==> RowTextsOneLine(stats[k], formatDate)
    requires r < |stats| + 1
    ensures forall c :: 0 <= c < |Rows(stats, formatDate)[r]| ==> '\n' !in Rows(stats, formatDate)[r][c]
  {
    if r == 0 {
      HeaderOneLine();
    } else {
      var k := r - 1;
      assert Rows(stats, formatDate)[k + 1] == Row(stats[k], formatDate);
      RowOneLine(stats[k], formatDate);
    }
  }

  /** No cell of the export holds a line break when no text does. */
  lemma RowsOneLine(stats: seq<OrderDetailStats>, formatDate: string -> string)
    requires forall k :: 0 <= k < |stats| ==> RowTextsOneLine(stats[k], formatDate)
    ensures Csv.NoCharInCells('\n', Rows(stats, formatDate))
  {
    forall r | 0 <= r < |Rows(stats, formatDate)|
      ensures forall c :: 0 <= c < |Rows(stats, formatDate)[r]| ==> '\n' !in Rows(stats, formatDate)[r][c]
    {
      RowOfRowsOneLine(stats, formatDate, r);
    }
  }

  /** With no line break in any text, the export has one line per
      statistics row plus the header, and line k + 1 is row k. */
  lemma ExportShape(stats: seq<OrderDetailStats>, formatDate: string -> string)
    requires forall k :: 0 <= k < |stats| ==> RowTextsOneLine(stats[k], formatDate)
    ensures |Split(ExportCsv(stats, formatDate), '\n')| == |stats| + 1
    ensures Split(ExportCsv(stats, formatDate), '\n')[0] == Csv.Line(Header)
    ensures forall k :: 0 <= k < |stats| ==>
      Split(ExportCsv(stats, formatDate), '\n')[k + 1] == Csv.Line(Row(stats[k], formatDate))
  {
    RowsOneLine(stats, formatDate);
    Csv.LinesOfDocument(Rows(stats, formatDate));
  }

  // ---------------------------------------------------------------------
  // Summary and cards
  // ---------------------------------------------------------------------

  function MemberQty(s: OrderDetailStats): int { s.totalMemberQty }
  function NonMemberQty(s: OrderDetailStats): int { s.totalNonMemberQty }
  function AllQty(s: OrderDetailStats): int { s.totalQty }

  datatype Summary = Summary(orders: nat, members: int, nonMembers: int, all: int)

  /** The four summary cards, over every row whatever the search. */
  function Summarise(stats: seq<OrderDetailStats>): (r: Summary)
    ensures r.orders == |stats|
    ensures stats == [] ==> r == Summary(0, 0, 0, 0)
    ensures r.members == SumOf(stats, MemberQty) && r.nonMembers == SumOf(stats, NonMemberQty)
    ensures r.all == SumOf(stats, AllQty)
  {
    Summary(|stats|, SumOf(stats, MemberQty), SumOf(stats, NonMemberQty), SumOf(stats, AllQty))
  }

  /** When every order's total is its member plus its guest count, so is
      the grand total. */
  lemma SummaryAddsUp(stats: seq<OrderDetailStats>)
    requires forall k :: 0 <= k < |stats| ==> stats[k].totalQty == stats[k].totalMemberQty + stats[k].totalNonMemberQty
    ensures Summarise(stats).all == Summarise(stats).members + Summarise(stats).nonMembers
  {
    SumOfPointwise(stats, MemberQty, NonMemberQty, AllQty);
  }

  /** Appending rows adds their figures. */
  lemma SummaryAppend(a: seq<OrderDetailStats>, b: seq<OrderDetailStats>)
    ensures Summarise(a + b).members == Summarise(a).members + Summarise(b).members
    ensures Summarise(a + b).nonMembers == Summarise(a).nonMembers + Summarise(b).nonMembers
    ensures Summarise(a + b).all == Summarise(a).all + Summarise(b).all
  {
    SumOfAppend(a, b, MemberQty);
    SumOfAppend(a, b, NonMemberQty);
    SumOfAppend(a, b, AllQty);
  }

  /** A click on a card: the expanded card collapses, any other card
      becomes the one expanded. */
  function Toggle(expanded: Option<string>, clicked: string): (r: Option<string>)
    ensures expanded == Some(clicked) ==> r.None?
    ensures expanded != Some(clicked) ==> r == Some(clicked)
  {
    if expanded == Some(clicked) then None else Some(clicked)
  }

  /** Two clicks on the same card restore a collapsed page, and leave
      that card collapsed when another was expanded. */
  lemma ToggleTwice(expanded: Option<string>, clicked: string)
    ensures expanded.None? || expanded == Some(clicked) ==> Toggle(Toggle(expanded, clicked), clicked) == expanded
    ensures expanded.Some? && expanded != Some(clicked) ==> Toggle(Toggle(expanded, clicked), clicked).None?
  {
  }

  /** The texts of a card's header: the unit and title fall back to a
      dash. */
  function CardTexts(item: OrderDetailStats): (r: (string, string))
    ensures r.0 == OrElse(item.unitName, "—") && r.1 == OrElse(item.title, "—")
  {
    (OrElse(item.unitName, "—"), OrElse(item.title, "—"))
  }
}

=== FILE: participants.dfy ===
/** The participants page of one activity: which registrants are listed,
    with which contact details and unit. The five database reads are
    parameters, taken in the order the page makes them. */
module Participants {
  import opened Optional
  import opened Lists

  /** The columns of a registration as read; `id` is absent when the
      value has no such key. */
  datatype RegFields = RegFields(
    id: Option<string>,
    fullName: Option<string>,
    phoneNumber: Option<string>,
    email: Option<string>)

  /** An element of an order's embedded registrations: an object, or a
      value that is not one (such as `null` inside an array). */
  datatype RegValue = Record(fields: RegFields) | NotRecord

  datatype Participant = Participant(
    id: string,
    fullName: string,
    phoneNumber: string,
    email: Option<string>,
    unitName: Option<string>)

  /** `x || null` on a nullable text. */
  function NullIfBlank(v: Option<string>): (r: Option<string>)
    ensures r.Some? <==> v.Some? && v.value != ""
    ensures r.Some? ==> r == v
  {
    if v.Some? && v.value != "" then v else None
  }

  predicate Listable(v: RegValue) {
    v.Record? && v.fields.id.Some?
  }

  /** The participant of a registration object: missing name and phone
      become "", a missing or empty e-mail becomes null, and the unit is
      not known yet. */
  function ToParticipant(f: RegFields): (p: Participant)
    requires f.id.Some?
    ensures p.id == f.id.value
    ensures p.fullName == OrElse(f.fullName, "") && p.phoneNumber == OrElse(f.phoneNumber, "")
    ensures p.email == NullIfBlank(f.email)
    ensures p.unitName.None?
  {
    Participant(f.id.value, OrElse(f.fullName, ""), OrElse(f.phoneNumber, ""), NullIfBlank(f.email), None)
  }

  /** The participants of one order's registrations: only objects that
      have an id, in order. */
  function FromRegistrations(regs: seq<RegValue>): (r: seq<Participant>)
    ensures |r| <= |regs|
    ensures forall k :: 0 <= k < |regs| && Listable(regs[k]) ==> ToParticipant(regs[k].fields) in r
    ensures forall k :: 0 <= k < |r| ==> exists j :: 0 <= j < |regs| && Listable(regs[j]) && r[k] == ToParticipant(regs[j].fields)
    decreases |regs|
  {
    if |regs| == 0 then []
    else
      var rest := FromRegistrations(regs[1..]);
      assert forall k :: 0 <= k < |regs| - 1 ==> regs[1..][k] == regs[k + 1];
      if Listable(regs[0]) then [ToParticipant(regs[0].fields)] + rest else rest
  }

  /** No registration object with an id means nobody is listed. */
  lemma {:induction false} NoIdNoParticipant(regs: seq<RegValue>)
    requires forall k :: 0 <= k < |regs| ==> !Listable(regs[k])
    ensures FromRegistrations(regs) == []
    decreases |regs|
  {
    if |regs| > 0 {
      NoIdNoParticipant(regs[1..]);
    }
  }

  /** Every listable registration of every order is in `r`. */
  predicate ListsAll(orders: seq<Joined<RegValue>>, r: seq<Participant>) {
    forall j, k :: 0 <= j < |orders| && 0 <= k < |AllOf(orders[j])| && Listable(AllOf(orders[j])[k]) ==>
      ToParticipant(AllOf(orders[j])[k].fields) in r
  }

  /** Participant i of `r` comes from a listable registration of some
      order. */
  predicate ComesFromOrders(orders: seq<Joined<RegValue>>, r: seq<Participant>, i: int)
    requires 0 <= i < |r|
  {
    exists j, k :: 0 <= j < |orders| && 0 <= k < |AllOf(orders[j])|
      && Listable(AllOf(orders[j])[k]) && r[i] == ToParticipant(AllOf(orders[j])[k].fields)
  }

  /** Every participant of `r` comes from the orders. */
  predicate ListsOnly(orders: seq<Joined<RegValue>>, r: seq<Participant>) {
    forall i :: 0 <= i < |r| ==> ComesFromOrders(orders, r, i)
  }

  /** Every order's participants, order by order: each listable
      registration of each order is listed, and nothing else is. */
  function Collect(orders: seq<Joined<RegValue>>): (r: seq<Participant>)
    ensures ListsAll(orders, r) && ListsOnly(orders, r)
    decreases |orders|
  {
    if |orders| == 0 then []
    else
      var here, rest := FromRegistrations(AllOf(orders[0])), Collect(orders[1..]);
      ConsListsAll(orders, here, rest);
      ConsListsOnly(orders, here, rest);
      here + rest
  }

  /** The first order's participants followed by a list covering the
      other orders cover them all. */
  lemma ConsListsAll(orders: seq<Joined<RegValue>>, here: seq<Participant>, rest: seq<Participant>)
    requires |orders| > 0 && here == FromRegistrations(AllOf(orders[0]))
    requires ListsAll(orders[1..], rest)
    ensures ListsAll(orders, here + rest)
  {
    forall j, k | 0 <= j < |orders| && 0 <= k < |AllOf(orders[j])| && Listable(AllOf(orders[j])[k])
      ensures ToParticipant(AllOf(orders[j])[k].fields) in here + rest
    {
      if j > 0 {
        assert orders[j] == orders[1..][j - 1];
      }
    }
  }

  /** A participant of the first order's own list comes from the orders. */
  lemma HeadComesFromOrders(orders: seq<Joined<RegValue>>, here: seq<Participant>, rest: seq<Participant>, i: int)
    requires |orders| > 0 && here == FromRegistrations(AllOf(orders[0]))
    requires 0 <= i < |here|
    ensures ComesFromOrders(orders, here + rest, i)
  {
    var regs := AllOf(orders[0]);
    var p := FromRegistrations(regs);
    assert exists k :: 0 <= k < |regs| && Listable(regs[k]) && p[i] == ToParticipant(regs[k].fields);
    var k :| 0 <= k < |regs| && Listable(regs[k]) && p[i] == ToParticipant(regs[k].fields);
    assert (here + rest)[i] == p[i];
  }

  /** A participant drawn from the other orders comes from the orders. */
  lemma TailComesFromOrders(orders: seq<Joined<RegValue>>, here: seq<Participant>, rest: seq<Participant>, i: int)
    requires |orders| > 0 && ListsOnly(orders[1..], rest)
    requires |here| <= i < |here| + |rest|
    ensures ComesFromOrders(orders, here + rest, i)
  {
    var t := i - |here|;
    assert ComesFromOrders(orders[1..], rest, t);
    var j, k :| 0 <= j < |orders[1..]| && 0 <= k < |AllOf(orders[1..][j])|
      && Listable(AllOf(orders[1..][j])[k]) && rest[t] == ToParticipant(AllOf(orders[1..][j])[k].fields);
    assert orders[1..][j] == orders[j + 1];
    assert (here + rest)[i] == rest[t];
  }

  /** The first order's participants followed by a list drawn from the
      other orders are all drawn from the orders. */
  lemma ConsListsOnly(orders: seq<Joined<RegValue>>, here: seq<Participant>, rest: seq<Participant>)
    requires |orders| > 0 && here == FromRegistrations(AllOf(orders[0]))
    requires ListsOnly(orders[1..], rest)
    ensures ListsOnly(orders, here + rest)
  {
    forall i | 0 <= i < |here + rest| ensures ComesFromOrders(orders, here + rest, i) {
      if i < |here| {
        HeadComesFromOrders(orders, here, rest, i);
      } else {
        TailComesFromOrders(orders, here, rest, i);
      }
    }
  }

  lemma {:induction false} CollectAppend(a: seq<Joined<RegValue>>, b: seq<Joined<RegValue>>)
    ensures Collect(a + b) == Collect(a) + Collect(b)
    decreases |a|
  {
    if |a| == 0 {
      assert a + b == b;
    } else {
      assert (a + b)[1..] == a[1..] + b;
      CollectAppend(a[1..], b);
    }
  }

  /** An order's registrations as a single object contribute exactly that
      registrant; a missing one contributes nobody. */
  lemma SingleRegistration(f: RegFields)
    requires f.id.Some?
    ensures Collect([One(Record(f))]) == [ToParticipant(f)]
    ensures Collect([Missing]) == []
  {
    assert [One(Record(f))][1..] == [];
    assert FromRegistrations([Record(f)]) == [ToParticipant(f)] by {
      assert [Record(f)][1..] == [];
    }
  }

  // ---------------------------------------------------------------------
  // Units
  // ---------------------------------------------------------------------

  /** An element of a registration's embedded unit. */
  datatype UnitValue = UnitRecord(name: Option<string>) | NotUnit

  /** The unit name of a registration: the first element's name for an
      array, the object's name for an object, and null when that name is
      missing or empty or there is no unit. */
  function UnitNameOf(unit: Joined<UnitValue>): (r: Option<string>)
    ensures unit.Many? && |unit.items| > 0 && unit.items[0].UnitRecord? ==> r == NullIfBlank(unit.items[0].name)
    ensures unit.One? && unit.item.UnitRecord? ==> r == NullIfBlank(unit.item.name)
    ensures unit.Missing? || (unit.Many? && |unit.items| == 0) ==> r.None?
    ensures r.Some? ==> r.value != ""
  {
    match unit
    case Missing => None
    case One(u) => if u.UnitRecord? then NullIfBlank(u.name) else None
    case Many(us) => if |us| > 0 && us[0].UnitRecord? then NullIfBlank(us[0].name) else None
  }

  /** A row of the unit read: a registration id and its unit. */
  datatype UnitRow = UnitRow(id: string, unit: Joined<UnitValue>)

  /** The unit map: one entry per registration id, a later row for the
      same id overwriting an earlier one. */
  function UnitMap(rows: seq<UnitRow>): (m: map<string, Option<string>>)
    ensures m.Keys == set k | 0 <= k < |rows| :: rows[k].id
    decreases |rows|
  {
    if |rows| == 0 then map[]
    else
      var last := rows[|rows| - 1];
      var init := rows[..|rows| - 1];
      var m := UnitMap(init);
      assert forall k :: 0 <= k < |init| ==> init[k] == rows[k];
      m[last.id := UnitNameOf(last.unit)]
  }

  /** The entry of an id is the unit of the last row with that id. */
  lemma {:induction false} LastRowWins(rows: seq<UnitRow>, k: int)
    requires 0 <= k < |rows|
    requires forall j :: k < j < |rows| ==> rows[j].id != rows[k].id
    ensures UnitMap(rows)[rows[k].id] == UnitNameOf(rows[k].unit)
    decreases |rows|
  {
    if k < |rows| - 1 {
      var init := rows[..|rows| - 1];
      assert init[k] == rows[k];
      LastRowWins(init, k);
    }
  }

  /** The loop the page runs builds the same map. */
  method BuildUnitMap(rows: seq<UnitRow>) returns (m: map<string, Option<string>>)
    ensures m == UnitMap(rows)
  {
    m := map[];
    var i := 0;
    while i < |rows|
      invariant 0 <= i <= |rows|
      invariant m == UnitMap(rows[..i])
    {
      assert rows[..i + 1][..i] == rows[..i];
      m := m[rows[i].id := UnitNameOf(rows[i].unit)];
      i := i + 1;
    }
    assert rows[..i] == rows;
  }

  /** `unitMap[p.id] || null`. */
  function UnitFor(m: map<string, Option<string>>, id: string): (r: Option<string>)
    ensures id !in m ==> r.None?
    ensures id in m ==> r == NullIfBlank(m[id])
  {
    if id in m then NullIfBlank(m[id]) else None
  }

  /** Every participant gets its unit from the map; nothing else
      changes. */
  function AttachUnits(ps: seq<Participant>, m: map<string, Option<string>>): (r: seq<Participant>)
    ensures |r| == |ps|
    ensures forall k :: 0 <= k < |ps| ==> r[k] == ps[k].(unitName := UnitFor(m, ps[k].id))
  {
    seq(|ps|, k requires 0 <= k < |ps| => ps[k].(unitName := UnitFor(m, ps[k].id)))
  }

  // ---------------------------------------------------------------------
  // The load
  // ---------------------------------------------------------------------

  const DefaultTitle: string := "Hoạt động"

  /** The banner when a read fails with a value that is not an `Error`. */
  const LoadFailed: string := "Lỗi khi tải dữ liệu"

  /** What the page shows: nothing loaded without an activity id, the
      list, or an error (with an empty list). */
  datatype PageState =
    | NotLoaded
    | Loaded(title: string, participants: seq<Participant>)
    | Failed(title: string, message: string)

  /** `load`: the title (kept at its default if the read fails), the
      primary attendees' order ids, their orders' registrations, then
      the registrations' units. A failed unit read leaves units empty;
      the failure of either of the two middle reads is the page's error. */
  function Load(
    activityId: Option<string>,
    title: Result<string>,
    attendeeOrders: Result<Option<seq<string>>>,
    orders: Result<Option<seq<Joined<RegValue>>>>,
    units: Result<Option<seq<UnitRow>>>): (r: PageState)
    ensures r.NotLoaded? <==> activityId.None? || activityId.value == ""
    ensures !r.NotLoaded? ==> r.title == (if title.Ok? then title.value else DefaultTitle)
    ensures !r.NotLoaded? && attendeeOrders.Err? ==>
      r.Failed? && r.message == CaughtText(attendeeOrders.message, attendeeOrders.isError, LoadFailed)
    ensures !r.NotLoaded? && attendeeOrders.Ok? && |attendeeOrders.value.GetOr([])| == 0 ==> r.Loaded? && r.participants == []
    ensures !r.NotLoaded? && attendeeOrders.Ok? && |attendeeOrders.value.GetOr([])| > 0 && orders.Err? ==>
      r.Failed? && r.message == CaughtText(orders.message, orders.isError, LoadFailed)
    ensures !r.NotLoaded? && attendeeOrders.Ok? && |attendeeOrders.value.GetOr([])| > 0 && orders.Ok? ==>
      var ps := Collect(orders.value.GetOr([]));
      && r.Loaded? && |r.participants| == |ps|
      && (units.Ok? && units.value.Some? ==>
            forall k :: 0 <= k < |ps| ==> r.participants[k] == ps[k].(unitName := UnitFor(UnitMap(units.value.value), ps[k].id)))
      && (units.Err? || units.value.None? ==> r.participants == ps)
  {
    if activityId.None? || activityId.value == "" then NotLoaded
    else
      var t := if title.Ok? then title.value else DefaultTitle;
      if attendeeOrders.Err? then Failed(t, CaughtText(attendeeOrders.message, attendeeOrders.isError, LoadFailed))
      else if |attendeeOrders.value.GetOr([])| == 0 then Loaded(t, [])
      else if orders.Err? then Failed(t, CaughtText(orders.message, orders.isError, LoadFailed))
      else
        var ps := Collect(orders.value.GetOr([]));
        if |ps| > 0 && units.Ok? && units.value.Some? then Loaded(t, AttachUnits(ps, UnitMap(units.value.value)))
        else Loaded(t, ps)
  }

  /** The table row of a participant: only a null e-mail or unit falls
      back to a dash; a missing name or phone shows as empty text. */
  function TableRow(p: Participant): (r: seq<string>)
    ensures |r| == 4
    ensures r[0] == p.fullName && r[1] == p.phoneNumber
    ensures r[2] == (if p.email.Some? then p.email.value else "—")
    ensures r[3] == (if p.unitName.Some? then p.unitName.value else "—")
  {
    [p.fullName, p.phoneNumber, p.email.GetOr("—"), p.unitName.GetOr("—")]
  }
}

=== FILE: qr_generator.dfy ===
/** The VietQR quick link: an image URL built from the bank, the account,
    the amount and two URI-encoded texts, returned with the account details
    it was built from.

    `encodeURIComponent` is a parameter `encode`; the only fact used about it
    is that its output never contains '&' (it escapes that character). */
module QrGenerator {
  import opened Text

  datatype PaymentLink = PaymentLink(
    qrUrl: string,
    bankCode: string,
    accountNumber: string,
    accountName: string)

  const ImageBase: string := "https://img.vietqr.io/image/"
  const Template: string := "compact"

  /** The image path: base, bank, '-', account, '-compact.png'. */
  function ImagePath(bankId: string, accountNo: string): string {
    ImageBase + bankId + "-" + accountNo + "-" + Template + ".png"
  }

  /** The three query parameters, in their fixed order. */
  function QueryFields(amount: int, description: string, accountName: string, encode: string -> string): seq<string> {
    ["amount=" + IntToString(amount),
     "addInfo=" + encode(description),
     "accountName=" + encode(accountName)]
  }

  /** The query fields joined with '&' spell out the query string. */
  lemma QueryJoin(amount: int, description: string, accountName: string, encode: string -> string)
    ensures Join(QueryFields(amount, description, accountName, encode), "&")
         == "amount=" + IntToString(amount) + "&addInfo=" + encode(description)
            + "&accountName=" + encode(accountName)
  {
    var a, d, n := IntToString(amount), encode(description), encode(accountName);
    var f := QueryFields(amount, description, accountName, encode);
    assert f[1..][1..] == [f[2]];
    assert Join(f[1..][1..], "&") == f[2];
    assert Join(f[1..], "&") == f[1] + "&" + f[2];
    assert Join(f, "&") == f[0] + ("&" + (f[1] + ("&" + f[2])));
    assert "&" + f[2] == "&accountName=" + n;
    assert "&" + (f[1] + "&accountName=" + n) == "&addInfo=" + d + "&accountName=" + n;
  }

  /** `createPaymentQuickLink`. */
  function CreatePaymentQuickLink(
    bankId: string, accountNo: string, amount: int, description: string,
    accountName: string, encode: string -> string): (r: PaymentLink)
    ensures r.bankCode == bankId
    ensures r.accountNumber == accountNo
    ensures r.accountName == accountName
    ensures IsPrefix(ImageBase, r.qrUrl)
    ensures IsPrefix(ImagePath(bankId, accountNo) + "?", r.qrUrl)
  {
    var url := ImagePath(bankId, accountNo) + "?"
      + Join(QueryFields(amount, description, accountName, encode), "&");
    PaymentLink(url, bankId, accountNo, accountName)
  }

  /** The query string of a link built for this bank and account. */
  function QueryOf(url: string, bankId: string, accountNo: string): string
    requires IsPrefix(ImagePath(bankId, accountNo) + "?", url)
  {
    url[|ImagePath(bankId, accountNo) + "?"|..]
  }

  /** The link's query string splits on '&' into exactly the amount, the
      encoded description and the encoded account name, in that order; and
      the amount reads back as the amount passed in. */
  lemma QuickLinkQueryRoundTrip(
    bankId: string, accountNo: string, amount: int, description: string,
    accountName: string, encode: string -> string)
    requires '&' !in encode(description) && '&' !in encode(accountName)
    ensures var link := CreatePaymentQuickLink(bankId, accountNo, amount, description, accountName, encode);
      var parts := Split(QueryOf(link.qrUrl, bankId, accountNo), '&');
      && parts == ["amount=" + IntToString(amount),
                   "addInfo=" + encode(description),
                   "accountName=" + encode(accountName)]
      && ParseInt(parts[0][|"amount="|..]) == amount
  {
    var link := CreatePaymentQuickLink(bankId, accountNo, amount, description, accountName, encode);
    var fields := QueryFields(amount, description, accountName, encode);
    var a := IntToString(amount);
    assert '&' !in a;
    NoAmpInFields(amount, description, accountName, encode);
    assert QueryOf(link.qrUrl, bankId, accountNo) == Join(fields, "&");
    SplitJoin(fields, '&');
    assert fields[0][|"amount="|..] == a;
    IntToStringRoundTrip(amount);
  }

  lemma NoAmpInFields(amount: int, description: string, accountName: string, encode: string -> string)
    requires '&' !in encode(description) && '&' !in encode(accountName)
    ensures forall k :: 0 <= k < 3 ==> '&' !in QueryFields(amount, description, accountName, encode)[k]
  {
    var a := IntToString(amount);
    assert '&' !in a;
    assert '&' !in "amount=" && '&' !in "addInfo=" && '&' !in "accountName=";
  }
}

=== FILE: storefront.dfy ===
/** The visitor's session as a whole: the events page's selectors and the
    cart, driven by the clicks the events and cart pages offer. It ties the
    pages to the reducer and shows that, while the catalogue's prices stay
    fixed, every reachable cart keeps unique keys, positive quantities and
    totals equal to the live sums. */
module Storefront {
  import opened Types
  import CartReducer
  import EventsPage
  import CartPage

  datatype UiEvent =
    | ClickAdd(activityId: string)
    | SetQuantity(activityId: string, quantity: int)
    | SetPricing(activityId: string, pricingType: PricingType)
    | StepDown(line: nat)
    | StepUp(line: nat)
    | ClickRemove(line: nat)
    | CheckoutSucceeded

  datatype Session = Session(sel: EventsPage.Selectors, cart: CartState)

  /** The session after one click. `catalogue` maps activity ids to the
      activities loaded by the events page. */
  function Step(catalogue: map<string, Activity>, st: Session, e: UiEvent): (r: Session)
    ensures e.SetQuantity? || e.SetPricing? ==> r.cart == st.cart
    ensures !e.SetQuantity? && !e.SetPricing? ==> r.sel == st.sel
    ensures e.ClickAdd? && e.activityId !in catalogue ==> r == st
    ensures (e.StepDown? || e.StepUp? || e.ClickRemove?) && e.line >= |st.cart.items| ==> r == st
    ensures e.CheckoutSucceeded? ==> CartReducer.Valid(r.cart) && |r.cart.items| == 0
  {
    match e
    case ClickAdd(id) =>
      if id in catalogue then
        st.(cart := CartReducer.Reduce(st.cart,
              CartReducer.AddItem(EventsPage.AddToCartPayload(st.sel, catalogue[id]))))
      else st
    case SetQuantity(id, q) => st.(sel := EventsPage.ChangeQuantity(st.sel, id, q))
    case SetPricing(id, pt) => st.(sel := EventsPage.ChangePricing(st.sel, st.cart, id, pt))
    case StepDown(p) =>
      if p < |st.cart.items| then
        st.(cart := CartReducer.Reduce(st.cart, CartPage.Decrement(st.cart.items[p])))
      else st
    case StepUp(p) =>
      if p < |st.cart.items| then
        st.(cart := CartReducer.Reduce(st.cart, CartPage.Increment(st.cart.items[p])))
      else st
    case ClickRemove(p) =>
      if p < |st.cart.items| then
        st.(cart := CartReducer.Reduce(st.cart, CartPage.RemoveRequest(st.cart.items[p])))
      else st
    case CheckoutSucceeded => st.(cart := CartReducer.Reduce(st.cart, CartReducer.ClearCart))
  }

  function RunUi(catalogue: map<string, Activity>, st: Session, events: seq<UiEvent>): Session
    decreases |events|
  {
    if |events| == 0 then st else RunUi(catalogue, Step(catalogue, st, events[0]), events[1..])
  }

  /** Every line's price is the catalogue's price for its tier. */
  predicate PricesFromCatalogue(catalogue: map<string, Activity>, items: seq<CartItem>) {
    forall j :: 0 <= j < |items| ==>
      items[j].activityId in catalogue &&
      items[j].unitPrice == EventsPage.UnitPriceFor(catalogue[items[j].activityId], items[j].pricingType)
  }

  /** Each catalogue entry is stored under its own id. */
  predicate Keyed(catalogue: map<string, Activity>) {
    forall id :: id in catalogue ==> catalogue[id].id == id
  }

  predicate Good(catalogue: map<string, Activity>, st: Session) {
    && Keyed(catalogue)
    && EventsPage.SelectorsPositive(st.sel)
    && CartReducer.Valid(st.cart)
    && CartReducer.QuantitiesPositive(st.cart.items)
    && PricesFromCatalogue(catalogue, st.cart.items)
  }

  lemma ActionKeepsCataloguePrices(catalogue: map<string, Activity>, s: CartState, a: CartReducer.CartAction)
    requires PricesFromCatalogue(catalogue, s.items)
    requires a.AddItem? ==>
      a.item.activityId in catalogue &&
      a.item.unitPrice == EventsPage.UnitPriceFor(catalogue[a.item.activityId], a.item.pricingType)
    ensures PricesFromCatalogue(catalogue, CartReducer.Reduce(s, a).items)
  {
    var r := CartReducer.Reduce(s, a);
    forall j | 0 <= j < |r.items|
      ensures r.items[j].activityId in catalogue
      ensures r.items[j].unitPrice == EventsPage.UnitPriceFor(catalogue[r.items[j].activityId], r.items[j].pricingType)
    {
      CartReducer.ReduceKeepsLinePrices(s, a, j);
    }
  }

  /** A cart action taken on a good session keeps it good. */
  lemma CartActionKeepsGood(catalogue: map<string, Activity>, st: Session, a: CartReducer.CartAction)
    requires Good(catalogue, st)
    requires a.AddItem? ==>
      a.item.quantity >= 1 && a.item.activityId in catalogue &&
      a.item.unitPrice == EventsPage.UnitPriceFor(catalogue[a.item.activityId], a.item.pricingType)
    ensures Good(catalogue, st.(cart := CartReducer.Reduce(st.cart, a)))
  {
    if a.AddItem? {
      var p := CartReducer.FindIndex(st.cart.items, a.item.activityId, a.item.pricingType);
      if p >= 0 {
        assert CartReducer.Find(st.cart.items, a.item.activityId, a.item.pricingType).value == st.cart.items[p];
      }
    }
    assert CartReducer.PriceConsistent(st.cart, a);
    CartReducer.ReducePreservesValid(st.cart, a);
    CartReducer.ReducePreservesPositive(st.cart, a);
    ActionKeepsCataloguePrices(catalogue, st.cart, a);
  }

  lemma StepKeepsGood(catalogue: map<string, Activity>, st: Session, e: UiEvent)
    requires Good(catalogue, st)
    ensures Good(catalogue, Step(catalogue, st, e))
  {
    match e
    case ClickAdd(id) =>
      if id in catalogue {
        CartActionKeepsGood(catalogue, st, CartReducer.AddItem(EventsPage.AddToCartPayload(st.sel, catalogue[id])));
      }
    case SetQuantity(_, _) =>
    case SetPricing(_, _) =>
    case StepDown(p) =>
      if p < |st.cart.items| { CartActionKeepsGood(catalogue, st, CartPage.Decrement(st.cart.items[p])); }
    case StepUp(p) =>
      if p < |st.cart.items| { CartActionKeepsGood(catalogue, st, CartPage.Increment(st.cart.items[p])); }
    case ClickRemove(p) =>
      if p < |st.cart.items| { CartActionKeepsGood(catalogue, st, CartPage.RemoveRequest(st.cart.items[p])); }
    case CheckoutSucceeded =>
      CartActionKeepsGood(catalogue, st, CartReducer.ClearCart);
  }

  /** From a fresh page load and an empty cart, any sequence of clicks keeps
      keys unique, quantities at least 1, selector quantities at least 1,
      and the stored totals equal to the live sums. */
  lemma {:induction false} SessionsStayGood(catalogue: map<string, Activity>, activities: seq<Activity>, events: seq<UiEvent>)
    requires Keyed(catalogue)
    ensures Good(catalogue, RunUi(catalogue, Session(EventsPage.InitialSelectors(activities), CartReducer.InitialState()), events))
  {
    RunKeepsGood(catalogue, Session(EventsPage.InitialSelectors(activities), CartReducer.InitialState()), events);
  }

  lemma {:induction false} RunKeepsGood(catalogue: map<string, Activity>, st: Session, events: seq<UiEvent>)
    requires Good(catalogue, st)
    ensures Good(catalogue, RunUi(catalogue, st, events))
    decreases |events|
  {
    if |events| > 0 {
      StepKeepsGood(catalogue, st, events[0]);
      RunKeepsGood(catalogue, Step(catalogue, st, events[0]), events[1..]);
    }
  }
}

=== FILE: text.dfy ===
/** String helpers shared by the pages: decimal rendering of integers
    (JavaScript's `String(n)` and template interpolation), `padStart`,
    ASCII lower-casing, `includes`, `join`, and JavaScript's notion of
    string length and whitespace. */
module Text {

  // ---------------------------------------------------------------------
  // Digits and decimal rendering
  // ---------------------------------------------------------------------

  predicate IsDigit(c: char) {
    '0' <= c <= '9'
  }

  predicate AllDigits(s: string) {
    forall i :: 0 <= i < |s| ==> IsDigit(s[i])
  }

  function DigitChar(d: nat): (c: char)
    requires d < 10
    ensures IsDigit(c)
  {
    ['0', '1', '2', '3', '4', '5', '6', '7', '8', '9'][d]
  }

  function DigitValue(c: char): (d: nat)
    requires IsDigit(c)
    ensures d < 10
  {
    (c as int - '0' as int) as nat
  }

  lemma DigitRoundTrip(d: nat)
    requires d < 10
    ensures DigitValue(DigitChar(d)) == d
  {
  }

  /** The decimal rendering of a non-negative integer, as `String(n)` gives
      it: no sign, no leading zero unless the number is 0. */
  function NatToString(n: nat): (r: string)
    ensures 1 <= |r|
    ensures AllDigits(r)
    ensures |r| == 1 <==> n < 10
    ensures |r| > 1 ==> r[0] != '0'
    decreases n
  {
    if n < 10 then [DigitChar(n)]
    else NatToString(n / 10) + [DigitChar(n % 10)]
  }

  /** The decimal rendering of any integer: a leading '-' for negatives. */
  function IntToString(i: int): (r: string)
    ensures 1 <= |r|
    ensures i >= 0 ==> r == NatToString(i)
    ensures i < 0 ==> r[0] == '-' && r[1..] == NatToString(-i)
    ensures forall k :: 0 <= k < |r| ==> r[k] == '-' || IsDigit(r[k])
  {
    if i < 0 then "-" + NatToString(-i) else NatToString(i)
  }

  /** Reading a rendered integer back: an optional '-' then digits. */
  function ParseInt(s: string): int
    requires |s| >= 1
    requires s[0] == '-' ==> AllDigits(s[1..])
    requires s[0] != '-' ==> AllDigits(s)
  {
    if s[0] == '-' then -(ParseNat(s[1..]) as int) else ParseNat(s)
  }

  /** Reading back a rendered integer gives the integer. */
  lemma IntToStringRoundTrip(i: int)
    ensures var r := IntToString(i);
      && (r[0] == '-' ==> AllDigits(r[1..]))
      && (r[0] != '-' ==> AllDigits(r))
      && ParseInt(r) == i
  {
    if i < 0 {
      NatToStringRoundTrip(-i);
    } else {
      NatToStringRoundTrip(i);
    }
  }

  /** The value of a string of decimal digits (leading zeros allowed). */
  function ParseNat(s: string): nat
    requires AllDigits(s)
  {
    if |s| == 0 then 0
    else ParseNat(s[..|s| - 1]) * 10 + DigitValue(s[|s| - 1])
  }

  /** Reading back a rendered number gives the number. */
  lemma {:induction false} NatToStringRoundTrip(n: nat)
    ensures ParseNat(NatToString(n)) == n
    decreases n
  {
    if n >= 10 {
      var s := NatToString(n);
      NatToStringRoundTrip(n / 10);
      assert s[..|s| - 1] == NatToString(n / 10);
      DigitRoundTrip(n % 10);
    }
  }

  /** Leading zeros do not change the value read. */
  lemma {:induction false} ParseNatLeadingZeros(k: nat, s: string)
    requires AllDigits(s)
    ensures AllDigits(Zeros(k) + s)
    ensures ParseNat(Zeros(k) + s) == ParseNat(s)
    decreases |s|
  {
    var t := Zeros(k) + s;
    assert AllDigits(t) by {
      forall i | 0 <= i < |t| ensures IsDigit(t[i]) {
        if i < k { assert t[i] == Zeros(k)[i]; } else { assert t[i] == s[i - k]; }
      }
    }
    if |s| == 0 {
      ZerosParse(k);
      assert t == Zeros(k);
    } else {
      assert t[..|t| - 1] == Zeros(k) + s[..|s| - 1];
      ParseNatLeadingZeros(k, s[..|s| - 1]);
    }
  }

  function Zeros(k: nat): (r: string)
    ensures |r| == k
    ensures forall i :: 0 <= i < k ==> r[i] == '0'
  {
    seq(k, _ => '0')
  }

  lemma {:induction false} ZerosParse(k: nat)
    ensures AllDigits(Zeros(k))
    ensures ParseNat(Zeros(k)) == 0
  {
    if k > 0 {
      assert Zeros(k)[..k - 1] == Zeros(k - 1);
      ZerosParse(k - 1);
    }
  }

  // ---------------------------------------------------------------------
  // padStart
  // ---------------------------------------------------------------------

  /** `s.padStart(width, fill)`: prefix copies of `fill` until the length is
      at least `width`; a string already that long is returned unchanged. */
  function PadStart(s: string, width: nat, fill: char): (r: string)
    ensures |r| == if |s| >= width then |s| else width
    ensures r[|r| - |s|..] == s
    ensures forall i :: 0 <= i < |r| - |s| ==> r[i] == fill
  {
    if |s| >= width then s else seq(width - |s|, _ => fill) + s
  }

  // ---------------------------------------------------------------------
  // Lower-casing, substring search, join
  // ---------------------------------------------------------------------

  function LowerChar(c: char): (r: char)
    ensures 'A' <= c <= 'Z' ==> 'a' <= r <= 'z'
    ensures !('A' <= c <= 'Z') ==> r == c
  {
    if 'A' <= c <= 'Z' then (c as int + 32) as char else c
  }

  /** `s.toLowerCase()` on ASCII letters; every other character is kept. */
  function Lower(s: string): (r: string)
    ensures |r| == |s|
    ensures forall i :: 0 <= i < |s| ==> r[i] == LowerChar(s[i])
  {
    seq(|s|, i requires 0 <= i < |s| => LowerChar(s[i]))
  }

  predicate IsPrefix(p: string, s: string) {
    |p| <= |s| && s[..|p|] == p
  }

  /** `s.includes(sub)`: `sub` occurs at some position of `s`. */
  predicate Contains(s: string, sub: string)
    decreases |s|
  {
    IsPrefix(sub, s) || (|s| > 0 && Contains(s[1..], sub))
  }

  /** Every string includes the empty string. */
  lemma ContainsEmpty(s: string)
    ensures Contains(s, "")
  {
    assert IsPrefix("", s);
  }

  /** `Contains` is the existence of a match position. */
  lemma {:induction false} ContainsAt(s: string, sub: string, k: nat)
    requires k + |sub| <= |s| && s[k..k + |sub|] == sub
    ensures Contains(s, sub)
    decreases k
  {
    if k == 0 {
      assert s[..|sub|] == sub;
    } else {
      assert s[1..][k - 1..k - 1 + |sub|] == s[k..k + |sub|];
      ContainsAt(s[1..], sub, k - 1);
    }
  }

  /** `xs.join(sep)`. */
  function Join(xs: seq<string>, sep: string): string
    decreases |xs|
  {
    if |xs| == 0 then ""
    else if |xs| == 1 then xs[0]
    else xs[0] + sep + Join(xs[1..], sep)
  }

  /** `s.split(sep)` for a one-character separator: the pieces between
      separators, so there is always at least one. */
  function Split(s: string, sep: char): (r: seq<string>)
    ensures |r| >= 1
    ensures forall k :: 0 <= k < |r| ==> sep !in r[k]
    decreases |s|
  {
    if |s| == 0 then [""]
    else if s[0] == sep then [""] + Split(s[1..], sep)
    else
      var t := Split(s[1..], sep);
      [[s[0]] + t[0]] + t[1..]
  }

  lemma {:induction false} SplitPiece(x: string, sep: char, rest: string)
    requires sep !in x
    ensures Split(x + [sep] + rest, sep) == [x] + Split(rest, sep)
    decreases |x|
  {
    if |x| == 0 {
      assert x + [sep] + rest == [sep] + rest;
      assert ([sep] + rest)[1..] == rest;
    } else {
      assert (x + [sep] + rest)[1..] == x[1..] + [sep] + rest;
      assert x[0] != sep;
      SplitPiece(x[1..], sep, rest);
      assert [x[0]] + x[1..] == x;
    }
  }

  lemma {:induction false} SplitNone(x: string, sep: char)
    requires sep !in x
    ensures Split(x, sep) == [x]
    decreases |x|
  {
    if |x| > 0 {
      assert x[0] != sep;
      SplitNone(x[1..], sep);
      assert [x[0]] + x[1..] == x;
    }
  }

  /** Splitting a join on a separator no piece contains gives the pieces
      back. */
  lemma {:induction false} SplitJoin(xs: seq<string>, sep: char)
    requires |xs| >= 1
    requires forall k :: 0 <= k < |xs| ==> sep !in xs[k]
    ensures Split(Join(xs, [sep]), sep) == xs
    decreases |xs|
  {
    if |xs| == 1 {
      SplitNone(xs[0], sep);
    } else {
      SplitJoin(xs[1..], sep);
      SplitPiece(xs[0], sep, Join(xs[1..], [sep]));
      assert [xs[0]] + xs[1..] == xs;
    }
  }

  /** Three separator-free pieces joined by the separator split back. */
  lemma SplitThree(a: string, b: string, c: string, sep: char)
    requires sep !in a && sep !in b && sep !in c
    ensures Split(a + [sep] + b + [sep] + c, sep) == [a, b, c]
  {
    var xs := [a, b, c];
    assert Join(xs[1..], [sep]) == b + [sep] + c by {
      assert xs[1..][1..] == [c];
    }
    assert Join(xs, [sep]) == a + [sep] + b + [sep] + c;
    SplitJoin(xs, sep);
  }

  /** Number of occurrences of `c` in `s`. */
  function CountChar(c: char, s: string): nat
    decreases |s|
  {
    if |s| == 0 then 0
    else (if s[0] == c then 1 else 0) + CountChar(c, s[1..])
  }

  lemma {:induction false} CountCharAppend(c: char, a: string, b: string)
    ensures CountChar(c, a + b) == CountChar(c, a) + CountChar(c, b)
    decreases |a|
  {
    if |a| > 0 {
      assert (a + b)[1..] == a[1..] + b;
      CountCharAppend(c, a[1..], b);
    } else {
      assert a + b == b;
    }
  }

  // ---------------------------------------------------------------------
  // JavaScript string length and whitespace
  // ---------------------------------------------------------------------

  /** `s.length` in JavaScript counts UTF-16 code units: characters outside
      the Basic Multilingual Plane take two. */
  function Utf16Length(s: string): (n: nat)
    ensures |s| <= n <= 2 * |s|
    decreases |s|
  {
    if |s| == 0 then 0
    else (if s[0] as int > 0xFFFF then 2 else 1) + Utf16Length(s[1..])
  }

  /** The characters the regular-expression class `\s` matches. */
  predicate IsJsWhitespace(c: char) {
    c == ' ' || c == '\t' || c == '\n' || c == '\r' || c == '\U{000B}'
    || c == '\U{000C}' || c == '\U{00A0}' || c == '\U{1680}'
    || ('\U{2000}' <= c <= '\U{200A}') || c == '\U{2028}' || c == '\U{2029}'
    || c == '\U{202F}' || c == '\U{205F}' || c == '\U{3000}' || c == '\U{FEFF}'
  }

  /** `s.replace(/\s/g, '')`. */
  function StripWhitespace(s: string): (r: string)
    ensures |r| <= |s|
    ensures forall i :: 0 <= i < |r| ==> !IsJsWhitespace(r[i])
    decreases |s|
  {
    if |s| == 0 then ""
    else if IsJsWhitespace(s[0]) then StripWhitespace(s[1..])
    else [s[0]] + StripWhitespace(s[1..])
  }

  lemma {:induction false} StripAppend(a: string, b: string)
    ensures StripWhitespace(a + b) == StripWhitespace(a) + StripWhitespace(b)
    decreases |a|
  {
    if |a| == 0 {
      assert a + b == b;
    } else {
      assert (a + b)[1..] == a[1..] + b;
      StripAppend(a[1..], b);
    }
  }

  /** A string made only of whitespace strips to nothing. */
  lemma {:induction false} StripAllWhitespace(w: string)
    requires forall i :: 0 <= i < |w| ==> IsJsWhitespace(w[i])
    ensures StripWhitespace(w) == ""
    decreases |w|
  {
    if |w| > 0 {
      StripAllWhitespace(w[1..]);
    }
  }

  /** Stripping twice is stripping once. */
  lemma {:induction false} StripIdempotent(s: string)
    ensures StripWhitespace(StripWhitespace(s)) == StripWhitespace(s)
    decreases |s|
  {
    if |s| > 0 {
      StripIdempotent(s[1..]);
      if !IsJsWhitespace(s[0]) {
        var t := StripWhitespace(s[1..]);
        assert ([s[0]] + t)[1..] == t;
      }
    }
  }
}

=== FILE: types.dfy ===
/** The entities of the storefront: cart lines, the cart itself, and the
    order, order-item and attendee records written at checkout.

    Identifiers and timestamps are opaque strings; amounts and quantities are
    integers (dong has no subunit). Columns that the database fills in on
    insert (`id`, `created_at`, `updated_at`) are not part of the inserted
    rows modelled here. */
module Types {
  import opened Optional

  /** The two price tiers of an activity. */
  datatype PricingType = Member | NonMember

  /** The wire spelling of a tier. */
  function PricingTypeName(p: PricingType): string {
    match p
    case Member => "member"
    case NonMember => "non_member"
  }

  /** Reading a tier back: only the two spellings are tiers. */
  function ParsePricingType(s: string): (r: Option<PricingType>)
    ensures r.Some? <==> s == "member" || s == "non_member"
    ensures r.Some? ==> PricingTypeName(r.value) == s
  {
    if s == "member" then Some(Member)
    else if s == "non_member" then Some(NonMember)
    else None
  }

  /** Every tier is named by exactly one of the two spellings, and the
      spellings differ. */
  lemma PricingTypeNames(p: PricingType)
    ensures ParsePricingType(PricingTypeName(p)) == Some(p)
    ensures PricingTypeName(p) == "member" || PricingTypeName(p) == "non_member"
    ensures PricingTypeName(Member) != PricingTypeName(NonMember)
  {
  }

  /** One cart line. `title` is a copy taken when the line was added, not a
      reference to the activity. */
  datatype CartItem = CartItem(
    activityId: string,
    title: string,
    quantity: int,
    unitPrice: int,
    pricingType: PricingType)

  /** The cart: its lines plus the two stored aggregates. */
  datatype CartState = CartState(
    items: seq<CartItem>,
    totalAmount: int,
    totalItems: int)

  /** The closed set of payment states an order record declares. */
  datatype PaymentStatus = Pending | Paid | Cancelled

  function PaymentStatusName(p: PaymentStatus): string {
    match p
    case Pending => "pending"
    case Paid => "paid"
    case Cancelled => "cancelled"
  }

  function ParsePaymentStatus(s: string): (r: Option<PaymentStatus>)
    ensures r.Some? <==> s in {"pending", "paid", "cancelled"}
    ensures r.Some? ==> PaymentStatusName(r.value) == s
  {
    if s == "pending" then Some(Pending)
    else if s == "paid" then Some(Paid)
    else if s == "cancelled" then Some(Cancelled)
    else None
  }

  /** The order header as inserted. */
  datatype Order = Order(
    orderCode: string,
    registrationId: string,
    totalAmount: int,
    paymentStatus: PaymentStatus)

  /** One order-item row as inserted. It carries no pricing tier. */
  datatype OrderItem = OrderItem(
    orderId: string,
    activityId: string,
    quantity: int,
    pricePerUnit: int,
    subtotal: int)

  /** One attendee row as inserted: a link between one order and one
      activity, for one person. */
  datatype Attendee = Attendee(
    orderId: string,
    activityId: string,
    fullName: string,
    phoneNumber: string,
    email: Option<string>,
    unitId: string,
    isPrimary: bool)

  /** An activity of the catalogue, with the nullable columns as options. */
  datatype Activity = Activity(
    id: string,
    title: string,
    description: Option<string>,
    priceMember: Option<int>,
    priceNonMember: Option<int>,
    maxParticipants: Option<int>,
    status: Option<string>,
    startDate: Option<string>,
    endDate: Option<string>,
    location: Option<string>)
}

=== FILE: utils.dfy ===
/** `generateOrderCode` and `cn`. The current date (as the ISO string
    `toISOString` returns) and the random draw are parameters. */
module Utils {
  import opened Text

  // ---------------------------------------------------------------------
  // Order codes
  // ---------------------------------------------------------------------

  const OrderCodePrefix: string := "NYC26"

  /** `s.replace(/-/g, '')`. */
  function RemoveDashes(s: string): (r: string)
    ensures '-' !in r
    ensures |r| <= |s|
    decreases |s|
  {
    if |s| == 0 then ""
    else if s[0] == '-' then RemoveDashes(s[1..])
    else [s[0]] + RemoveDashes(s[1..])
  }

  /** `iso.slice(0, 10).replace(/-/g, '')`. */
  function DatePart(iso: string): string {
    RemoveDashes(if |iso| <= 10 then iso else iso[..10])
  }

  /** `generateOrderCode`, where `random` is `Math.floor(Math.random() * 10000)`. */
  function GenerateOrderCode(isoNow: string, random: nat): (code: string)
    ensures IsPrefix(OrderCodePrefix, code)
  {
    OrderCodePrefix + DatePart(isoNow) + PadStart(NatToString(random), 4, '0')
  }

  /** The leading "yyyy-mm-dd" of an ISO timestamp. */
  predicate IsoDate(iso: string) {
    && |iso| >= 10
    && AllDigits(iso[..4]) && iso[4] == '-'
    && AllDigits(iso[5..7]) && iso[7] == '-'
    && AllDigits(iso[8..10])
  }

  lemma IsoDatePart(iso: string)
    requires IsoDate(iso)
    ensures DatePart(iso) == iso[..4] + iso[5..7] + iso[8..10]
    ensures |DatePart(iso)| == 8 && AllDigits(DatePart(iso))
  {
    var a, b, c := iso[..4], iso[5..7], iso[8..10];
    assert iso[..10] == a + ['-'] + b + ['-'] + c;
    RemoveDashesNone(a);
    RemoveDashesNone(b);
    RemoveDashesNone(c);
    assert RemoveDashes(['-']) == "";
    RemoveDashesAppend(a + ['-'] + b + ['-'], c);
    RemoveDashesAppend(a + ['-'] + b, ['-']);
    RemoveDashesAppend(a + ['-'], b);
    RemoveDashesAppend(a, ['-']);
    var x: string := [];
    assert RemoveDashes(a + ['-']) == a + x;
    assert RemoveDashes(a + ['-'] + b) == a + x + b;
    assert RemoveDashes(a + ['-'] + b + ['-']) == a + x + b + x;
    assert a + x + b + x + c == a + b + c;
    assert (if |iso| <= 10 then iso else iso[..10]) == iso[..10];
    assert DatePart(iso) == a + b + c;
    assert AllDigits(a + b + c) by {
      forall k | 0 <= k < |a + b + c|
        ensures IsDigit((a + b + c)[k])
      {
        if k < 4 { assert (a + b + c)[k] == a[k]; }
        else if k < 6 { assert (a + b + c)[k] == b[k - 4]; }
        else { assert (a + b + c)[k] == c[k - 6]; }
      }
    }
  }

  lemma {:induction false} RemoveDashesAppend(a: string, b: string)
    ensures RemoveDashes(a + b) == RemoveDashes(a) + RemoveDashes(b)
    decreases |a|
  {
    if |a| == 0 {
      assert a + b == b;
    } else {
      assert (a + b)[1..] == a[1..] + b;
      RemoveDashesAppend(a[1..], b);
    }
  }

  lemma {:induction false} RemoveDashesNone(s: string)
    requires AllDigits(s)
    ensures RemoveDashes(s) == s
    decreases |s|
  {
    if |s| > 0 {
      RemoveDashesNone(s[1..]);
      assert s == [s[0]] + s[1..];
    }
  }

  /** For a well-formed date and a draw in 0..9999, the code is 17
      characters: the prefix, the eight date digits, and four digits that
      read back as the draw. */
  lemma OrderCodeShape(isoNow: string, random: nat)
    requires IsoDate(isoNow)
    requires random < 10000
    ensures var code := GenerateOrderCode(isoNow, random);
      && |code| == 17
      && code[..5] == OrderCodePrefix
      && code[5..13] == isoNow[..4] + isoNow[5..7] + isoNow[8..10]
      && AllDigits(code[13..])
      && ParseNat(code[13..]) == random
  {
    IsoDatePart(isoNow);
    var digits := NatToString(random);
    NatToStringBound(random);
    var padded := PadStart(digits, 4, '0');
    assert |padded| == 4;
    var k := 4 - |digits|;
    assert padded == Zeros(k) + digits;
    ParseNatLeadingZeros(k, digits);
    NatToStringRoundTrip(random);
    var code := GenerateOrderCode(isoNow, random);
    assert code == OrderCodePrefix + DatePart(isoNow) + padded;
    assert code[13..] == padded;
  }

  lemma {:induction false} NatToStringBound(n: nat)
    requires n < 10000
    ensures |NatToString(n)| <= 4
  {
    if n >= 10 {
      NatToStringBound(n / 10);
      assert |NatToString(n / 10)| <= 3 by { NatToStringBound3(n / 10); }
    }
  }

  lemma {:induction false} NatToStringBound3(n: nat)
    requires n < 1000
    ensures |NatToString(n)| <= 3
  {
    if n >= 10 {
      assert |NatToString(n / 10)| <= 2 by {
        if n / 10 >= 10 { assert (n / 10) / 10 < 10; }
      }
    }
  }

  // ---------------------------------------------------------------------
  // cn
  // ---------------------------------------------------------------------

  /** An argument of `cn`: a string, `false`, `null` or `undefined`. */
  datatype ClassArg = Str(s: string) | False | Null | Undefined

  predicate Truthy(a: ClassArg) {
    a.Str? && a.s != ""
  }

  /** The truthy arguments' strings, in order (`filter(Boolean)`). */
  function Kept(args: seq<ClassArg>): (r: seq<string>)
    ensures |r| <= |args|
    ensures forall k :: 0 <= k < |r| ==> r[k] != ""
    decreases |args|
  {
    if |args| == 0 then []
    else if Truthy(args[0]) then [args[0].s] + Kept(args[1..])
    else Kept(args[1..])
  }

  /** `cn`: the truthy arguments joined by single spaces. */
  function Cn(args: seq<ClassArg>): (r: string)
    ensures r == "" <==> |Kept(args)| == 0
    ensures |Kept(args)| == 1 ==> r == Kept(args)[0]
  {
    Join(Kept(args), " ")
  }

  /** With no truthy argument the result is empty. */
  lemma {:induction false} CnOfFalsy(args: seq<ClassArg>)
    requires forall k :: 0 <= k < |args| ==> !Truthy(args[k])
    ensures Cn(args) == ""
    decreases |args|
  {
    if |args| > 0 {
      CnOfFalsy(args[1..]);
    }
  }

  lemma {:induction false} KeptAppend(a: seq<ClassArg>, b: seq<ClassArg>)
    ensures Kept(a + b) == Kept(a) + Kept(b)
    decreases |a|
  {
    if |a| == 0 {
      assert a + b == b;
    } else {
      assert (a + b)[1..] == a[1..] + b;
      KeptAppend(a[1..], b);
    }
  }

  /** Dropping a falsy argument, wherever it stands, changes nothing. */
  lemma FalsyArgumentIgnored(a: seq<ClassArg>, x: ClassArg, b: seq<ClassArg>)
    requires !Truthy(x)
    ensures Cn(a + [x] + b) == Cn(a + b)
  {
    KeptAppend(a + [x], b);
    KeptAppend(a, [x]);
    KeptAppend(a, b);
    assert Kept([x]) == [];
    assert Kept(a) + [] == Kept(a);
  }

  /** When no class name contains a space, splitting the result on spaces
      gives back exactly the truthy arguments, in order. */
  lemma CnSplitsBack(args: seq<ClassArg>)
    requires forall k :: 0 <= k < |args| ==> args[k].Str? ==> ' ' !in args[k].s
    requires |Kept(args)| > 0
    ensures Split(Cn(args), ' ') == Kept(args)
  {
    KeptHaveNoSpace(args);
    SplitJoin(Kept(args), ' ');
  }

  lemma {:induction false} KeptHaveNoSpace(args: seq<ClassArg>)
    requires forall k :: 0 <= k < |args| ==> args[k].Str? ==> ' ' !in args[k].s
    ensures forall k :: 0 <= k < |Kept(args)| ==> ' ' !in Kept(args)[k]
    decreases |args|
  {
    if |args| > 0 {
      KeptHaveNoSpace(args[1..]);
    }
  }
}

=== FILE: validations.dfy ===
/** Input rules: the Vietnamese phone-number pattern, and the length, enum
    and range rules of the checkout and activity forms. The schema library's
    e-mail and UUID checks are parameters. */
module Validations {
  import opened Optional
  import opened Text

  // ---------------------------------------------------------------------
  // Phone numbers
  // ---------------------------------------------------------------------

  /** The part after the prefix: a digit 1-9, then 8 or 9 more digits. */
  predicate SubscriberOk(t: string) {
    (|t| == 9 || |t| == 10) && '1' <= t[0] <= '9' && AllDigits(t)
  }

  /** `^(?:\+84|0)[1-9]\d{8,9}$`, matched against a whole string. */
  predicate MatchesPhonePattern(s: string) {
    || (IsPrefix("+84", s) && SubscriberOk(s[3..]))
    || (IsPrefix("0", s) && SubscriberOk(s[1..]))
  }

  /** `isValidPhoneNumber`: the pattern, after removing all whitespace. */
  function IsValidPhoneNumber(phone: string): (ok: bool)
    ensures ok ==> 10 <= |phone|
  {
    MatchesPhonePattern(StripWhitespace(phone))
  }

  /** A single left-to-right scan deciding the same question: it drops
      whitespace while copying, then reads the prefix and counts digits. */
  method CheckPhone(phone: string) returns (ok: bool)
    ensures ok == IsValidPhoneNumber(phone)
  {
    var s: string := "";
    var i := 0;
    while i < |phone|
      invariant 0 <= i <= |phone|
      invariant s == StripWhitespace(phone[..i])
    {
      StripAppend(phone[..i], [phone[i]]);
      assert phone[..i + 1] == phone[..i] + [phone[i]];
      if !IsJsWhitespace(phone[i]) {
        s := s + [phone[i]];
      }
      i := i + 1;
    }
    assert phone[..i] == phone;
    var start := 0;
    if |s| >= 3 && s[0] == '+' && s[1] == '8' && s[2] == '4' {
      start := 3;
    } else if |s| >= 1 && s[0] == '0' {
      start := 1;
    } else {
      return false;
    }
    var rest := s[start..];
    if !(|rest| == 9 || |rest| == 10) || !('1' <= rest[0] <= '9') {
      ok := false;
      assert !SubscriberOk(rest);
      return;
    }
    var j := 0;
    while j < |rest|
      invariant 0 <= j <= |rest|
      invariant forall k :: 0 <= k < j ==> IsDigit(rest[k])
    {
      if !IsDigit(rest[j]) {
        return false;
      }
      j := j + 1;
    }
    ok := true;
  }

  /** Whitespace anywhere in the input never changes the verdict. */
  lemma WhitespaceNeverMatters(a: string, w: string, b: string)
    requires forall i :: 0 <= i < |w| ==> IsJsWhitespace(w[i])
    ensures IsValidPhoneNumber(a + w + b) == IsValidPhoneNumber(a + b)
  {
    StripAppend(a + w, b);
    StripAppend(a, w);
    StripAppend(a, b);
    StripAllWhitespace(w);
    assert StripWhitespace(a) + "" == StripWhitespace(a);
  }

  /** An accepted number, once stripped, is 10-11 characters starting with
      "0" or 12-13 characters starting with "+84". */
  lemma AcceptedLengths(phone: string)
    requires IsValidPhoneNumber(phone)
    ensures var s := StripWhitespace(phone);
      || (s[0] == '0' && 10 <= |s| <= 11)
      || (IsPrefix("+84", s) && 12 <= |s| <= 13)
  {
  }

  /** A '0' right after the prefix, or a non-digit anywhere after it, is
      rejected. */
  lemma RejectedAfterPrefix(prefix: string, rest: string, k: nat)
    requires prefix == "0" || prefix == "+84"
    requires k < |rest|
    requires (k == 0 && rest[0] == '0') || !IsDigit(rest[k])
    requires forall i :: 0 <= i < |rest| ==> !IsJsWhitespace(rest[i])
    ensures !MatchesPhonePattern(prefix + rest)
  {
    var s := prefix + rest;
    if prefix == "0" {
      assert s[1..] == rest;
      assert s[0] == '0';
      assert |s| < 3 || s[..3][0] == s[0];
    } else {
      assert s[3..] == rest;
      assert s[0] == '+';
      assert s[..1][0] == s[0];
    }
  }

  // ---------------------------------------------------------------------
  // Form schemas
  // ---------------------------------------------------------------------

  datatype CheckoutInput = CheckoutInput(
    fullName: string,
    phoneNumber: string,
    email: Option<string>,
    unitId: string,
    title: Option<string>,
    seatReq: Option<string>,
    specReq: Option<string>,
    note: Option<string>)

  datatype CheckoutField = FullName | PhoneNumber | Email | UnitId | SeatReq

  /** The fields of the checkout form that fail their rule. `isEmail` and
      `isUuid` stand for the schema library's checks. */
  function CheckoutErrors(f: CheckoutInput, isEmail: string -> bool, isUuid: string -> bool): (r: set<CheckoutField>)
    ensures FullName in r <==> Utf16Length(f.fullName) < 2
    ensures PhoneNumber in r <==> !IsValidPhoneNumber(f.phoneNumber)
    ensures Email in r <==> f.email.Some? && f.email.value != "" && !isEmail(f.email.value)
    ensures UnitId in r <==> !isUuid(f.unitId)
    ensures SeatReq in r <==> f.seatReq.Some? && f.seatReq.value != "protocol" && f.seatReq.value != "chapter_table"
  {
    (if Utf16Length(f.fullName) < 2 then {FullName} else {})
    + (if !IsValidPhoneNumber(f.phoneNumber) then {PhoneNumber} else {})
    + (if f.email.Some? && f.email.value != "" && !isEmail(f.email.value) then {Email} else {})
    + (if !isUuid(f.unitId) then {UnitId} else {})
    + (if f.seatReq.Some? && f.seatReq.value != "protocol" && f.seatReq.value != "chapter_table" then {SeatReq} else {})
  }

  datatype ActivityInput = ActivityInput(
    title: string,
    description: Option<string>,
    price: int,
    maxParticipants: Option<int>,
    startDate: Option<string>,
    endDate: Option<string>,
    location: Option<string>,
    status: string)

  datatype ActivityField = Title | Price | Status

  /** The fields of the activity form that fail their rule. */
  function ActivityErrors(f: ActivityInput): (r: set<ActivityField>)
    ensures Title in r <==> Utf16Length(f.title) < 3
    ensures Price in r <==> f.price < 0
    ensures Status in r <==> f.status != "active" && f.status != "inactive"
  {
    (if Utf16Length(f.title) < 3 then {Title} else {})
    + (if f.price < 0 then {Price} else {})
    + (if f.status != "active" && f.status != "inactive" then {Status} else {})
  }
}
